=== FILE: README.md ===
# Helpdesk authentication, tenancy and store model

A Dafny model of the security core of a multi-tenant helpdesk: an Express
and Mongoose backend that issues and checks JSON Web Tokens, scopes every
ticket, user and audit-trail query to the caller's tenant, and takes
callbacks from an n8n workflow engine; and the zustand stores of its three
React front ends (the shell, the support-tickets app and the admin
dashboard).

The model is functional throughout. Each request handler is a function from
the request context, the request's fields and the collections it reads (a
`seq` of records per MongoDB collection) to the reply and the collections
afterwards. Each store action is a function from the store before it and the
way its API call settled to the store after it. What the code hands to
libraries or the environment comes in as a value:

- token signing and verification: the verifier's outcome (`Verified`,
  `Expired`, `Invalid`, other failure), and a symbolic signer that records
  claims, secret and lifetime (`Jwt`);
- bcrypt's password comparison: a `PasswordCheck` parameter (`AuthController`);
- the clock: a `nowMs` parameter, in milliseconds;
- the new document's ObjectId: an `id` parameter;
- express-validator's `isEmail` and `isURL`, and `new Date(q)` on a query
  string: a verdict or a `DateParam` given with the request;
- `parseInt(q) || d`: the parsed value as `Option<int>` (`Paging.OrDefault`);
- `Number(text)` on a decoded claim: a `numeric` function parameter (`Jwt`);
- environment variables: `Option<string>` parameters, and the token
  lifetimes as the seconds the token library reads from their text.

The modules follow the repository. `Types`, `Jwt`, `AuthMiddleware`,
`AuthController` and `App` cover the token helpers, the guards, the auth
controller and the route table with its error handler. `UserModel`,
`TicketModel` and `AuditLogModel` cover the three schemas with their
defaults, bounds, soft-delete hook and static queries. `TicketRoutes`,
`AdminRoutes`, `UserRoutes` and `WebhookRoutes` cover the routers.
`TicketStore`, `AdminStore`, `AppStore` and `AuthStore` cover the front-end
stores; `StoreActions` holds what the stores share. `Common`, `SoftDelete`,
`Paging`, `Lists` and `Grouping` hold shared definitions: JavaScript
truthiness on optional strings, the schema `trim`, the `deletedAt: null`
default, page arithmetic, and sequence filtering, counting and grouping.

Where the code and its design documentation disagree, the model follows the
code:

- The design reduces every unexpected error to a generic 500 "Internal server
  error". The global error handler instead answers with the error's own
  `statusCode` and `message` when it has them (`App.MapError`).
- The design says audit-write failures never reach the client. That holds
  for the `auditLog` wrapper (`AuthMiddleware.AuditedSend`), but the two
  webhook handlers write their event inside the request's `try`, so a refused
  event is a 500 (see Findings).

Behaviours that look surprising but are kept as written:

- The audit-trail listings apply each date bound on its own, but count their
  total with the range only when both dates are given. With one date the
  total counts events the page does not show
  (`AdminRoutes.SingleDateBoundNotCounted`).
- `isTokenExpired` compares whole seconds, so a token whose `exp` is the
  current second is not yet expired (`Jwt.ExpiryHelpersAgree`). It tests
  `exp` for truthiness and then compares it with `<`, so an `exp` that is
  text and not a number never expires (`Jwt.TextExpiryNeverExpires`).
- The email pattern of the User schema allows only two or three characters
  after the last dot, so "ann@example.info" is refused
  (`UserModel.EmailPatternRefuses`).
- Logout reads its claims from an unverified decode and the audit schema
  takes only an ObjectId as actor, so a token whose user id is not one makes
  logout answer 500.

Seven places where the code evidently does not do what its authors meant are
listed under Findings, one row each. Each is modelled twice: once as written, with the
input that shows the problem, and once corrected, with the intended property
proved. The rest of the model uses the corrected version.

## Model

| member | source | states |
|---|---|---|
| Types.ParseRole | backend/src/types/index.ts:21 | a role is recognised only from one of the three names, and it prints back as the name it came from |
| Types.ParseStatus | backend/src/types/index.ts:39 | a status is recognised only from one of the four names, and it prints back as that name |
| Types.ParsePriority | backend/src/types/index.ts:40 | a priority is recognised only from one of the four names, and it prints back as that name |
| Types.ParseAction | backend/src/types/index.ts:55-65 | an audit action is recognised only from one of the ten tags, and it prints back as that tag |
| Types.EnumerationsRoundTrip | backend/src/types/index.ts:21-65 | every role, status, priority and action is recognised from its own wire name, so each datatype is exactly the union type |
| Jwt.ConfigFromEnv | backend/src/utils/jwt.ts:5-8 | each secret and each lifetime is the environment's value when it is set (and, for a secret, non-empty), otherwise the fixed default: the two default secrets, 15 minutes and 7 days |
| Jwt.ConfigFromEnvRoundTrip | backend/src/utils/jwt.ts:5-8 | every configuration with non-empty secrets is what an environment spelling out its four values yields |
| Jwt.DefaultConfigSeparatesKinds | backend/src/utils/jwt.ts:5-8 | with nothing set, the two secrets differ and the access lifetime is positive and shorter than the refresh lifetime |
| Jwt.ExtractTokenFromHeader | backend/src/utils/jwt.ts:141-147 | a token comes back exactly when the header starts with "Bearer ", and the header is then "Bearer " followed by that token |
| Jwt.ExtractBearerRoundTrip | backend/src/utils/jwt.ts:141-147 | extracting from "Bearer " + t gives t back, for every t including the empty one |
| Jwt.ExtractRejectsOtherSchemes | backend/src/utils/jwt.ts:142 | "Basic …", the bare "Bearer" and lower-case "bearer …" give no token |
| Jwt.AsClaims | backend/src/utils/jwt.ts:152-163 | typed claims come back exactly when the payload passes the shape test, and they encode back to that payload |
| Jwt.ClaimsRoundTrip | backend/src/utils/jwt.ts:152-163 | the encoding of any claim set passes the shape test and decodes to the same claims |
| Jwt.UnknownRoleRejected | backend/src/utils/jwt.ts:157 | a role string outside the three names fails the shape test, however well typed the other fields are |
| Jwt.RolePredicates | backend/src/utils/jwt.ts:168-185 | isAdmin is membership in {Admin, SuperAdmin}; isSuperAdmin implies isAdmin; a check for Admin alone refuses a SuperAdmin |
| Jwt.IsTokenExpired | backend/src/utils/jwt.ts:90-100 | no decode or a falsy exp counts as expired; an exp that reads as NaN never expires; otherwise expired exactly when exp·1000 + 1000 ≤ now, i.e. exp lies before the current whole second |
| Jwt.ExpirySecondsArithmetic | backend/src/utils/jwt.ts:95-96 | exp < ⌊now/1000⌋ holds exactly when (exp + 1)·1000 ≤ now |
| Jwt.GetTokenExpiration | backend/src/utils/jwt.ts:105-114 | a date comes back exactly when exp is truthy; it is the invalid date when exp reads as NaN, and a valid date is exp·1000, a whole second; for an exp that reads as the number n the date is exactly `new Date(n·1000)`: valid with that instant when within the Date range, the invalid date otherwise |
| Jwt.ExpiryHelpersAgree | backend/src/utils/jwt.ts:90-114 | the two helpers agree: no date means expired; with a valid date, expired exactly when it is at least a second in the past; an exp reading as NaN gives the invalid date and is never expired; a token whose exp is the current second is not expired |
| Jwt.ToNumber | backend/src/utils/jwt.ts:96 | a number claim reads as itself, true as 1, and text as `Number` reads it |
| Jwt.MakeDate | backend/src/utils/jwt.ts:110 | `new Date(x)` is valid exactly for a number within 8.64·10^15 ms of the epoch, and then holds x |
| Jwt.TextExpiryNeverExpires | backend/src/utils/jwt.ts:93-96 | an exp of "abc" is not expired at any time and its expiration is the invalid date |
| Jwt.NumericTextExpiryExpires | backend/src/utils/jwt.ts:93-110 | an exp of "5" is coerced: expired from 6 000 ms on, with expiration 5 000 ms |
| Jwt.GenerateTokenPair | backend/src/utils/jwt.ts:119-136 | both tokens carry the same identity claims, each under its own secret and lifetime; expiresIn is the access lifetime, or 900 when the decoded exp is falsy |
| Jwt.VerifyToken | backend/src/utils/jwt.ts:35-74 | success passes the payload through; expiry, a bad token and any other failure give their three messages for each kind of token |
| Jwt.VerifyMessagesDistinct | backend/src/utils/jwt.ts:44-72 | two failures with the same message are the same failure on the same kind of token |
| Jwt.IssuedPairVerifies | backend/src/utils/jwt.ts:13-40 | within its lifetime an issued access token verifies to exactly the identity that was signed; with distinct secrets neither token verifies under the other's secret |
| AuthMiddleware.BearerToken | backend/src/middleware/auth.ts:19-35 | a token is found exactly when the header is truthy and starts with "Bearer "; it is the rest of the header and is never empty |
| AuthMiddleware.Authenticate | backend/src/middleware/auth.ts:11-77 | every refusal is a 401; the checks come in order: missing header, bad format, the verifier's own message, "Invalid token payload"; it passes exactly when the token verifies to well-formed claims whose user is found active and not deleted, and then the principal is the verified payload and the request tenant is its customerId |
| AuthMiddleware.AuthenticateChecksAccount | backend/src/middleware/auth.ts:48-63 | for a well-formed token, the request passes exactly when a user with that id exists, is active and is not deleted; a missing, inactive and deleted account all get the same 401 message |
| AuthMiddleware.Authorize | backend/src/middleware/auth.ts:83-103 | no principal gives 401; otherwise `next` is called exactly when the role is in the required list, and 403 "Insufficient permissions" is sent if not |
| AuthMiddleware.RequireAdmin | backend/src/middleware/auth.ts:109-127 | passes exactly when a principal is present and is Admin or SuperAdmin; otherwise 401 without a principal and 403 "Admin access required" with one |
| AuthMiddleware.RequireSuperAdmin | backend/src/middleware/auth.ts:133-151 | passes exactly when the principal is a SuperAdmin; otherwise 401 without a principal and 403 "Super admin access required" with one |
| AuthMiddleware.GuardsAgree | backend/src/middleware/auth.ts:83-151 | requireAdmin admits exactly whom authorize([Admin, SuperAdmin]) admits, and requireSuperAdmin exactly whom authorize(SuperAdmin) admits; a super-admin pass implies an admin pass |
| AuthMiddleware.TenantIsolation | backend/src/middleware/auth.ts:157-182 | 401 without principal or tenant; a SuperAdmin with a truthy x-tenant-id proceeds in that tenant; anyone else proceeds, in their own tenant, only when it equals the request tenant, and gets 403 "Cross-tenant access not allowed" otherwise |
| AuthMiddleware.Attach | backend/src/middleware/auth.ts:59-61 | a pass attaches the principal and its tenant; a rejection leaves the request context as it was |
| AuthMiddleware.AuthenticatedStaysInTenant | backend/src/middleware/auth.ts:157-182 | after a successful authenticate tenant isolation never refuses, and it reaches another tenant only for a SuperAdmin who names one in x-tenant-id |
| AuthMiddleware.Or | backend/src/middleware/auth.ts:195 | JavaScript's `a \|\| b` on optional strings: a when it is truthy, otherwise b |
| AuthMiddleware.AuditDecision | backend/src/middleware/auth.ts:192-215 | an event is produced exactly when a principal is attached and the status is below 400; it carries the principal's tenant and user id, the action and resource type, params.id or else body.id, and non-empty ip and agent texts |
| AuthMiddleware.AuditedSend | backend/src/middleware/auth.ts:188-222 | the status sent is the handler's own; the log grows by at most one event stamped now, and by none without a principal or with a status of 400 or more |
| AuthMiddleware.RecordableAccepted | backend/src/models/AuditLog.ts:8-66 | the event of an authenticated, successful request whose texts are within bounds passes every schema bound of the audit collection |
| AuthMiddleware.AuditedSendRecordsSuccess | backend/src/middleware/auth.ts:192-215 | for such a request the log gains exactly that event, with the principal's tenant and user id, the action and the current time |
| AuthMiddleware.OptionalAuth | backend/src/middleware/auth.ts:245-278 | it never answers; the context is either untouched or gains a principal whose tenant becomes the request tenant |
| AuthMiddleware.OptionalAuthAgrees | backend/src/middleware/auth.ts:245-278 | optionalAuth attaches exactly what authenticate would attach, and leaves the context as it was whenever authenticate would refuse |
| AuditLogModel.LogEvent | backend/src/models/AuditLog.ts:172-186 | the stored event carries the current time whatever the input said, the input's tenant, actor and action, and its resource type, IP address and user agent as the schema trims them; a resource id is present exactly when one was given, and is then the given one trimmed |
| AuditLogModel.LogEventIgnoresInputTimestamp | backend/src/models/AuditLog.ts:182-185 | two inputs that differ only in their timestamp are logged identically |
| AuditLogModel.LogEventWithinBounds | backend/src/models/AuditLog.ts:38-63 | an input whose trimmed texts are within the 50/100/500-character bounds and are present where required gives an event within the schema's bounds |
| AuditLogModel.SystemActorRefusedAsWritten | backend/src/models/AuditLog.ts:12-17 | an event whose actor is "system" is refused by the schema as written, since the userId path is an ObjectId, and is accepted by the corrected schema when its bounds hold |
| AuditLogModel.Append | backend/src/models/AuditLog.ts:6-68 | with the corrected schema, `create` appends exactly the accepted events at the end and refuses the others |
| AuditLogModel.AppendAsWritten | backend/src/models/AuditLog.ts:6-68 | with the schema as written, `create` appends exactly the events whose actor is an ObjectId and whose bounds hold |
| AuditLogModel.AppendAsWrittenAccepts | backend/src/models/AuditLog.ts:6-68 | with the schema as written, an in-bounds event whose actor is an ObjectId is appended |
| AuditLogModel.FindByTenant | backend/src/models/AuditLog.ts:100-134 | the filter always has the tenant; action, user, resource type and resource id are added only when truthy; the two date bounds are independent; the limit is the given one or 50, never 0; skip is (page − 1)·limit with page 1 by default; sort "-timestamp" when absent |
| AuditLogModel.Select | backend/src/models/AuditLog.ts:111-122 | an event is selected exactly when it is in the log and matches every part of the filter |
| AuditLogModel.CountMatching | backend/src/models/AuditLog.ts:137-140 | the count of a filter is the number of events the same filter selects |
| AuditLogModel.FindByTenantSelectsTenant | backend/src/models/AuditLog.ts:111-122 | only the tenant's events are ever selected; with a start date alone, exactly the tenant's events from that instant on are selected |
| AuditLogModel.ActionLabel | backend/src/models/AuditLog.ts:194-209 | a known action gets its fixed label; a name every object inherits (`constructor`, `toString`, …) yields that inherited member, as the object-literal read does; any other text comes back unchanged |
| AuditLogModel.LabelsDistinct | backend/src/models/AuditLog.ts:195-206 | different actions have different labels, and the label of an action's own tag is its fixed label |
| AuthController.ClaimsOf | backend/src/controllers/authController.ts:49-54 | the issued claims are exactly the stored user's tenant, role, id and email |
| AuthController.Login | backend/src/controllers/authController.ts:12-97 | invalid input gives 400 and changes nothing; no refusal other than a 500 changes anything; a 200 needs valid input, a matching password and an active user found by email and tenant, and then both tokens carry that user's claims, the stored record of that user is saved with lastLogin now and every other record is kept, the reply's lastLogin is now, and the log gains one LOGIN event for that user; conversely valid input, an active user found, a matching password and a LOGIN event the schema accepts always give the 200; a 500 comes only from a failed password comparison or a refused LOGIN event |
| AuthController.LoginFailuresIndistinguishable | backend/src/controllers/authController.ts:28-44 | an unknown account, an inactive one and a wrong password all give the same 401 "Invalid credentials" and change nothing |
| AuthController.LoginTouchesOnlyItsUser | backend/src/controllers/authController.ts:46-83 | after a successful login the reply's user is the stored record with only lastLogin changed, the stored record with that id now holds lastLogin now, and every other user record is untouched |
| AuthController.Refresh | backend/src/controllers/authController.ts:102-161 | a missing token gives 400; a verifier failure gives 401 with its message; a bad claim shape gives 401 "Invalid refresh token"; only a non-Error throw gives 500; a 200 carries a new access token built from the stored active user, under the access secret |
| AuthController.RefreshFollowsAccount | backend/src/controllers/authController.ts:124-141 | for a verified, well-formed token, refresh succeeds exactly when authenticate would pass the same claims, and the new token has the user's current role, not the old token's |
| AuthController.LogoutEvent | backend/src/controllers/authController.ts:177-186 | a LOGOUT event exists exactly when the decoded tenant and user id are strings; it names that user as actor and as resource |
| AuthController.Logout | backend/src/controllers/authController.ts:166-202 | the users are untouched; the reply is 200 or 500; with no Bearer token or no decode it is 200 and the log is unchanged; a decoded user id that is not an ObjectId is refused by the audit schema as written and gives 500; otherwise the log gains at most one LOGOUT event, and only together with a 200 |
| AuthController.LogoutEventFits | backend/src/controllers/authController.ts:177-186 | the LOGOUT event of a trimmed user id and a usable address and agent is that user's event with resource type "User", and meets the audit schema's bounds |
| AuthController.LogoutAppendsEvent | backend/src/controllers/authController.ts:170-194 | once a token is present and its LOGOUT event is accepted, logout answers 200 and appends exactly that event |
| AuthController.LogoutRecordsTokenUser | backend/src/controllers/authController.ts:166-194 | logging out with a token issued for claims whose user id is an ObjectId answers 200 and appends one LOGOUT event naming that user and tenant, with the client's trimmed address and agent |
| Common.Trim | backend/src/models/User.ts:13 | the schema's `trim`: the result is the infix of the text with only white space before and after it, and it neither starts nor ends with white space |
| Common.TrimIdempotent | backend/src/models/User.ts:13 | trimming a trimmed text changes nothing |
| Common.ObjectIdTrimmed | backend/src/models/AuditLog.ts:12-17 | an ObjectId text has no white space to trim |
| Common.Lower | backend/src/models/User.ts:38 | `toLowerCase`: the same length, each character lower-cased on its own |
| Common.LowerIdempotent | backend/src/models/User.ts:38 | lower-casing twice is lower-casing once |
| SoftDelete.WithDefault | backend/src/models/User.ts:147-152 | the pre-find hook adds "not deleted" exactly when the query does not mention deletedAt, and leaves any other query as it is |
| SoftDelete.FindExcludesDeleted | backend/src/models/Ticket.ts:91-96 | a deleted record is found only by a query that asks for deleted records; a query silent on deletedAt finds exactly the live ones |
| Paging.OrDefault | backend/src/routes/tickets.ts:25-26 | `parseInt(q) \|\| d`: the parsed value when it is a non-zero number, the default when it is absent, unparsable or zero; never zero when the default is not |
| Paging.TotalPages | backend/src/routes/tickets.ts:56 | `Math.ceil(total / limit)`: for a positive limit, the least page count whose pages hold every record, zero exactly when there are none |
| Paging.CeilDivisionSpec | backend/src/routes/tickets.ts:56 | integer ceiling division meets the defining inequalities of the ceiling |
| UserModel.NormalizeEmail | backend/src/models/User.ts:34-44 | the stored email is the trimmed address, letter for letter up to case, in lower case |
| UserModel.CreateRecord | backend/src/models/User.ts:51-73 | a new user defaults to role User, active, not deleted and never logged in; its email is the normalised input |
| UserModel.Insert | backend/src/models/User.ts:28-85 | the insert succeeds exactly when the schema accepts the new record (its normalised email matching the pattern) and neither its id nor its email is taken, and then the record is appended |
| UserModel.EmailPatternSplits | backend/src/models/User.ts:40-43 | the pattern read directly: any text split by an `@` and a later dot into two words of letters, digits and underscores joined by single dots or hyphens, and a final piece of two or three such characters, matches |
| UserModel.EmailPatternAccepts | backend/src/models/User.ts:40-43 | an address with dotted and hyphenated parts and a three-letter suffix matches the pattern |
| UserModel.EmailPatternRefuses | backend/src/models/User.ts:40-43 | an address without a dotted suffix, and one whose last label has four letters, do not match |
| UserModel.InsertKeepsIndexes | backend/src/models/User.ts:34-44 | a successful insert keeps ids and emails unique, hence (tenant, email) unique as well |
| UserModel.Find | backend/src/models/User.ts:147-152 | a user is found exactly when the query's filters and the soft-delete hook accept it; a query silent on deletedAt returns no deleted user |
| UserModel.FindById | backend/src/models/User.ts:147-152 | a lookup by id finds a live user with that id, and finds none exactly when every user with that id is deleted |
| UserModel.FindByEmailAndTenant | backend/src/models/User.ts:138-144 | the match is a live user of that tenant whose email is the lower-cased argument; none is found exactly when every such user is deleted |
| UserModel.FindActiveByTenant | backend/src/models/User.ts:129-135 | exactly the tenant's users that are live and active |
| UserModel.EmailLookupIgnoresCase | backend/src/models/User.ts:140 | looking up a lower-cased spelling finds the same user as the original spelling |
| UserModel.FullName | backend/src/models/User.ts:155-157 | the full name is the first name, one space, then the last name |
| UserModel.ToJson | backend/src/models/User.ts:76-81 | the serialised user, as meant, never has a password, keeps every other path of the document, and carries the `id` and `fullName` virtuals |
| UserModel.Document | backend/src/models/User.ts:28-82 | a loaded document has `password` exactly when the query selected it, and `lastLogin` exactly once it is set |
| UserModel.WithVirtuals | backend/src/models/User.ts:154-160 | turning virtuals on adds exactly `id` and `fullName` to the paths |
| UserModel.ToJsonAsWritten | backend/src/models/User.ts:154-160 | as configured, the serialised user keeps every path of the document, the password included exactly when it was selected |
| UserModel.PasswordSerialisedAsWritten | backend/src/models/User.ts:137-160 | as configured, a password-selected user serialises its stored hash |
| UserModel.ToJsonHidesOnlyPassword | backend/src/models/User.ts:76-81 | the intended output is the configured one minus the password, and does not depend on the selection |
| UserModel.HidingForgetsSelection | backend/src/models/User.ts:45-50 | without its password, a document read with the password selected is the document read without it |
| UserModel.DocumentValues | backend/src/models/User.ts:28-73 | a loaded document holds the record's id, tenant, email, role name, flags and times under their paths |
| UserModel.ToJsonDeletedAt | backend/src/models/User.ts:70-73 | the serialised user reads back its deletion time, null for a live user |
| UserModel.ToJsonLastLogin | backend/src/models/User.ts:67-69 | the serialised user reads back its last login, absent before the first |
| UserModel.ReadPublic | backend/src/models/User.ts:28-82 | a read succeeds only for a map with an `_id` text and a known role name, and returns them |
| UserModel.ToJsonReadsBack | backend/src/models/User.ts:28-160 | reading a user's JSON back recovers every public field of the record and its full name |
| TicketModel.StatusOrDefault | backend/src/models/Ticket.ts:30-38 | an absent status is Open; a given one must name one of the four statuses |
| TicketModel.PriorityOrDefault | backend/src/models/Ticket.ts:39-47 | an absent priority is Medium; a given one must name one of the four priorities |
| TicketModel.Create | backend/src/models/Ticket.ts:6-77 | a stored ticket passes the schema and has the given id, tenant and author, the trimmed title, description and category, status and priority from their defaults, no assignee and no workflow id, not deleted, created and updated now; it is refused exactly when an enumeration is unknown, the tenant is empty, the author is not an ObjectId or a trimmed text is empty or too long |
| TicketModel.CreateAccepts | backend/src/models/Ticket.ts:18-53 | known enumerations, an ObjectId author and trimmed texts within 1..200, 1..2000 and 1..100 characters are always stored |
| TicketModel.BlankTitleRefused | backend/src/models/Ticket.ts:18-23 | a title of white space only is refused, whatever its length |
| TicketModel.FindByTenant | backend/src/models/Ticket.ts:108-137 | the filter always has the tenant and each optional filter only when truthy; limit is the given one or 10 and never 0; skip is (page − 1)·limit with page 1 by default; sort "-createdAt" by default |
| TicketModel.Select | backend/src/models/Ticket.ts:91-96 | a ticket is listed exactly when it is stored, matches the filter and is not deleted |
| TicketModel.FindByTenantIsolated | backend/src/models/Ticket.ts:118-131 | a listing shows only the tenant's live tickets, and without optional filters it shows every one of them |
| TicketModel.CountByTenantAsWritten | backend/src/models/Ticket.ts:140-143 | as written the count is the number of tickets the filter matches, deleted ones included, because countDocuments does not run the find hook |
| TicketModel.CountIncludesDeletedAsWritten | backend/src/models/Ticket.ts:91-143 | a tenant whose only ticket is deleted lists no ticket but counts one |
| TicketModel.CountByTenant | backend/src/models/Ticket.ts:140-143 | the corrected count never exceeds the collection |
| TicketModel.CountMatchesListing | backend/src/models/Ticket.ts:91-143 | the corrected count is exactly the number of tickets the same filter lists |
| TicketModel.FindScoped | backend/src/routes/tickets.ts:169-172 | the found ticket is live and has both the id and the tenant; none is found exactly when every such ticket is deleted |
| TicketModel.FindById | backend/src/routes/webhooks.ts:37 | the found ticket is live and has the id, in whatever tenant; none is found exactly when every ticket with that id is deleted |
| TicketModel.Save | backend/src/routes/webhooks.ts:55 | saving replaces the stored copy with the same id and leaves every other ticket and the length as they were |
| TicketModel.UpdateStatus | backend/src/models/Ticket.ts:146-152 | the status is always set, the assignee only when a truthy one is given, and nothing else changes |
| TicketModel.UpdateStatusIdempotent | backend/src/models/Ticket.ts:146-152 | applying the same status update twice is applying it once |
| TicketModel.AssignTo | backend/src/models/Ticket.ts:155-158 | only the assignee changes |
| TicketModel.TimeSinceCreation | backend/src/models/Ticket.ts:168-173 | the whole days since creation, rounded down: days·86 400 000 ≤ now − createdAt < (days + 1)·86 400 000 |
| TicketModel.OverdueAgreesWithAge | backend/src/models/Ticket.ts:161-173 | an overdue ticket is at least 7 whole days old, and an open ticket at least 8 whole days old is overdue |
| TicketRoutes.ListTickets | backend/src/routes/tickets.ts:14-66 | 401 without a tenant; 500 for an assignee that is not an ObjectId or a page that makes the skip negative; otherwise 200 with page and limit defaulting to 1 and 10, skip (page − 1)·limit, exactly the tenant's live tickets that match every given status, priority, category and assignee, a total equal to the number listed, and enough pages to hold them |
| TicketRoutes.ListingIsTenantsLiveTickets | backend/src/routes/tickets.ts:32-47 | without filters the listing is exactly the tenant's live tickets: no other tenant's ticket and no deleted one |
| TicketRoutes.CreateValidated | backend/src/routes/tickets.ts:100-142 | a refusal leaves the collection as it was; a 201 appends a schema-valid ticket whose tenant and author come from the principal, never the body, with status Open |
| TicketRoutes.CreateTicketAsWritten | backend/src/routes/tickets.ts:73-98 | as written the validators check the lengths before trimming: an invalid body is a 400 with nothing stored, a valid one goes on to the handler |
| TicketRoutes.BlankTitleIs500AsWritten | backend/src/routes/tickets.ts:74-77 | a title of three spaces passes the validators as written, is trimmed to nothing and refused by the schema, so the client gets 500 instead of 400 |
| TicketRoutes.CreateTicket | backend/src/routes/tickets.ts:73-98 | with each length checked on the trimmed text, an invalid body is a 400 with nothing stored, a valid one goes on to the handler |
| TicketRoutes.ValidatedCreateIsStored | backend/src/routes/tickets.ts:73-142 | with the corrected validators, a body they accept is always stored for an authenticated user, with the priority the body named |
| TicketRoutes.PriorityGiven | backend/src/routes/tickets.ts:82-84 | a priority the validator accepts was present in the body, so the schema default never applies |
| TicketRoutes.GetTicket | backend/src/routes/tickets.ts:157-192 | 401 without a tenant; 500 for an id that is not an ObjectId; 200 exactly when a live ticket with that id exists in the caller's tenant, and 404 "Ticket not found" otherwise, also for another tenant's ticket |
| Common.Trimmed | backend/src/routes/tickets.ts:261-267 | a body field counts exactly when it is present and non-empty after the validator trims it, and then it is the trimmed text; the profile update reads its names the same way |
| TicketRoutes.Merge | backend/src/routes/tickets.ts:261-268 | each truthy field replaces the stored one (texts trimmed); absent fields, and texts that trim to nothing, leave it; no other field changes |
| TicketRoutes.MergeIdempotent | backend/src/routes/tickets.ts:261-268 | applying the same update twice is applying it once |
| TicketRoutes.MergeKeepsSchema | backend/src/routes/tickets.ts:199-270 | a validated update keeps a schema-valid ticket schema-valid, so the save cannot be refused |
| TicketRoutes.UpdateTicket | backend/src/routes/tickets.ts:199-284 | an invalid body is a 400; a failed scoped lookup replies as reading would; no refusal other than a 500 changes anything; a 200 returns the merged ticket of the caller's tenant and changes only the stored ticket with that id |
| TicketRoutes.DeleteTicket | backend/src/routes/tickets.ts:291-330 | it succeeds exactly when reading would; then the ticket with that id is kept with deletedAt set to now, and nothing else changes |
| TicketRoutes.DeletedTicketIsHidden | backend/src/routes/tickets.ts:315-317 | after a delete the ticket is still stored, but reading it is a 404 and the tenant's listing no longer shows it |
| TicketRoutes.HandlersStayInTenant | backend/src/routes/tickets.ts:169-313 | read and update succeed only on a ticket of the caller's tenant, and update and delete never touch a ticket with another id |
| AdminRoutes.ParseIsActive | backend/src/routes/admin.ts:29 | "true" gives true and "false" gives false, each exactly; anything else gives no filter |
| AdminRoutes.UserFilter | backend/src/routes/admin.ts:31-33 | the filter always has the tenant and the parsed active flag; it has a role exactly when a truthy one was given; it never mentions deletedAt |
| AdminRoutes.UserCountAsWritten | backend/src/routes/admin.ts:41 | as written the total is the number of users the filter matches, deleted ones included |
| AdminRoutes.UserCount | backend/src/routes/admin.ts:41 | the corrected total is the number of users the same find returns |
| AdminRoutes.UserPage | backend/src/routes/admin.ts:15-60 | 401 without a tenant; 200 exactly when the page does not make the skip negative; the listing is the find with the built filter, limit defaulting to 10, and the total counted the chosen way |
| AdminRoutes.ListUsersAsWritten | backend/src/routes/admin.ts:15-60 | the listing as written shows only the tenant's live users, and its total is at least the number listed |
| AdminRoutes.UserCountIncludesDeletedAsWritten | backend/src/routes/admin.ts:35-41 | a tenant whose only user is deleted gets an empty list with a total of 1 |
| AdminRoutes.ListUsers | backend/src/routes/admin.ts:15-60 | with the corrected count, the total equals the number listed, and the listing is exactly the tenant's live users with the given role and active flag |
| AdminRoutes.AuditCountFilter | backend/src/routes/admin.ts:97-104 | the total's filter takes action, user and resource type as given, and a time range only when both a start and an end date are given |
| AdminRoutes.ListAuditLogs | backend/src/routes/admin.ts:67-123 | 401 without a tenant; 500 for a date or user id that does not cast, or a negative skip; otherwise 200 with page and limit defaulting to 1 and 50, skip (page − 1)·limit, exactly the tenant's events that match every given action, user, resource type and date bound, and a total counted with the total's own filter |
| AdminRoutes.AuditTotalMatchesListing | backend/src/routes/admin.ts:86-104 | with both dates or neither, and no empty filter text, the total is the number of events listed |
| AdminRoutes.SingleDateBoundNotCounted | backend/src/routes/admin.ts:101-103 | with a start date alone, one earlier event gives an empty listing but a total of 1 |
| AdminRoutes.Window | backend/src/routes/admin.ts:141-142 | the window is the given dates, or else the 30 days up to now |
| AdminRoutes.EveryKeyListed | backend/src/routes/admin.ts:153-173 | the groups the pipelines can form are all listed: every status, role and action |
| AdminRoutes.GetAnalytics | backend/src/routes/admin.ts:130-230 | 401 without a tenant; 500 exactly for an unreadable date; a 200 has one count per status, role and action: tickets per status created in the window, users and active users per role in the tenant, events per action in the window; and each total is the sum of its groups |
| AdminRoutes.AnalyticsTotalsCountRecords | backend/src/routes/admin.ts:210-219 | each total equals the number of records its pipeline matched: the tenant's tickets created in the window, its users, its active users and its events in the window |
| AdminRoutes.FindInTenant | backend/src/routes/admin.ts:249-252 | the found user is live and has both the id and the tenant; none is found exactly when every such user is deleted |
| AdminRoutes.SetActive | backend/src/routes/admin.ts:237-328 | 401 without a tenant; no refusal changes anything; it succeeds exactly when the id casts, a live user with that id exists in the tenant and the self guard does not apply, and then only that user's isActive changes |
| AdminRoutes.Deactivate | backend/src/routes/admin.ts:237-283 | deactivating one's own account is refused and changes nothing; a success leaves the user with that id inactive |
| AdminRoutes.Activate | backend/src/routes/admin.ts:290-328 | a success leaves the user with that id active |
| AdminRoutes.ActivateUndoesDeactivate | backend/src/routes/admin.ts:237-328 | with unique ids, reactivating an active user just deactivated succeeds and restores the collection exactly |
| AdminRoutes.FoundAfterSetActive | backend/src/routes/admin.ts:269-270 | after a successful update the same user is found again, with the new flag |
| Lists.Filter | frontend/support-tickets-app/src/stores/ticketStore.ts:109 | the result keeps exactly the entries that pass the test, and is no longer than the input |
| Lists.FilterKeepsOrder | frontend/support-tickets-app/src/stores/ticketStore.ts:109 | the result is a subsequence of the input holding each entry that passes the test exactly as often as the input does, and nothing else |
| Lists.Count | backend/src/models/Ticket.ts:142 | a count is never more than the number of records |
| Lists.RemoveById | frontend/support-tickets-app/src/stores/ticketStore.ts:109 | no entry with the id is left, and every other entry stays, in its order and as often as it occurred |
| Lists.RemoveAbsentId | frontend/shell/src/stores/appStore.ts:52 | removing an id nobody has gives the list back unchanged |
| Lists.RemoveByIdLength | frontend/admin-dashboard/src/stores/adminStore.ts:147 | the list shrinks by exactly the number of entries that had the id |
| Lists.UpdateById | frontend/shell/src/stores/appStore.ts:58-60 | same length; the entries with the id are transformed in place and every other entry is unchanged |
| Lists.ReplaceById | frontend/support-tickets-app/src/stores/ticketStore.ts:90-92 | same length; each entry with the id becomes the new value and every other entry is unchanged |
| Lists.ReplaceByIdIdempotent | frontend/admin-dashboard/src/stores/adminStore.ts:128-130 | replacing twice with the same value is replacing once |
| Lists.Prepend | frontend/support-tickets-app/src/stores/ticketStore.ts:74 | one new entry in front, the old ones after it in order |
| Lists.FindFirst | backend/src/routes/admin.ts:249-252 | something is found exactly when some record matches, and what is found is a matching record |
| Grouping.Counts | backend/src/routes/admin.ts:153-156 | one group count per key, each the number of records in scope with that key |
| Grouping.CountKey | backend/src/routes/admin.ts:153-156 | a group is never bigger than the records in scope |
| Grouping.SumOfCounts | backend/src/routes/admin.ts:210 | over distinct keys, adding the group counts gives the number of records whose key is among them |
| Grouping.CountInCovers | backend/src/routes/admin.ts:145-158 | when every record in scope has one of the keys, those keys together count every record in scope |
| Grouping.GroupTotal | backend/src/routes/admin.ts:210-219 | adding up the groups of a grouping stage counts every record in scope exactly once |
| App.Route | backend/src/app.ts:100-121 | the first mount whose prefix matches the path is entered; NoRoute (the catch-all 404) exactly when no prefix matches |
| App.Guarded | backend/src/app.ts:100-121 | an unknown path is a 404; health, auth and webhooks run without a user; the profile, ticket and admin routers are reached only with a user and that user's tenant, and the admin router only by an admin |
| App.Authenticated | backend/src/app.ts:111-113 | a router behind `authenticate` is reached exactly when the token passes, with its user and tenant attached; otherwise the answer is a 401 with the verifier's message |
| App.AdminMountAdmitsAdmins | backend/src/app.ts:113 | the admin router admits exactly the authenticated admins and super admins; an authenticated plain user gets a 403, anyone else a 401 |
| App.GuardsNest | backend/src/app.ts:111-113 | a request admitted to the admin router is admitted to the ticket router, and the ticket and profile routers admit the same requests |
| App.MapError | backend/src/app.ts:127-175 | validation errors give 400 "Validation failed"; a duplicate key gives 400 naming its first field, or Express's own 500 when there is no key map; the two token errors give 401 "Invalid token" and "Token expired"; an error of any other name and code keeps its own non-zero status and non-empty message, else 500 and "Internal server error"; no reply has status 0 or an empty message |
| App.MapErrorDefaults | backend/src/app.ts:143-168 | an error with nothing in it is a 500 "Internal server error"; a duplicate email is "email already exists"; the token errors read like the verifier's own messages |
| App.MapErrorPassesThrough | backend/src/app.ts:166-173 | any other error with a non-zero status and a non-empty message is answered with exactly those, whatever its name |
| StoreActions.ErrorText | frontend/support-tickets-app/src/stores/ticketStore.ts:50 | the server's message when it sent a non-empty one, else the action's own fallback text |
| StoreActions.CurrentAfterUpdate | frontend/support-tickets-app/src/stores/ticketStore.ts:93 | the current item becomes the update exactly when it has the id, and stays otherwise |
| StoreActions.CurrentAfterRemove | frontend/support-tickets-app/src/stores/ticketStore.ts:110 | the current item is cleared exactly when it has the id (or there is none), and stays otherwise |
| StoreActions.CurrentAfterUpdateIdempotent | frontend/admin-dashboard/src/stores/adminStore.ts:131 | writing the same update into the current item twice is writing it once |
| StoreActions.PrependThenRemoveSameId | frontend/shell/src/stores/appStore.ts:45-53 | removing by the id of an entry just put in front removes it together with every older entry of that id |
| StoreActions.PrependThenRemove | frontend/support-tickets-app/src/stores/ticketStore.ts:74-109 | removing an entry just put in front, when its id was new, gives the old list back |
| StoreActions.ReplaceThenRemove | frontend/support-tickets-app/src/stores/ticketStore.ts:90-109 | removing an id after replacing its entries by an item carrying that id is the same as removing it straight away |
| TicketStore.Fail | frontend/support-tickets-app/src/stores/ticketStore.ts:48-53 | a failed action keeps all its data, drops the loading flag and shows the error text |
| TicketStore.FetchTickets | frontend/support-tickets-app/src/stores/ticketStore.ts:36-54 | an answer stores the page, its counts and the filters asked for, and leaves the current ticket; a failure changes no data and shows the server's message or "Failed to fetch tickets" |
| TicketStore.FetchTicket | frontend/support-tickets-app/src/stores/ticketStore.ts:56-67 | an answer becomes the current ticket and every other field stays, the list, counts and filters included; a failure changes no data |
| TicketStore.CreateTicket | frontend/support-tickets-app/src/stores/ticketStore.ts:69-83 | an answer goes in front of the list with everything else kept in order, and no other field changes; a failure changes no data |
| TicketStore.UpdateTicket | frontend/support-tickets-app/src/stores/ticketStore.ts:85-102 | an answer replaces each listed ticket with the id and only those; the current ticket changes exactly when it has the id; counts and filters stay; a failure changes no data |
| TicketStore.DeleteTicket | frontend/support-tickets-app/src/stores/ticketStore.ts:104-119 | on success exactly the tickets without the id remain, in their order and multiplicity, the current ticket is cleared exactly when it has the id, and counts and filters stay; a failure changes no data |
| TicketStore.ClearError | frontend/support-tickets-app/src/stores/ticketStore.ts:129-131 | only the error is cleared |
| TicketStore.SetFilters | frontend/support-tickets-app/src/stores/ticketStore.ts:125-127 | only the filters change |
| TicketStore.SetCurrentTicket | frontend/support-tickets-app/src/stores/ticketStore.ts:121-123 | only the current ticket changes |
| TicketStore.CreateThenDeleteRestores | frontend/support-tickets-app/src/stores/ticketStore.ts:69-119 | deleting a ticket just created, whose id was new, gives back the list from before |
| TicketStore.UpdateTicketIdempotent | frontend/support-tickets-app/src/stores/ticketStore.ts:85-102 | applying the same answered update twice gives the same store as once |
| TicketStore.UpdateThenDelete | frontend/support-tickets-app/src/stores/ticketStore.ts:85-119 | deleting after an update of the same ticket ends as if the update had not happened |
| TicketStore.FailureThenClearError | frontend/support-tickets-app/src/stores/ticketStore.ts:36-131 | for every action, a failure followed by clearing the error gives back an idle store exactly |
| AdminStore.Fail | frontend/admin-dashboard/src/stores/adminStore.ts:66-71 | a failed action keeps all its data, drops the loading flag and shows the error text |
| AdminStore.FetchDashboardStats | frontend/admin-dashboard/src/stores/adminStore.ts:61-72 | an answer stores the figures, clears loading and the error, and leaves every other field, the lists included; a failure changes no data and shows the server's message or its fallback |
| AdminStore.FetchUsers | frontend/admin-dashboard/src/stores/adminStore.ts:74-92 | an answer stores the users, the counts and the filters asked for, and every other field stays; a failure changes no data |
| AdminStore.FetchUser | frontend/admin-dashboard/src/stores/adminStore.ts:94-105 | an answer becomes the current user and every other field stays; a failure changes no data |
| AdminStore.CreateUser | frontend/admin-dashboard/src/stores/adminStore.ts:107-121 | an answer goes in front of the user list and every other field stays; a failure changes no data |
| AdminStore.UpdateUser | frontend/admin-dashboard/src/stores/adminStore.ts:123-140 | an answer replaces each listed user with the id and only those; the current user changes exactly when it has the id; every other field stays |
| AdminStore.DeleteUser | frontend/admin-dashboard/src/stores/adminStore.ts:142-157 | on success exactly the users without the id remain, in their order and multiplicity, the current user is cleared exactly when it has the id, and every other field stays |
| AdminStore.FetchTickets | frontend/admin-dashboard/src/stores/adminStore.ts:159-176 | an answer stores the tickets and overwrites the shared total, page and page count; every other field stays, the user filters included |
| AdminStore.UpdateTicket | frontend/admin-dashboard/src/stores/adminStore.ts:178-195 | an answer replaces each listed ticket with the id and only those; the current ticket changes exactly when it has the id; every other field stays |
| AdminStore.DeleteTicket | frontend/admin-dashboard/src/stores/adminStore.ts:197-212 | on success exactly the tickets without the id remain, in their order and multiplicity, the current ticket is cleared exactly when it has the id, and every other field stays |
| AdminStore.FetchAuditLogs | frontend/admin-dashboard/src/stores/adminStore.ts:214-231 | an answer stores the entries and overwrites the shared total, page and page count; every other field stays, the filters included |
| AdminStore.SetCurrentUser | frontend/admin-dashboard/src/stores/adminStore.ts:233-235 | only the current user changes |
| AdminStore.SetCurrentTicket | frontend/admin-dashboard/src/stores/adminStore.ts:237-239 | only the current ticket changes |
| AdminStore.ClearError | frontend/admin-dashboard/src/stores/adminStore.ts:245-247 | only the error is cleared |
| AdminStore.SetFilters | frontend/admin-dashboard/src/stores/adminStore.ts:241-243 | only the filters change |
| AdminStore.FiltersFollowUserFetch | frontend/admin-dashboard/src/stores/adminStore.ts:74-231 | the recorded filters are those of the last answered user fetch: ticket and audit fetches after it keep them, and a failed user fetch does not record its own |
| AdminStore.CreateThenDeleteUserRestores | frontend/admin-dashboard/src/stores/adminStore.ts:107-157 | deleting a user just created, whose id was new, gives back the user list from before |
| AdminStore.UpdatesIdempotent | frontend/admin-dashboard/src/stores/adminStore.ts:123-195 | applying the same answered user or ticket update twice gives the same store as once |
| AppStore.Decimal | frontend/shell/src/stores/appStore.ts:39 | the id is the decimal spelling of the instant: digits whose value is the number, with no leading zero |
| AppStore.DecimalInjective | frontend/shell/src/stores/appStore.ts:39 | different instants give different ids |
| AppStore.SetTenant | frontend/shell/src/stores/appStore.ts:21-23 | the tenant is stored and the theme becomes the tenant's; the sidebar and notifications stay |
| AppStore.SetTheme | frontend/shell/src/stores/appStore.ts:25-27 | only the theme changes |
| AppStore.ToggleSidebar | frontend/shell/src/stores/appStore.ts:29-31 | only the sidebar flag changes, and it flips |
| AppStore.SetSidebarOpen | frontend/shell/src/stores/appStore.ts:33-35 | only the sidebar flag changes |
| AppStore.AddNotification | frontend/shell/src/stores/appStore.ts:37-48 | one unread notification goes in front, with its id taken from the clock, and the rest of the store stays |
| AppStore.RemoveNotification | frontend/shell/src/stores/appStore.ts:50-54 | exactly the notifications without the id remain, in their order and with their multiplicities |
| AppStore.MarkNotificationAsRead | frontend/shell/src/stores/appStore.ts:56-62 | the notifications with the id are marked read in place, and the others are unchanged |
| AppStore.ClearNotifications | frontend/shell/src/stores/appStore.ts:64-66 | the list empties and nothing else changes |
| AppStore.ToggleTwice | frontend/shell/src/stores/appStore.ts:29-31 | toggling twice gives the store back |
| AppStore.MarkReadIdempotent | frontend/shell/src/stores/appStore.ts:56-62 | marking twice is marking once, and every notification left unread was in the list before and has another id |
| AppStore.AddThenRemove | frontend/shell/src/stores/appStore.ts:37-54 | removing a notification just added at a new instant gives the store back |
| AppStore.SameInstantShareId | frontend/shell/src/stores/appStore.ts:39 | two notifications added in the same millisecond share an id, so removing one removes both |
| AuthStore.ClearAuth | frontend/shell/src/stores/authStore.ts:113-124 | the store goes back to its signed-out initial state |
| AuthStore.Login | frontend/shell/src/stores/authStore.ts:27-60 | it succeeds exactly on a successful body with data, which stores the session and signs in; otherwise it rethrows the body's error or "Login failed" (or the thrown message), shows the same text, signs out the flag and keeps the user and tokens it had |
| AuthStore.Logout | frontend/shell/src/stores/authStore.ts:62-70 | however the server call settles, the store ends signed out and empty |
| AuthStore.RefreshUser | frontend/shell/src/stores/authStore.ts:72-96 | a good profile replaces the user; a bad body only drops the loading flag; a thrown error clears the session exactly when its message mentions "401" |
| AuthStore.NoDigitFourNoStatus | frontend/shell/src/stores/authStore.ts:85-92 | the store's own "Failed to refresh user data" can never count as a 401 |
| AuthStore.SetTokens | frontend/shell/src/stores/authStore.ts:102-111 | both tokens are stored and the flag is set; user, loading and error stay |
| AuthStore.SetUser | frontend/shell/src/stores/authStore.ts:98-100 | only the user changes |
| AuthStore.SetLoading | frontend/shell/src/stores/authStore.ts:126-128 | only the loading flag changes |
| AuthStore.SetError | frontend/shell/src/stores/authStore.ts:130-132 | only the error changes, even while signed in |
| AuthStore.Partialize | frontend/shell/src/stores/authStore.ts:136-141 | the stored part is the two tokens, the user and the flag, unchanged |
| AuthStore.Rehydrate | frontend/shell/src/stores/authStore.ts:134-142 | loading the stored part back restores exactly what was stored and leaves loading and error alone |
| AuthStore.ReloadRestoresSession | frontend/shell/src/stores/authStore.ts:134-142 | a reload keeps the session, and gives an idle store back unchanged |
| AuthStore.EmptyRefreshKeepsSession | frontend/shell/src/stores/authStore.ts:78-89 | a profile answer with no data never signs the user out |
| AuthStore.LoginThenLogout | frontend/shell/src/stores/authStore.ts:27-70 | after a login the store is signed in exactly when the login did not throw, and a logout after it always leaves the initial state |
| UserRoutes.TenantConfigAsWritten | backend/src/routes/users.ts:250-288 | as written, the lookup finds a configuration exactly for "LogisticsCo" and "RetailGmbH", and an inherited object member exactly for the names every object inherits |
| UserRoutes.GetTenantConfig | backend/src/routes/users.ts:250-288 | the corrected lookup answers exactly for the two configured tenants, with the same configuration as the property read |
| UserRoutes.AvailableScreens | backend/src/routes/users.ts:166-168 | exactly the tenant's screens whose permissions list the role, in the configured order |
| UserRoutes.GetScreensAsWritten | backend/src/routes/users.ts:143-187 | 401 without a tenant; 500 for a tenant named like an inherited member; a 200 carries the tenant's name and theme and the screens the role may open |
| UserRoutes.GetScreens | backend/src/routes/users.ts:143-187 | 401 without a tenant; otherwise 404 "Tenant configuration not found" exactly when the tenant is not configured, else the role's screens |
| UserRoutes.InheritedNameIs500AsWritten | backend/src/routes/users.ts:287 | a user of tenant "constructor" gets 500 as written and 404 when only own properties are read |
| UserRoutes.ScreensByRole | backend/src/routes/users.ts:252-284 | in LogisticsCo an admin sees both screens and a user only the tickets; in RetailGmbH both see the one screen; a super admin is listed in neither |
| UserRoutes.GetProfile | backend/src/routes/users.ts:13-54 | 401 without a user id; 200 exactly when a live user with that id exists, answering its public fields; otherwise 404 "User not found" or 500 for an id that does not cast |
| UserRoutes.MergeProfile | backend/src/routes/users.ts:107-110 | a name changes only when a non-blank one was sent; the avatar changes whenever one was sent, even an empty one; trimmed on the way in |
| UserRoutes.MergeProfileIdempotent | backend/src/routes/users.ts:107-110 | sending the same profile twice is sending it once, and an empty body changes nothing |
| UserRoutes.UpdateProfile | backend/src/routes/users.ts:61-136 | a body the validators refuse is a 400 that writes nothing; no refusal writes anything; a 200 happens exactly for a valid body and a caller whose profile can be read, and only that user's profile changes |
| UserRoutes.UpdateKeepsNameBounds | backend/src/routes/users.ts:62-71 | a validated update keeps both names within 50 characters |
| UserRoutes.MyAuditLogs | backend/src/routes/users.ts:194-247 | 401 without a user or tenant; 500 for a date that does not cast or a user id that is not an ObjectId; a 200 lists exactly the caller's own events in the caller's tenant that match the given action and date bounds, with page 1 and limit 20 by default |
| UserRoutes.MyAuditLogsIsOwnAdminListing | backend/src/routes/users.ts:194-247 | the caller's trail is, reply for reply, the admin audit-log list of the caller's tenant filtered to the caller's id with limit 20 by default; with both dates or neither its total is the number listed |
| WebhookRoutes.ConfiguredSecret | backend/src/routes/webhooks.ts:18 | the secret is the environment's when set and non-empty, else the built-in default, and never empty |
| WebhookRoutes.WebhookUserAgent | backend/src/routes/webhooks.ts:71 | the user agent header when present, else "n8n-webhook" |
| WebhookRoutes.Apply | backend/src/routes/webhooks.ts:46-55 | the status is always set; the assignee only when sent; a sent workflow id is stored trimmed, as the schema's `trim` does; nothing else changes |
| WebhookRoutes.ApplyIdempotent | backend/src/routes/webhooks.ts:46-55 | applying the same callback twice leaves the ticket as applying it once |
| WebhookRoutes.TicketEvent | backend/src/routes/webhooks.ts:58-72 | a WORKFLOW_TRIGGER event in the ticket's tenant, by "system", at the current time |
| WebhookRoutes.WrapperLog | backend/src/routes/webhooks.ts:14 | the audit wrapper records nothing for a webhook, which carries no signed-in user |
| WebhookRoutes.TicketDoneWith | backend/src/routes/webhooks.ts:14-90 | a bad signature is a 401 and missing fields a 400, both changing nothing; anything short of the audit write changes nothing; past it, the ticket is saved with the new status and assignments, and the reply is 200 with one new event exactly when the audit schema takes the event, else 500 |
| WebhookRoutes.TicketDoneAsWritten | backend/src/routes/webhooks.ts:37-82 | as written it never answers 200 and never logs; when it reaches the audit write it answers 500 with the ticket already saved |
| WebhookRoutes.TicketDone | backend/src/routes/webhooks.ts:14-90 | with "system" admitted, it answers 200 exactly when the audit write is reached and the event fits the schema's bounds, and then the ticket is saved and the event appended |
| WebhookRoutes.TicketEventFits | backend/src/routes/webhooks.ts:58-72 | the event of a valid ticket fits the audit schema whenever the client's address and agent do |
| WebhookRoutes.TicketDoneSucceeds | backend/src/routes/webhooks.ts:14-90 | a signed callback for a live ticket with a known status succeeds once "system" is admitted, and saves the same ticket the as-written handler saves |
| WebhookRoutes.WorkflowEvent | backend/src/routes/webhooks.ts:120-134 | a WORKFLOW_TRIGGER event with tenant and actor "system", at the current time |
| WebhookRoutes.N8nStatusWith | backend/src/routes/webhooks.ts:97-147 | a bad signature is a 401 and missing fields a 400; the tickets are left as they are; it answers 200 with one new event exactly when the audit schema takes the event, else 500 with the log unchanged |
| WebhookRoutes.N8nStatusAsWritten | backend/src/routes/webhooks.ts:97-147 | as written it never answers 200 and never logs; a signed report with both fields gets 500 |
| WebhookRoutes.N8nStatus | backend/src/routes/webhooks.ts:97-147 | with "system" admitted, it answers 200 exactly for a signed report with both fields whose event fits the schema's bounds, and then logs that one event |
| WebhookRoutes.N8nStatusSucceeds | backend/src/routes/webhooks.ts:120-139 | a signed report with a workflow id of at most 100 characters and a usable address and agent succeeds with "Workflow status logged successfully" |

## Left out

- Token signing and verification inside `jsonwebtoken`, and bcrypt hashing and comparison: foreign cryptography, given as outcomes.
- The MongoDB aggregation pipelines are modelled only by what the analytics totals read from them: the group counts. `AuditLog.getAuditSummary` (called by the analytics route) is modelled only through its per-action counts, which are `AdminRoutes.GetAnalytics`' `auditByAction`; its per-action sets of unique users, and the ticket trends, are not modelled.
- Sorting and `populate` are not modelled. A listing is the filtered collection in stored order; `skip` and `limit` are kept as numbers and not applied. The indexes are not modelled apart from the uniqueness of ids and emails, and the audit trail's TTL index is not modelled.
- Outgoing network calls: the `triggerN8nWorkflow` fetch after a ticket is created is not modelled. Its outcome never reaches the 201 reply, so `TicketRoutes.CreateValidated` holds whatever it does.
- The three axios clients, with their interceptors and the 401 refresh-and-retry: each store action takes the way its call settled as a parameter.
- Server plumbing: helmet, cors, compression, the body parsers, `express-rate-limit` and the no-op `authRateLimit`. `health.ts` and `database.ts` are not part of this model.
- The webhook router's `/test` endpoint: it only echoes its body.
- The React components, the routing in both `App.tsx` files, the webpack configuration and the test-data script: these are UI, build and seeding, not logic.
- `forgotPassword` and `resetPassword` are routed in `auth.ts` but defined nowhere, and the shell's `checkAuth` and `user.tenantId` do not exist in its store or types: nothing to model.
- The front ends name roles, statuses and priorities in lower case, unlike the backend. The model uses the backend's enumerations and keeps the stores' fields as plain strings.
- Validator oracles: express-validator's `isEmail`, `normalizeEmail` and `isURL` are verdicts given with the request. `UserModel.NormalizeEmail` only trims and lower-cases the address, because the schema does only that.
- Common.IsObjectId: the model accepts exactly 24 hexadecimal digits. Some driver versions also cast any 12-character string, and those strings are not modelled.
- Dates: `new Date(q)` on a query string is a `DateParam` (absent, an instant in milliseconds, or unparsable). Dates are milliseconds since the epoch, and `toISOString` output is not modelled.
- `updatedAt`, `createdAt` on save, and `details` maps (free-form JSON) are not modelled.
- Strings are sequences of characters with ASCII case mapping and white space. There is no Unicode case folding.
- TicketModel.OverdueAgreesWithAge: seven days are 7 × 86 400 000 ms, as the code computes them; calendar days across a daylight-saving change are not modelled.
- AuthStore.Login: a thrown value that is not an `Error` ("Login failed" in the code) is not modelled. The API client only throws `Error`s.
- AppStore.AddNotification: the timestamp is the clock reading in milliseconds, not its ISO-8601 text. A caller passing its own `id`, `timestamp` or `read`, which the spread would let win, is not modelled; the type forbids it.
- App.Route: a path inside a mounted prefix that no route of that router matches (say `/api/webhook/unknown`) also falls through to the catch-all 404. The routers' own path tables are not modelled, so the model stops at the mount it enters.
- App.MapError: the details array of a validation error is not modelled. A ValidationError is assumed to carry its `errors` map.
- Jwt.ConfigFromEnv: a lifetime is the number of seconds the token library reads from the variable's text. Text it cannot read, on which signing throws, is not modelled.
- Jwt.ToNumber: decoded claims are whole numbers, so a fractional `exp` is not modelled. An object or array claim reads as NaN, although an array holding one number would read as that number.
- AuthController.LogoutEvent: a decoded tenant that is a number gives 500 here. Mongoose would cast it to text and log the event. A non-text user id fails its ObjectId cast either way.
- UserModel.Document: the nested profile is one opaque value, and the version key `__v` is not modelled.
- Rehydration of the persisted auth store is modelled as the stored fields merged over the current state. Storage failures and version migration are not modelled.
- Console logging is not modelled: it has no effect on replies or state.

## Findings

| source | as written | input that shows it | evidently intended | confidence | as-written member | corrected member |
|---|---|---|---|---|---|---|
| backend/src/models/Ticket.ts:140-143 | `countByTenant` calls `countDocuments`, which the `/^find/` soft-delete hook does not cover, so the ticket list's total counts deleted tickets | a tenant whose only ticket is deleted: the list is empty but `total` is 1 | the total counts the tickets the same filter lists | high, not executed | TicketModel.CountByTenantAsWritten, TicketModel.CountIncludesDeletedAsWritten | TicketModel.CountByTenant, TicketModel.CountMatchesListing |
| backend/src/routes/admin.ts:41 | the user list's total is `User.countDocuments(query)`, which also bypasses the soft-delete hook | a tenant whose only user is deleted: the list is empty but `total` is 1 | the total counts the users the same filter lists | high, not executed | AdminRoutes.ListUsersAsWritten, AdminRoutes.UserCountIncludesDeletedAsWritten | AdminRoutes.UserCount, AdminRoutes.ListUsers |
| backend/src/routes/webhooks.ts:57-72 | ticket-done logs its event with `userId: 'system'`, but the audit schema's `userId` is an ObjectId path, so the write is refused; the ticket was already saved, and the reply is 500 | any signed callback for a live ticket with a known status | the update is acknowledged with 200 and logged as a system action | high, not executed | WebhookRoutes.TicketDoneAsWritten, AuditLogModel.SystemActorRefusedAsWritten | WebhookRoutes.TicketDone, WebhookRoutes.TicketDoneSucceeds |
| backend/src/routes/webhooks.ts:120-134 | n8n-status logs with `userId: 'system'`, which the audit schema refuses, so the endpoint never answers 200 | any signed report with a workflow id and a status | the report is logged and acknowledged with 200 | high, not executed | WebhookRoutes.N8nStatusAsWritten | WebhookRoutes.N8nStatus, WebhookRoutes.N8nStatusSucceeds |
| backend/src/routes/tickets.ts:74-77 | the title validator checks the length before it trims, so a title of spaces passes, is trimmed to nothing and refused by the schema's `required` | the title "   " with a valid description, priority and category: 500 instead of 400 | a blank title is a 400 "Validation failed" | medium, not executed | TicketRoutes.CreateTicketAsWritten, TicketRoutes.BlankTitleIs500AsWritten | TicketRoutes.CreateTicket, TicketRoutes.ValidatedCreateIsStored |
| backend/src/routes/users.ts:287 | `tenantConfigs[customerId]` is a plain property read, so a tenant named like an inherited member ("constructor") finds a function and the handler fails on `.screens.filter` | a user of tenant "constructor" asks for its screens: 500 instead of 404 | only the two configured tenants have a configuration | low, not executed | UserRoutes.GetScreensAsWritten, UserRoutes.InheritedNameIs500AsWritten | UserRoutes.GetTenantConfig, UserRoutes.GetScreens |
| backend/src/models/User.ts:160 | `userSchema.set('toJSON', { virtuals: true })` replaces the whole `toJSON` option given at lines 76-81, and with it the transform that deletes `password`; no route serialises a password-selected document today, so the leak is latent | a user read with `select('+password')`, as `findByEmailAndTenant` does, serialises its bcrypt hash | the serialised user carries the virtuals and never the password | medium, not executed | UserModel.ToJsonAsWritten, UserModel.PasswordSerialisedAsWritten | UserModel.ToJson, UserModel.ToJsonHidesOnlyPassword |

=== FILE: admin_routes.dfy ===
/** The admin router: the tenant's user list, the audit-log list, the
    analytics summary, and account deactivation and reactivation. The app
    puts `authenticate` and `requireAdmin` in front of all of it; each
    handler reads the tenant from the request context. */
module AdminRoutes {
  import opened Common
  import opened Types
  import opened SoftDelete
  import Paging
  import Lists
  import Grouping
  import UserModel
  import TicketModel
  import AuditLogModel

  const AuthenticationRequired: string := "Authentication required"
  const InternalError: string := "Internal server error"
  const UserNotFound: string := "User not found"
  const CannotDeactivateSelf: string := "Cannot deactivate your own account"
  const Deactivated: string := "User deactivated successfully"
  const Activated: string := "User activated successfully"
  const DefaultUserLimit: int := 10
  /** `30 * 24 * 60 * 60 * 1000` */
  const AnalyticsWindowMs: int := 2592000000

  // -------------------------------------------------------------- user list

  /** The query string of `GET /api/admin/users`. */
  datatype UserListQuery = UserListQuery(page: Option<int>, limit: Option<int>, role: Option<string>, isActive: Option<string>)

  /** `isActive === 'true' ? true : isActive === 'false' ? false : undefined` */
  function ParseIsActive(s: Option<string>): (r: Option<bool>)
    ensures r == Some(true) <==> s == Some("true")
    ensures r == Some(false) <==> s == Some("false")
  {
    if s == Some("true") then Some(true) else if s == Some("false") then Some(false) else None
  }

  /** The filter the handler builds: the tenant, the role when truthy, the
      active flag when it parsed. */
  function UserFilter(customerId: string, q: UserListQuery): (f: UserModel.UserQuery)
    ensures f.customerId == Some(customerId) && f.isActive == ParseIsActive(q.isActive) && f.deletedAt == Unmentioned
    ensures f.role.Some? <==> Present(q.role)
  {
    UserModel.UserQuery(Some(customerId), if Present(q.role) then q.role else None, ParseIsActive(q.isActive), Unmentioned)
  }

  /** `User.countDocuments(query)` as written: no find, so no soft-delete hook. */
  function UserCountAsWritten(users: seq<UserModel.UserRecord>, f: UserModel.UserQuery): (n: nat)
    ensures n == |Lists.Filter(users, (u: UserModel.UserRecord) => UserModel.QueryMatches(f, u))|
  {
    Lists.CountIsFilterLength(users, (u: UserModel.UserRecord) => UserModel.QueryMatches(f, u));
    Lists.Count(users, (u: UserModel.UserRecord) => UserModel.QueryMatches(f, u))
  }

  /** The user count with the soft-delete condition every find gets. */
  function UserCount(users: seq<UserModel.UserRecord>, f: UserModel.UserQuery): (n: nat)
    ensures n == |UserModel.Find(users, f)|
  {
    Lists.CountIsFilterLength(users, (u: UserModel.UserRecord) => UserModel.QueryMatches(f, u) && FindMatches(f.deletedAt, u.deletedAt));
    Lists.Count(users, (u: UserModel.UserRecord) => UserModel.QueryMatches(f, u) && FindMatches(f.deletedAt, u.deletedAt))
  }

  /** The listing with a given way of counting. */
  function UserPage(ctx: RequestContext, q: UserListQuery, users: seq<UserModel.UserRecord>, asWritten: bool)
    : (r: Reply<Paging.Listing<UserModel.UserRecord>>)
    ensures !Present(ctx.customerId) ==> r == Error(401, AuthenticationRequired)
    ensures r.Success? <==>
      Present(ctx.customerId)
      && Paging.Skip(Paging.OrDefault(q.page, 1), Paging.OrDefault(q.limit, DefaultUserLimit)) >= 0
    ensures r.Success? ==>
      && r.status == 200
      && r.data.matching == UserModel.Find(users, UserFilter(ctx.customerId.value, q))
      && r.data.limit == Paging.OrDefault(q.limit, DefaultUserLimit)
      && r.data.total == (if asWritten then UserCountAsWritten(users, UserFilter(ctx.customerId.value, q))
                          else UserCount(users, UserFilter(ctx.customerId.value, q)))
  {
    if !Present(ctx.customerId) then Error(401, AuthenticationRequired)
    else
      var page := Paging.OrDefault(q.page, 1);
      var limit := Paging.OrDefault(q.limit, DefaultUserLimit);
      var skip := Paging.Skip(page, limit);
      if skip < 0 then Error(500, InternalError)
      else
        var f := UserFilter(ctx.customerId.value, q);
        var total := if asWritten then UserCountAsWritten(users, f) else UserCount(users, f);
        Success(200, Paging.Listing(UserModel.Find(users, f), skip, page, limit, total, Paging.TotalPages(total, limit)))
  }

  /** `GET /api/admin/users` as written. */
  function ListUsersAsWritten(ctx: RequestContext, q: UserListQuery, users: seq<UserModel.UserRecord>)
    : (r: Reply<Paging.Listing<UserModel.UserRecord>>)
    ensures r.Success? ==> r.data.total >= |r.data.matching|
    ensures r.Success? ==>
      ctx.customerId.Some? && forall u :: u in r.data.matching ==> u.customerId == ctx.customerId.value && u.deletedAt.None?
  {
    var r := UserPage(ctx, q, users, true);
    if r.Success? then
      var f := UserFilter(ctx.customerId.value, q);
      Lists.CountMonotone(users, (u: UserModel.UserRecord) => UserModel.QueryMatches(f, u),
                          (u: UserModel.UserRecord) => UserModel.QueryMatches(f, u) && FindMatches(f.deletedAt, u.deletedAt));
      Lists.CountIsFilterLength(users, (u: UserModel.UserRecord) => UserModel.QueryMatches(f, u) && FindMatches(f.deletedAt, u.deletedAt));
      Lists.CountIsFilterLength(users, (u: UserModel.UserRecord) => UserModel.QueryMatches(f, u));
      r
    else r
  }

  /** A tenant whose only user is deleted: the list as written is empty but
      reports a total of 1. */
  lemma UserCountIncludesDeletedAsWritten(page: Option<int>)
    ensures var u := UserModel.UserRecord("u1", "acme", "a@b.c", "h", User, UserModel.Profile("A", "B", None),
                                          true, None, Some(5), 0, 0);
            var ctx := RequestContext(None, Some("acme"));
            var r := ListUsersAsWritten(ctx, UserListQuery(None, None, None, None), [u]);
            r.Success? && r.data.matching == [] && r.data.total == 1
  {
    var u := UserModel.UserRecord("u1", "acme", "a@b.c", "h", User, UserModel.Profile("A", "B", None),
                                  true, None, Some(5), 0, 0);
    assert [u][1..] == [];
  }

  /** `GET /api/admin/users` with the total counted as the listing is found. */
  function ListUsers(ctx: RequestContext, q: UserListQuery, users: seq<UserModel.UserRecord>)
    : (r: Reply<Paging.Listing<UserModel.UserRecord>>)
    ensures r.Success? ==> r.data.total == |r.data.matching|
    ensures r.Success? ==>
      && ctx.customerId.Some?
      && forall u :: u in r.data.matching <==>
           u in users && u.customerId == ctx.customerId.value && u.deletedAt.None?
           && (Present(q.role) ==> RoleName(u.role) == q.role.value)
           && (ParseIsActive(q.isActive).Some? ==> u.isActive == ParseIsActive(q.isActive).value)
  {
    UserPage(ctx, q, users, false)
  }

  // ---------------------------------------------------------- audit-log list

  /** A date query parameter: absent (or empty), a parsed instant, or text
      `new Date` cannot read. */
  datatype DateParam = NoDate | Instant(ms: int) | InvalidDate

  function DateValue(d: DateParam): Option<int> {
    if d.Instant? then Some(d.ms) else None
  }

  /** The query string of `GET /api/admin/audit-logs`. */
  datatype AuditListQuery = AuditListQuery(
    page: Option<int>, limit: Option<int>, action: Option<string>, userId: Option<string>,
    resourceType: Option<string>, startDate: DateParam, endDate: DateParam)

  /** The filter of the total: the raw action, user and resource type (an
      empty one is kept, unlike in the listing), and the time range only
      when both ends are given. */
  function AuditCountFilter(customerId: string, q: AuditListQuery): (f: AuditLogModel.AuditFilter)
    ensures f.action == q.action && f.userId == q.userId && f.resourceType == q.resourceType && f.resourceId.None?
    ensures q.startDate.Instant? && q.endDate.Instant? ==> f.from == Some(q.startDate.ms) && f.to == Some(q.endDate.ms)
    ensures !(q.startDate.Instant? && q.endDate.Instant?) ==> f.from.None? && f.to.None?
  {
    var both := q.startDate.Instant? && q.endDate.Instant?;
    AuditLogModel.AuditFilter(customerId, q.action, q.userId, q.resourceType, None,
                              if both then DateValue(q.startDate) else None,
                              if both then DateValue(q.endDate) else None)
  }

  /** The events the audit-log listing shows: the tenant's events with the
      requested action, user and resource type (an empty text filters
      nothing), at or after the start date and at or before the end date,
      each bound applying on its own. */
  predicate ListedEvent(customerId: string, q: AuditListQuery, e: AuditLogModel.AuditEvent) {
    && e.customerId == customerId
    && (Present(q.action) ==> ActionName(e.action) == q.action.value)
    && (Present(q.userId) ==> e.userId == q.userId.value)
    && (Present(q.resourceType) ==> e.resourceType == q.resourceType.value)
    && (q.startDate.Instant? ==> e.timestamp >= q.startDate.ms)
    && (q.endDate.Instant? ==> e.timestamp <= q.endDate.ms)
  }

  /** `GET /api/admin/audit-logs`: page 1 and limit 50 by default. A user id
      or a date that cannot be cast fails the query (500), and so does a
      negative skip, which the database refuses. */
  function ListAuditLogs(ctx: RequestContext, q: AuditListQuery, log: seq<AuditLogModel.AuditEvent>)
    : (r: Reply<Paging.Listing<AuditLogModel.AuditEvent>>)
    ensures !Present(ctx.customerId) ==> r == Error(401, AuthenticationRequired)
    ensures Present(ctx.customerId) && (q.startDate.InvalidDate? || q.endDate.InvalidDate?) ==> r == Error(500, InternalError)
    ensures Present(ctx.customerId) && q.userId.Some? && !IsObjectId(q.userId.value) ==> r == Error(500, InternalError)
    ensures r.Success? <==>
      && Present(ctx.customerId) && !q.startDate.InvalidDate? && !q.endDate.InvalidDate?
      && (q.userId.Some? ==> IsObjectId(q.userId.value))
      && Paging.Skip(Paging.OrDefault(q.page, 1), Paging.OrDefault(q.limit, AuditLogModel.DefaultLimit)) >= 0
    ensures r.Error? ==> r.status in {401, 500}
    ensures r.Success? ==>
      && r.status == 200
      && r.data.page == Paging.OrDefault(q.page, 1)
      && r.data.limit == Paging.OrDefault(q.limit, AuditLogModel.DefaultLimit)
      && r.data.skip == (r.data.page - 1) * r.data.limit
      && (forall e :: e in r.data.matching <==> e in log && ListedEvent(ctx.customerId.value, q, e))
      && r.data.total == |AuditLogModel.Select(log, AuditCountFilter(ctx.customerId.value, q))|
  {
    if !Present(ctx.customerId) then Error(401, AuthenticationRequired)
    else if q.startDate.InvalidDate? || q.endDate.InvalidDate? then Error(500, InternalError)
    else if q.userId.Some? && !IsObjectId(q.userId.value) then Error(500, InternalError)
    else
      var c := ctx.customerId.value;
      var query := AuditLogModel.FindByTenant(c, AuditLogModel.FindOptions(
        q.action, q.userId, q.resourceType, None, DateValue(q.startDate), DateValue(q.endDate),
        q.page, q.limit, Some("-timestamp")));
      if query.skip < 0 then Error(500, InternalError)
      else
        var total := AuditLogModel.CountMatching(log, AuditCountFilter(c, q));
        Success(200, Paging.Listing(AuditLogModel.Select(log, query.filter), query.skip, Paging.OrDefault(q.page, 1),
                                    query.limit, total, Paging.TotalPages(total, query.limit)))
  }

  /** With both date bounds or neither, and no empty filter text, the total
      is the number of events the listing selects. */
  lemma AuditTotalMatchesListing(ctx: RequestContext, q: AuditListQuery, log: seq<AuditLogModel.AuditEvent>)
    requires ListAuditLogs(ctx, q, log).Success?
    requires q.startDate.Instant? <==> q.endDate.Instant?
    requires q.action != Some("") && q.userId != Some("") && q.resourceType != Some("")
    ensures ListAuditLogs(ctx, q, log).data.total == |ListAuditLogs(ctx, q, log).data.matching|
  {
  }

  /** With only a start date, the listing keeps the events from that instant
      on but the total counts the tenant's events of all time: one event
      before the start gives an empty page with a total of 1. */
  lemma SingleDateBoundNotCounted(ctx: RequestContext, start: int, e: AuditLogModel.AuditEvent)
    requires Present(ctx.customerId) && e.customerId == ctx.customerId.value && e.timestamp < start
    ensures var r := ListAuditLogs(ctx, AuditListQuery(None, None, None, None, None, Instant(start), NoDate), [e]);
            r.Success? && r.data.matching == [] && r.data.total == 1
  {
    assert [e][1..] == [];
  }

  // -------------------------------------------------------------- analytics

  const AllStatuses: seq<TicketStatus> := [Open, InProgress, Resolved, Closed]
  const AllRoles: seq<Role> := [Admin, User, SuperAdmin]
  const AllActions: seq<AuditAction> := [
    Types.Login, Types.Logout, TicketCreate, TicketUpdate, TicketDelete, UserCreate, UserUpdate,
    AdminAccess, WorkflowTrigger, WebhookReceived]

  /** The analytics reply: the window, and per group (in the order of
      `AllStatuses`, `AllRoles`, `AllActions`) the group's size, with the
      totals the handler adds up from the groups. */
  datatype Analytics = Analytics(
    from: int, to: int,
    ticketsByStatus: seq<nat>, ticketTotal: nat,
    usersByRole: seq<nat>, userTotal: nat, activeByRole: seq<nat>, activeTotal: nat,
    auditByAction: seq<nat>, auditTotal: nat)

  /** The aggregation pipelines' `$match` stages. Aggregation bypasses the
      find hook, so deleted tickets and users are included. */
  function TicketInWindow(c: string, from: int, to: int): TicketModel.TicketRecord -> bool {
    (t: TicketModel.TicketRecord) => t.customerId == c && from <= t.createdAt <= to
  }

  function UserInTenant(c: string): UserModel.UserRecord -> bool {
    (u: UserModel.UserRecord) => u.customerId == c
  }

  function ActiveUserInTenant(c: string): UserModel.UserRecord -> bool {
    (u: UserModel.UserRecord) => u.customerId == c && u.isActive
  }

  function EventInWindow(c: string, from: int, to: int): AuditLogModel.AuditEvent -> bool {
    (e: AuditLogModel.AuditEvent) => e.customerId == c && from <= e.timestamp <= to
  }

  function StatusOf(t: TicketModel.TicketRecord): TicketStatus { t.status }
  function RoleOf(u: UserModel.UserRecord): Role { u.role }
  function ActionOf(e: AuditLogModel.AuditEvent): AuditAction { e.action }

  /** The window: the given dates, or the last 30 days up to now. */
  function Window(start: DateParam, end: DateParam, nowMs: int): (w: (int, int))
    requires !start.InvalidDate? && !end.InvalidDate?
    ensures w.0 == (if start.Instant? then start.ms else nowMs - AnalyticsWindowMs)
    ensures w.1 == (if end.Instant? then end.ms else nowMs)
  {
    (if start.Instant? then start.ms else nowMs - AnalyticsWindowMs, if end.Instant? then end.ms else nowMs)
  }

  /** The three key lists name every status, role and action. */
  lemma EveryKeyListed()
    ensures forall t: TicketModel.TicketRecord :: StatusOf(t) in AllStatuses
    ensures forall u: UserModel.UserRecord :: RoleOf(u) in AllRoles
    ensures forall e: AuditLogModel.AuditEvent :: ActionOf(e) in AllActions
  {
    forall t: TicketModel.TicketRecord
      ensures StatusOf(t) in AllStatuses
    {
      match t.status
      case Open => assert AllStatuses[0] == Open;
      case InProgress => assert AllStatuses[1] == InProgress;
      case Resolved => assert AllStatuses[2] == Resolved;
      case Closed => assert AllStatuses[3] == Closed;
    }
    forall u: UserModel.UserRecord
      ensures RoleOf(u) in AllRoles
    {
      match u.role
      case Admin => assert AllRoles[0] == Admin;
      case User => assert AllRoles[1] == User;
      case SuperAdmin => assert AllRoles[2] == SuperAdmin;
    }
    forall e: AuditLogModel.AuditEvent
      ensures ActionOf(e) in AllActions
    {
      match e.action
      case Login => assert AllActions[0] == Types.Login;
      case Logout => assert AllActions[1] == Types.Logout;
      case TicketCreate => assert AllActions[2] == TicketCreate;
      case TicketUpdate => assert AllActions[3] == TicketUpdate;
      case TicketDelete => assert AllActions[4] == TicketDelete;
      case UserCreate => assert AllActions[5] == UserCreate;
      case UserUpdate => assert AllActions[6] == UserUpdate;
      case AdminAccess => assert AllActions[7] == AdminAccess;
      case WorkflowTrigger => assert AllActions[8] == WorkflowTrigger;
      case WebhookReceived => assert AllActions[9] == WebhookReceived;
    }
  }

  /** `GET /api/admin/analytics`: per-status ticket counts in the window,
      per-role user and active counts, per-action event counts in the
      window, and their sums. A date `new Date` cannot read makes
      `toISOString` throw (500). */
  function GetAnalytics(ctx: RequestContext, start: DateParam, end: DateParam, nowMs: int,
                        tickets: seq<TicketModel.TicketRecord>, users: seq<UserModel.UserRecord>,
                        log: seq<AuditLogModel.AuditEvent>): (r: Reply<Analytics>)
    ensures !Present(ctx.customerId) ==> r == Error(401, AuthenticationRequired)
    ensures r.Success? <==> Present(ctx.customerId) && !start.InvalidDate? && !end.InvalidDate?
    ensures r.Success? ==>
      var c := ctx.customerId.value;
      && r.status == 200 && (r.data.from, r.data.to) == Window(start, end, nowMs)
      && |r.data.ticketsByStatus| == |AllStatuses| && |r.data.usersByRole| == |AllRoles|
      && |r.data.auditByAction| == |AllActions| && |r.data.activeByRole| == |AllRoles|
      && (forall i :: 0 <= i < |AllStatuses| ==>
            r.data.ticketsByStatus[i]
              == Grouping.CountKey(tickets, TicketInWindow(c, r.data.from, r.data.to), StatusOf, AllStatuses[i]))
      && (forall i :: 0 <= i < |AllRoles| ==>
            r.data.usersByRole[i] == Grouping.CountKey(users, UserInTenant(c), RoleOf, AllRoles[i]))
      && (forall i :: 0 <= i < |AllRoles| ==>
            r.data.activeByRole[i] == Grouping.CountKey(users, ActiveUserInTenant(c), RoleOf, AllRoles[i]))
      && (forall i :: 0 <= i < |AllActions| ==>
            r.data.auditByAction[i]
              == Grouping.CountKey(log, EventInWindow(c, r.data.from, r.data.to), ActionOf, AllActions[i]))
      && r.data.ticketTotal == Grouping.Sum(r.data.ticketsByStatus)
      && r.data.userTotal == Grouping.Sum(r.data.usersByRole)
      && r.data.activeTotal == Grouping.Sum(r.data.activeByRole)
      && r.data.auditTotal == Grouping.Sum(r.data.auditByAction)
  {
    if !Present(ctx.customerId) then Error(401, AuthenticationRequired)
    else if start.InvalidDate? || end.InvalidDate? then Error(500, InternalError)
    else
      var c := ctx.customerId.value;
      var (from, to) := Window(start, end, nowMs);
      var byStatus := Grouping.Counts(tickets, TicketInWindow(c, from, to), StatusOf, AllStatuses);
      var byRole := Grouping.Counts(users, UserInTenant(c), RoleOf, AllRoles);
      var activeByRole := Grouping.Counts(users, ActiveUserInTenant(c), RoleOf, AllRoles);
      var byAction := Grouping.Counts(log, EventInWindow(c, from, to), ActionOf, AllActions);
      Success(200, Analytics(from, to, byStatus, Grouping.Sum(byStatus), byRole, Grouping.Sum(byRole),
                             activeByRole, Grouping.Sum(activeByRole), byAction, Grouping.Sum(byAction)))
  }

  /** Each total the analytics reply adds up from its groups is the number
      of records the pipeline matched: the tenant's tickets created in the
      window, the tenant's users and active users, and the tenant's events
      in the window; deleted tickets and users included. */
  lemma AnalyticsTotalsCountRecords(ctx: RequestContext, start: DateParam, end: DateParam, nowMs: int,
                                    tickets: seq<TicketModel.TicketRecord>, users: seq<UserModel.UserRecord>,
                                    log: seq<AuditLogModel.AuditEvent>)
    requires GetAnalytics(ctx, start, end, nowMs, tickets, users, log).Success?
    ensures var a := GetAnalytics(ctx, start, end, nowMs, tickets, users, log).data;
      var c := ctx.customerId.value;
      && a.ticketTotal == Lists.Count(tickets, TicketInWindow(c, a.from, a.to))
      && a.userTotal == Lists.Count(users, UserInTenant(c))
      && a.activeTotal == Lists.Count(users, ActiveUserInTenant(c))
      && a.auditTotal == Lists.Count(log, EventInWindow(c, a.from, a.to))
  {
    var a := GetAnalytics(ctx, start, end, nowMs, tickets, users, log).data;
    var c := ctx.customerId.value;
    assert Grouping.Distinct(AllStatuses) && Grouping.Distinct(AllRoles) && Grouping.Distinct(AllActions);
    EveryKeyListed();
    Grouping.GroupTotal(tickets, TicketInWindow(c, a.from, a.to), StatusOf, AllStatuses);
    Grouping.GroupTotal(users, UserInTenant(c), RoleOf, AllRoles);
    Grouping.GroupTotal(users, ActiveUserInTenant(c), RoleOf, AllRoles);
    Grouping.GroupTotal(log, EventInWindow(c, a.from, a.to), ActionOf, AllActions);
  }

  // -------------------------------------------------- deactivate / activate

  /** `User.findOne({ _id, customerId })`: the live user with that id in that tenant. */
  function FindInTenant(users: seq<UserModel.UserRecord>, id: string, customerId: string): (r: Option<UserModel.UserRecord>)
    ensures r.Some? ==> r.value in users && r.value.id == id && r.value.customerId == customerId && r.value.deletedAt.None?
    ensures r.None? <==> forall u :: u in users && u.id == id && u.customerId == customerId ==> u.deletedAt.Some?
  {
    Lists.FindFirst(users, (u: UserModel.UserRecord) => u.id == id && u.customerId == customerId && FindMatches(Unmentioned, u.deletedAt))
  }

  /** A reply with the user collection afterwards. */
  datatype Outcome = Outcome(reply: Reply<string>, users: seq<UserModel.UserRecord>)

  /** Set `isActive` on the tenant's user with that id and save it. */
  function SetActive(ctx: RequestContext, id: string, users: seq<UserModel.UserRecord>, active: bool, guardSelf: bool)
    : (r: Outcome)
    ensures !Present(ctx.customerId) ==> r == Outcome(Error(401, AuthenticationRequired), users)
    ensures r.reply.Error? ==> r.users == users
    ensures r.reply.Success? <==>
      Present(ctx.customerId) && IsObjectId(id) && FindInTenant(users, id, ctx.customerId.value).Some?
      && !(guardSelf && ctx.user.Some? && ctx.user.value.userId == id)
    ensures r.reply.Success? ==>
      && r.reply.status == 200
      && |r.users| == |users|
      && forall i :: 0 <= i < |users| ==>
           r.users[i] == (if users[i].id == id then FindInTenant(users, id, ctx.customerId.value).value.(isActive := active)
                          else users[i])
  {
    if !Present(ctx.customerId) then Outcome(Error(401, AuthenticationRequired), users)
    else if !IsObjectId(id) then Outcome(Error(500, InternalError), users)
    else match FindInTenant(users, id, ctx.customerId.value)
      case None => Outcome(Error(404, UserNotFound), users)
      case Some(u) =>
        if guardSelf && ctx.user.Some? && u.id == ctx.user.value.userId then
          Outcome(Error(400, CannotDeactivateSelf), users)
        else
          Outcome(Success(200, if active then Activated else Deactivated),
                  Lists.ReplaceById(users, (x: UserModel.UserRecord) => x.id, id, u.(isActive := active)))
  }

  /** `POST /api/admin/users/:id/deactivate`: refuses the caller's own account. */
  function Deactivate(ctx: RequestContext, id: string, users: seq<UserModel.UserRecord>): (r: Outcome)
    ensures ctx.user.Some? && id == ctx.user.value.userId ==> r.reply.Error? && r.users == users
    ensures r.reply.Success? ==> r.reply.data == Deactivated
    ensures r.reply.Success? ==> forall u :: u in r.users && u.id == id ==> !u.isActive
  {
    SetActive(ctx, id, users, false, true)
  }

  /** `POST /api/admin/users/:id/activate`. */
  function Activate(ctx: RequestContext, id: string, users: seq<UserModel.UserRecord>): (r: Outcome)
    ensures r.reply.Success? ==> r.reply.data == Activated
    ensures r.reply.Success? ==> forall u :: u in r.users && u.id == id ==> u.isActive
  {
    SetActive(ctx, id, users, true, false)
  }

  /** Reactivating a user just deactivated restores the collection exactly,
      when the user was active and ids are unique. */
  lemma ActivateUndoesDeactivate(ctx: RequestContext, id: string, users: seq<UserModel.UserRecord>)
    requires UserModel.IndexesHold(users)
    requires Deactivate(ctx, id, users).reply.Success?
    requires FindInTenant(users, id, ctx.customerId.value).value.isActive
    ensures var after := Deactivate(ctx, id, users).users;
      && Activate(ctx, id, after).reply.Success?
      && Activate(ctx, id, after).users == users
  {
    var u := FindInTenant(users, id, ctx.customerId.value).value;
    var k :| 0 <= k < |users| && users[k] == u;
    FoundAfterSetActive(ctx, id, users, false, true);
    var restored := Activate(ctx, id, Deactivate(ctx, id, users).users).users;
    forall i | 0 <= i < |users|
      ensures restored[i] == users[i]
    {
      if users[i].id == id {
        SameIdSameIndex(users, i, k);
      }
    }
  }

  /** After a successful update, the tenant's user with that id is found
      again, with the new flag. */
  lemma FoundAfterSetActive(ctx: RequestContext, id: string, users: seq<UserModel.UserRecord>, active: bool, guardSelf: bool)
    requires UserModel.IndexesHold(users)
    requires SetActive(ctx, id, users, active, guardSelf).reply.Success?
    ensures var u := FindInTenant(users, id, ctx.customerId.value).value;
      FindInTenant(SetActive(ctx, id, users, active, guardSelf).users, id, ctx.customerId.value) == Some(u.(isActive := active))
  {
    var u := FindInTenant(users, id, ctx.customerId.value).value;
    var after := SetActive(ctx, id, users, active, guardSelf).users;
    var k :| 0 <= k < |users| && users[k] == u;
    assert after[k] == u.(isActive := active);
    var v := FindInTenant(after, id, ctx.customerId.value).value;
    var j :| 0 <= j < |after| && after[j] == v;
    SameIdSameIndex(users, j, k);
  }

  /** With unique ids, an id names at most one position. */
  lemma SameIdSameIndex(users: seq<UserModel.UserRecord>, i: int, j: int)
    requires UserModel.IndexesHold(users)
    requires 0 <= i < |users| && 0 <= j < |users| && users[i].id == users[j].id
    ensures i == j
  {
  }
}

=== FILE: admin_store.dfy ===
/** The admin dashboard's `useAdminStore`: the dashboard figures, the user
    and ticket lists with their current items, the audit trail, one shared
    set of paging counts, the user filters, and the loading and error flags. */
module AdminStore {
  import opened Common
  import Lists
  import opened StoreActions

  datatype User = User(id: string, email: string, firstName: string, lastName: string,
                       role: string, tenantId: string, isActive: bool)

  datatype Ticket = Ticket(id: string, title: string, status: string, priority: string,
                           category: string, assignedTo: Option<string>, tenantId: string)

  datatype AuditEntry = AuditEntry(id: string, action: string, resourceId: string, userId: string, tenantId: string)

  /** The headline figures of the dashboard (the per-group breakdowns are not modelled). */
  datatype DashboardStats = DashboardStats(totalUsers: int, totalTickets: int, openTickets: int, resolvedTickets: int)

  datatype UserFilters = UserFilters(role: Option<string>, isActive: Option<bool>, search: Option<string>,
                                     page: Option<int>, limit: Option<int>)

  const NoFilters: UserFilters := UserFilters(None, None, None, None, None)

  /** A page of some list, as the three list endpoints answer. */
  datatype Page<T> = Page(items: seq<T>, total: int, page: int, totalPages: int)

  datatype State = State(
    dashboardStats: Option<DashboardStats>,
    users: seq<User>, currentUser: Option<User>,
    tickets: seq<Ticket>, currentTicket: Option<Ticket>,
    auditLogs: seq<AuditEntry>,
    loading: bool, error: Option<string>,
    total: int, page: int, totalPages: int, filters: UserFilters)

  const Initial: State := State(None, [], None, [], None, [], false, None, 0, 1, 1, NoFilters)

  function UserKey(u: User): string { u.id }
  function TicketKey(t: Ticket): string { t.id }

  /** Only the two flags differ. */
  predicate SameData(s: State, r: State) {
    r.(loading := s.loading, error := s.error) == s
  }

  predicate FailedWith(s: State, r: State, serverMessage: Option<string>, fallback: string) {
    SameData(s, r) && !r.loading && r.error == Some(ErrorText(serverMessage, fallback))
  }

  predicate Settled(r: State) {
    !r.loading && r.error.None?
  }

  function Begin(s: State): State {
    s.(loading := true, error := None)
  }

  function Fail(s: State, serverMessage: Option<string>, fallback: string): (r: State)
    ensures FailedWith(s, r, serverMessage, fallback)
  {
    Begin(s).(error := Some(ErrorText(serverMessage, fallback)), loading := false)
  }

  /** `fetchDashboardStats()` */
  function FetchDashboardStats(s: State, result: Api<DashboardStats>): (r: State)
    ensures result.Failed? ==> FailedWith(s, r, result.serverMessage, "Failed to fetch dashboard stats")
    ensures result.Answered? ==> Settled(r) && r.dashboardStats == Some(result.value)
    ensures result.Answered? ==> r.(dashboardStats := s.dashboardStats, loading := s.loading, error := s.error) == s
  {
    match result
    case Failed(m) => Fail(s, m, "Failed to fetch dashboard stats")
    case Answered(d) => Begin(s).(dashboardStats := Some(d), loading := false)
  }

  /** `fetchUsers(filters)`: the one fetch that records its filters. */
  function FetchUsers(s: State, filters: UserFilters, result: Api<Page<User>>): (r: State)
    ensures result.Failed? ==> FailedWith(s, r, result.serverMessage, "Failed to fetch users")
    ensures result.Answered? ==>
      && Settled(r) && r.users == result.value.items && r.filters == filters
      && r.total == result.value.total && r.page == result.value.page && r.totalPages == result.value.totalPages
      && r.tickets == s.tickets && r.currentUser == s.currentUser
    ensures result.Answered? ==>
      r.(users := s.users, total := s.total, page := s.page, totalPages := s.totalPages, filters := s.filters,
         loading := s.loading, error := s.error) == s
  {
    match result
    case Failed(m) => Fail(s, m, "Failed to fetch users")
    case Answered(p) =>
      Begin(s).(users := p.items, total := p.total, page := p.page, totalPages := p.totalPages,
                filters := filters, loading := false)
  }

  /** `fetchUser(id)` */
  function FetchUser(s: State, id: string, result: Api<User>): (r: State)
    ensures result.Failed? ==> FailedWith(s, r, result.serverMessage, "Failed to fetch user")
    ensures result.Answered? ==> Settled(r) && r.currentUser == Some(result.value) && r.users == s.users
    ensures result.Answered? ==> r.(currentUser := s.currentUser, loading := s.loading, error := s.error) == s
  {
    match result
    case Failed(m) => Fail(s, m, "Failed to fetch user")
    case Answered(u) => Begin(s).(currentUser := Some(u), loading := false)
  }

  /** `createUser(data)`: the created user goes in front. */
  function CreateUser(s: State, result: Api<User>): (r: State)
    ensures result.Failed? ==> FailedWith(s, r, result.serverMessage, "Failed to create user")
    ensures result.Answered? ==>
      Settled(r) && r.users == [result.value] + s.users && r.currentUser == s.currentUser
    ensures result.Answered? ==> r.(users := s.users, loading := s.loading, error := s.error) == s
  {
    match result
    case Failed(m) => Fail(s, m, "Failed to create user")
    case Answered(u) => Begin(s).(users := Lists.Prepend(u, s.users), loading := false)
  }

  /** `updateUser(id, data)`: users with the id become the server's copy;
      the current user changes exactly when it has the id. */
  function UpdateUser(s: State, id: string, result: Api<User>): (r: State)
    ensures result.Failed? ==> FailedWith(s, r, result.serverMessage, "Failed to update user")
    ensures result.Answered? ==>
      && Settled(r) && |r.users| == |s.users|
      && (forall i :: 0 <= i < |s.users| ==> r.users[i] == (if s.users[i].id == id then result.value else s.users[i]))
      && (s.currentUser.Some? && s.currentUser.value.id == id ==> r.currentUser == Some(result.value))
      && (s.currentUser.None? || s.currentUser.value.id != id ==> r.currentUser == s.currentUser)
      && r.tickets == s.tickets
    ensures result.Answered? ==>
      r.(users := s.users, currentUser := s.currentUser, loading := s.loading, error := s.error) == s
  {
    match result
    case Failed(m) => Fail(s, m, "Failed to update user")
    case Answered(u) =>
      Begin(s).(users := Lists.ReplaceById(s.users, UserKey, id, u),
                currentUser := CurrentAfterUpdate(s.currentUser, UserKey, id, u), loading := false)
  }

  /** `deleteUser(id)`: users with the id leave the list; the current user is
      cleared exactly when it has the id. */
  function DeleteUser(s: State, id: string, result: Api<Ack>): (r: State)
    ensures result.Failed? ==> FailedWith(s, r, result.serverMessage, "Failed to delete user")
    ensures result.Answered? ==>
      && Settled(r)
      && (forall u :: u in r.users <==> u in s.users && u.id != id)
      && Lists.IsSubsequence(r.users, s.users)
      && (forall u :: multiset(r.users)[u] == if u.id != id then multiset(s.users)[u] else 0)
      && (r.currentUser.None? <==> s.currentUser.None? || s.currentUser.value.id == id)
      && (r.currentUser.Some? ==> r.currentUser == s.currentUser)
      && r.tickets == s.tickets
    ensures result.Answered? ==>
      r.(users := s.users, currentUser := s.currentUser, loading := s.loading, error := s.error) == s
  {
    match result
    case Failed(m) => Fail(s, m, "Failed to delete user")
    case Answered(_) =>
      Begin(s).(users := Lists.RemoveById(s.users, UserKey, id),
                currentUser := CurrentAfterRemove(s.currentUser, UserKey, id), loading := false)
  }

  /** `fetchTickets(filters)`: the counts are overwritten, the user filters are not. */
  function FetchTickets(s: State, result: Api<Page<Ticket>>): (r: State)
    ensures result.Failed? ==> FailedWith(s, r, result.serverMessage, "Failed to fetch tickets")
    ensures result.Answered? ==>
      && Settled(r) && r.tickets == result.value.items && r.filters == s.filters
      && r.total == result.value.total && r.page == result.value.page && r.totalPages == result.value.totalPages
      && r.users == s.users
    ensures result.Answered? ==>
      r.(tickets := s.tickets, total := s.total, page := s.page, totalPages := s.totalPages,
         loading := s.loading, error := s.error) == s
  {
    match result
    case Failed(m) => Fail(s, m, "Failed to fetch tickets")
    case Answered(p) =>
      Begin(s).(tickets := p.items, total := p.total, page := p.page, totalPages := p.totalPages, loading := false)
  }

  /** `updateTicket(id, data)` */
  function UpdateTicket(s: State, id: string, result: Api<Ticket>): (r: State)
    ensures result.Failed? ==> FailedWith(s, r, result.serverMessage, "Failed to update ticket")
    ensures result.Answered? ==>
      && Settled(r) && |r.tickets| == |s.tickets|
      && (forall i :: 0 <= i < |s.tickets| ==> r.tickets[i] == (if s.tickets[i].id == id then result.value else s.tickets[i]))
      && (s.currentTicket.Some? && s.currentTicket.value.id == id ==> r.currentTicket == Some(result.value))
      && (s.currentTicket.None? || s.currentTicket.value.id != id ==> r.currentTicket == s.currentTicket)
      && r.users == s.users
    ensures result.Answered? ==>
      r.(tickets := s.tickets, currentTicket := s.currentTicket, loading := s.loading, error := s.error) == s
  {
    match result
    case Failed(m) => Fail(s, m, "Failed to update ticket")
    case Answered(t) =>
      Begin(s).(tickets := Lists.ReplaceById(s.tickets, TicketKey, id, t),
                currentTicket := CurrentAfterUpdate(s.currentTicket, TicketKey, id, t), loading := false)
  }

  /** `deleteTicket(id)` */
  function DeleteTicket(s: State, id: string, result: Api<Ack>): (r: State)
    ensures result.Failed? ==> FailedWith(s, r, result.serverMessage, "Failed to delete ticket")
    ensures result.Answered? ==>
      && Settled(r)
      && (forall t :: t in r.tickets <==> t in s.tickets && t.id != id)
      && Lists.IsSubsequence(r.tickets, s.tickets)
      && (forall t :: multiset(r.tickets)[t] == if t.id != id then multiset(s.tickets)[t] else 0)
      && (r.currentTicket.None? <==> s.currentTicket.None? || s.currentTicket.value.id == id)
      && (r.currentTicket.Some? ==> r.currentTicket == s.currentTicket)
      && r.users == s.users
    ensures result.Answered? ==>
      r.(tickets := s.tickets, currentTicket := s.currentTicket, loading := s.loading, error := s.error) == s
  {
    match result
    case Failed(m) => Fail(s, m, "Failed to delete ticket")
    case Answered(_) =>
      Begin(s).(tickets := Lists.RemoveById(s.tickets, TicketKey, id),
                currentTicket := CurrentAfterRemove(s.currentTicket, TicketKey, id), loading := false)
  }

  /** `fetchAuditLogs(filters)`: like `fetchTickets`, the filters are not recorded. */
  function FetchAuditLogs(s: State, result: Api<Page<AuditEntry>>): (r: State)
    ensures result.Failed? ==> FailedWith(s, r, result.serverMessage, "Failed to fetch audit logs")
    ensures result.Answered? ==>
      && Settled(r) && r.auditLogs == result.value.items && r.filters == s.filters
      && r.total == result.value.total && r.page == result.value.page && r.totalPages == result.value.totalPages
    ensures result.Answered? ==>
      r.(auditLogs := s.auditLogs, total := s.total, page := s.page, totalPages := s.totalPages,
         loading := s.loading, error := s.error) == s
  {
    match result
    case Failed(m) => Fail(s, m, "Failed to fetch audit logs")
    case Answered(p) =>
      Begin(s).(auditLogs := p.items, total := p.total, page := p.page, totalPages := p.totalPages, loading := false)
  }

  /** `clearError()`: only the error changes. */
  function ClearError(s: State): (r: State)
    ensures r.error.None? && SameData(s, r) && r.loading == s.loading
  {
    s.(error := None)
  }

  /** `setCurrentUser(user)`: the lists stay as they are. */
  function SetCurrentUser(s: State, u: Option<User>): (r: State)
    ensures r.currentUser == u && r.(currentUser := s.currentUser) == s
  {
    s.(currentUser := u)
  }

  /** `setCurrentTicket(ticket)` */
  function SetCurrentTicket(s: State, t: Option<Ticket>): (r: State)
    ensures r.currentTicket == t && r.(currentTicket := s.currentTicket) == s
  {
    s.(currentTicket := t)
  }

  /** `setFilters(filters)` */
  function SetFilters(s: State, filters: UserFilters): (r: State)
    ensures r.filters == filters && r.(filters := s.filters) == s
  {
    s.(filters := filters)
  }

  /** The user filters are those of the last successful `fetchUsers`: a
      ticket or audit fetch after it, answered or not, keeps them. */
  lemma FiltersFollowUserFetch(s: State, filters: UserFilters, users: Page<User>,
                               tickets: Api<Page<Ticket>>, logs: Api<Page<AuditEntry>>)
    ensures FetchAuditLogs(FetchTickets(FetchUsers(s, filters, Answered(users)), tickets), logs).filters == filters
    ensures FetchUsers(s, filters, Failed(None)).filters == s.filters
  {
  }

  /** Deleting a user just created, whose id was new, restores the list. */
  lemma CreateThenDeleteUserRestores(s: State, u: User)
    requires forall i :: 0 <= i < |s.users| ==> s.users[i].id != u.id
    ensures DeleteUser(CreateUser(s, Answered(u)), u.id, Answered(Ack)).users == s.users
  {
    PrependThenRemove(s.users, UserKey, u);
  }

  /** Receiving the same user or ticket update twice is receiving it once. */
  lemma UpdatesIdempotent(s: State, id: string, u: User, t: Ticket)
    ensures UpdateUser(UpdateUser(s, id, Answered(u)), id, Answered(u)) == UpdateUser(s, id, Answered(u))
    ensures UpdateTicket(UpdateTicket(s, id, Answered(t)), id, Answered(t)) == UpdateTicket(s, id, Answered(t))
  {
    Lists.ReplaceByIdIdempotent(s.users, UserKey, id, u);
    CurrentAfterUpdateIdempotent(s.currentUser, UserKey, id, u);
    Lists.ReplaceByIdIdempotent(s.tickets, TicketKey, id, t);
    CurrentAfterUpdateIdempotent(s.currentTicket, TicketKey, id, t);
  }
}

=== FILE: app.dfy ===
/** The application shell: which guards stand in front of each mounted
    router, the catch-all 404, and the global error handler that turns an
    uncaught error into a JSON reply. */
module App {
  import opened Common
  import opened Types
  import opened Jwt
  import opened AuthMiddleware

  /** The mounted routers, and the catch-all. */
  datatype Mount = HealthRoutes | AuthRoutes | WebhookRoutes | MeRoutes | TicketRoutes | AdminRoutes | NoRoute

  function MountPath(m: Mount): string {
    match m
    case HealthRoutes => "/api/health"
    case AuthRoutes => "/api/auth"
    case WebhookRoutes => "/api/webhook"
    case MeRoutes => "/api/me"
    case TicketRoutes => "/api/tickets"
    case AdminRoutes => "/api/admin"
    case NoRoute => "*"
  }

  /** `app.use(prefix, ...)` matches the prefix itself and everything below
      it at a segment boundary, ignoring letter case. */
  predicate UnderMount(path: string, prefix: string) {
    var p := Lower(path);
    p == prefix || StartsWith(p, prefix + "/")
  }

  /** A path under a mount spells that mount's sixth and seventh characters,
      which tell the six mounts apart. */
  lemma UnderMountSpells(path: string, prefix: string)
    requires |prefix| >= 7 && UnderMount(path, prefix)
    ensures |Lower(path)| >= 7 && Lower(path)[5] == prefix[5] && Lower(path)[6] == prefix[6]
  {
    var p := Lower(path);
    if p != prefix {
      assert p[..|prefix| + 1][5] == (prefix + "/")[5];
      assert p[..|prefix| + 1][6] == (prefix + "/")[6];
    }
  }

  /** The router a request path is handed to, in mounting order. The
      prefixes never overlap, so the first that matches is the only one. */
  function Route(path: string): (m: Mount)
    ensures m != NoRoute ==> UnderMount(path, MountPath(m))
    ensures forall k: Mount :: k != NoRoute && UnderMount(path, MountPath(k)) ==> k == m
    ensures m == NoRoute <==> forall k: Mount :: k != NoRoute ==> !UnderMount(path, MountPath(k))
  {
    assert forall k: Mount :: k != NoRoute && UnderMount(path, MountPath(k)) ==>
      |Lower(path)| >= 7 && Lower(path)[5] == MountPath(k)[5] && Lower(path)[6] == MountPath(k)[6] by {
      forall k: Mount | k != NoRoute && UnderMount(path, MountPath(k))
        ensures |Lower(path)| >= 7 && Lower(path)[5] == MountPath(k)[5] && Lower(path)[6] == MountPath(k)[6]
      {
        UnderMountSpells(path, MountPath(k));
      }
    }
    if UnderMount(path, "/api/health") then HealthRoutes
    else if UnderMount(path, "/api/auth") then AuthRoutes
    else if UnderMount(path, "/api/webhook") then WebhookRoutes
    else if UnderMount(path, "/api/me") then MeRoutes
    else if UnderMount(path, "/api/tickets") then TicketRoutes
    else if UnderMount(path, "/api/admin") then AdminRoutes
    else NoRoute
  }

  /** What happens to a request before its router runs. */
  datatype Dispatch =
    | Rejected(status: int, message: string)
    | Reached(mount: Mount, ctx: RequestContext)

  /** The guard chain of each mount: none for health, auth and webhooks,
      `authenticate` for the profile and ticket routers, `authenticate` then
      `requireAdmin` for the admin router; anything else is a 404. */
  function Guarded(path: string, req: AuthRequest): (d: Dispatch)
    ensures Route(path) == NoRoute ==> d == Rejected(404, "Route not found")
    ensures Route(path) in {HealthRoutes, AuthRoutes, WebhookRoutes} ==> d == Reached(Route(path), Unauthenticated)
    ensures d.Reached? ==> d.mount == Route(path)
    ensures d.Reached? && d.mount in {MeRoutes, TicketRoutes, AdminRoutes} ==>
      d.ctx.user.Some? && d.ctx.customerId == Some(d.ctx.user.value.customerId)
    ensures d.Reached? && d.mount == AdminRoutes ==> IsAdmin(d.ctx.user.value.role)
  {
    match Route(path)
    case NoRoute => Rejected(404, "Route not found")
    case HealthRoutes => Reached(HealthRoutes, Unauthenticated)
    case AuthRoutes => Reached(AuthRoutes, Unauthenticated)
    case WebhookRoutes => Reached(WebhookRoutes, Unauthenticated)
    case MeRoutes => Authenticated(MeRoutes, req)
    case TicketRoutes => Authenticated(TicketRoutes, req)
    case AdminRoutes =>
      match Authenticated(AdminRoutes, req)
      case Rejected(s, m) => Rejected(s, m)
      case Reached(mount, ctx) =>
        match RequireAdmin(ctx.user)
        case Deny(s, m) => Rejected(s, m)
        case Next => Reached(mount, ctx)
  }

  /** `authenticate` in front of a router. */
  function Authenticated(m: Mount, req: AuthRequest): (d: Dispatch)
    ensures d.Reached? <==> Authenticate(req).Pass?
    ensures d.Rejected? ==> d == Rejected(401, Authenticate(req).message)
    ensures d.Reached? ==> d == Reached(m, Attach(Unauthenticated, Authenticate(req)))
  {
    match Authenticate(req)
    case Reject(s, msg) => Rejected(s, msg)
    case Pass(p, c) => Reached(m, RequestContext(Some(p), Some(c)))
  }

  /** Who gets through to the admin router: exactly the authenticated admins
      and super admins. An authenticated plain user is refused with 403,
      everyone else with the 401 of `authenticate`. */
  lemma AdminMountAdmitsAdmins(path: string, req: AuthRequest)
    requires Route(path) == AdminRoutes
    ensures Guarded(path, req).Reached? <==> Authenticate(req).Pass? && IsAdmin(Authenticate(req).principal.role)
    ensures Authenticate(req).Pass? && Authenticate(req).principal.role == User ==>
      Guarded(path, req) == Rejected(403, "Admin access required")
    ensures Authenticate(req).Reject? ==> Guarded(path, req).Rejected? && Guarded(path, req).status == 401
  {
  }

  /** The same request is admitted to the ticket and profile routers alike,
      and to the admin router only if it is admitted to those. */
  lemma GuardsNest(ticketPath: string, mePath: string, adminPath: string, req: AuthRequest)
    requires Route(ticketPath) == TicketRoutes && Route(mePath) == MeRoutes && Route(adminPath) == AdminRoutes
    ensures Guarded(ticketPath, req).Reached? <==> Guarded(mePath, req).Reached?
    ensures Guarded(adminPath, req).Reached? ==> Guarded(ticketPath, req).Reached?
  {
  }

  // ---------------------------------------------------------- error handler

  /** The parts of an uncaught error the handler reads: `name`, `code`, the
      key fields of `keyValue` (absent when there is no `keyValue`),
      `statusCode` and `message`. */
  datatype UncaughtError = UncaughtError(
    name: Option<string>, code: Option<int>, keyValue: Option<seq<string>>,
    statusCode: Option<int>, message: Option<string>)

  /** The handler's answer: a JSON error reply, or (when the handler itself
      throws) Express's own final handler with status 500. */
  datatype ErrorReply = JsonError(status: int, message: string) | FinalHandler500

  const DuplicateKeyCode: int := 11000

  /** `` `${field} already exists` `` for the first key field, or for
      `undefined` when there is none. */
  function AlreadyExists(fields: seq<string>): string {
    (if fields == [] then "undefined" else fields[0]) + " already exists"
  }

  /** The global error handler; its checks run in order and the first match answers. */
  function MapError(e: UncaughtError): (r: ErrorReply)
    ensures e.name == Some("ValidationError") ==> r == JsonError(400, "Validation failed")
    ensures e.name != Some("ValidationError") && e.code == Some(DuplicateKeyCode) ==>
      r == (if e.keyValue.None? then FinalHandler500 else JsonError(400, AlreadyExists(e.keyValue.value)))
    ensures e.name == Some("JsonWebTokenError") && e.code != Some(DuplicateKeyCode) ==> r == JsonError(401, "Invalid token")
    ensures e.name == Some("TokenExpiredError") && e.code != Some(DuplicateKeyCode) ==> r == JsonError(401, "Token expired")
    ensures e.name !in {Some("ValidationError"), Some("JsonWebTokenError"), Some("TokenExpiredError")}
            && e.code != Some(DuplicateKeyCode) ==>
      r == JsonError(if e.statusCode.Some? && e.statusCode.value != 0 then e.statusCode.value else 500,
                     if Present(e.message) then e.message.value else "Internal server error")
    ensures r.JsonError? ==> r.status != 0 && r.message != ""
  {
    if e.name == Some("ValidationError") then JsonError(400, "Validation failed")
    else if e.code == Some(DuplicateKeyCode) then
      (if e.keyValue.None? then FinalHandler500 else JsonError(400, AlreadyExists(e.keyValue.value)))
    else if e.name == Some("JsonWebTokenError") then JsonError(401, "Invalid token")
    else if e.name == Some("TokenExpiredError") then JsonError(401, "Token expired")
    else
      JsonError(if e.statusCode.Some? && e.statusCode.value != 0 then e.statusCode.value else 500,
                if Present(e.message) then e.message.value else "Internal server error")
  }

  /** An error that says nothing about itself is a 500 "Internal server
      error"; a duplicate key is reported by its first field; and the token
      library's two error names map to the same texts the token verifier uses. */
  lemma MapErrorDefaults(fields: seq<string>)
    ensures MapError(UncaughtError(None, None, None, None, None)) == JsonError(500, "Internal server error")
    ensures fields != [] ==>
      MapError(UncaughtError(Some("MongoServerError"), Some(DuplicateKeyCode), Some(fields), None, None))
      == JsonError(400, fields[0] + " already exists")
    ensures MapError(UncaughtError(Some("TokenExpiredError"), None, None, None, None)).message
            == VerifyToken(AccessKind, Expired).error
    ensures MapError(UncaughtError(Some("JsonWebTokenError"), None, None, None, None)).message
            == VerifyToken(AccessKind, Invalid).error
  {
  }

  /** Any other error keeps its own non-zero status and non-empty message:
      the handler hands them through unchanged, whatever its name. */
  lemma MapErrorPassesThrough(name: Option<string>, status: int, message: string)
    requires name !in {Some("ValidationError"), Some("JsonWebTokenError"), Some("TokenExpiredError")}
    requires status != 0 && message != ""
    ensures MapError(UncaughtError(name, None, None, Some(status), Some(message))) == JsonError(status, message)
  {
  }
}

=== FILE: app_store.dfy ===
/** The shell's `useAppStore`: the tenant configuration and theme, the
    sidebar flag and the notification list. Every action is synchronous;
    `addNotification` reads the clock, which is a parameter here. */
module AppStore {
  import opened Common
  import Lists
  import UserRoutes
  import StoreActions

  datatype NotificationType = Success | Failure | Warning | Info

  datatype Notification = Notification(id: string, kind: NotificationType, title: string, message: string,
                                       timestamp: int, read: bool)

  datatype State = State(tenant: Option<UserRoutes.TenantConfig>, theme: string, sidebarOpen: bool,
                         notifications: seq<Notification>)

  const Initial: State := State(None, "blue", false, [])

  function Key(n: Notification): string { n.id }

  function Digit(d: nat): char
    requires d < 10
  {
    "0123456789"[d]
  }

  /** The number a string of decimal digits spells, most significant first. */
  function DigitsValue(s: string): nat
    requires forall i :: 0 <= i < |s| ==> '0' <= s[i] <= '9'
  {
    if s == [] then 0 else 10 * DigitsValue(s[..|s| - 1]) + (s[|s| - 1] as int - '0' as int)
  }

  /** `n.toString()` for a natural number: the decimal digits that spell
      `n`, with no leading zero unless `n` is zero. */
  function Decimal(n: nat): (r: string)
    ensures r != []
    ensures forall i :: 0 <= i < |r| ==> '0' <= r[i] <= '9'
    ensures DigitsValue(r) == n
    ensures r[0] == '0' ==> r == "0"
  {
    if n < 10 then [Digit(n)]
    else
      var r := Decimal(n / 10) + [Digit(n % 10)];
      assert r[..|r| - 1] == Decimal(n / 10);
      r
  }

  /** Distinct instants give distinct notification ids. */
  lemma DecimalInjective(a: nat, b: nat)
    ensures Decimal(a) == Decimal(b) ==> a == b
  {
  }

  /** `setTenant(tenant)`: the theme follows the tenant's. */
  function SetTenant(s: State, tenant: UserRoutes.TenantConfig): (r: State)
    ensures r.tenant == Some(tenant) && r.theme == tenant.theme
    ensures r.sidebarOpen == s.sidebarOpen && r.notifications == s.notifications
  {
    s.(tenant := Some(tenant), theme := tenant.theme)
  }

  /** `setTheme(theme)`: the tenant stays, so the theme may differ from the tenant's. */
  function SetTheme(s: State, theme: string): (r: State)
    ensures r.theme == theme && r.(theme := s.theme) == s
  {
    s.(theme := theme)
  }

  /** `toggleSidebar()` */
  function ToggleSidebar(s: State): (r: State)
    ensures r.sidebarOpen != s.sidebarOpen && r.(sidebarOpen := s.sidebarOpen) == s
  {
    s.(sidebarOpen := !s.sidebarOpen)
  }

  /** `setSidebarOpen(open)` */
  function SetSidebarOpen(s: State, open: bool): (r: State)
    ensures r.sidebarOpen == open && r.(sidebarOpen := s.sidebarOpen) == s
  {
    s.(sidebarOpen := open)
  }

  /** `addNotification(n)`: one unread notification in front, its id the
      decimal clock reading and its timestamp the same instant. */
  function AddNotification(s: State, kind: NotificationType, title: string, message: string, nowMs: nat): (r: State)
    ensures |r.notifications| == |s.notifications| + 1 && r.notifications[1..] == s.notifications
    ensures r.notifications[0] == Notification(Decimal(nowMs), kind, title, message, nowMs, false)
    ensures r.(notifications := s.notifications) == s
  {
    s.(notifications := Lists.Prepend(Notification(Decimal(nowMs), kind, title, message, nowMs, false), s.notifications))
  }

  /** `removeNotification(id)`: every notification with the id goes, every other stays. */
  function RemoveNotification(s: State, id: string): (r: State)
    ensures forall n :: n in r.notifications <==> n in s.notifications && n.id != id
    ensures Lists.IsSubsequence(r.notifications, s.notifications)
    ensures forall n :: multiset(r.notifications)[n] == if n.id != id then multiset(s.notifications)[n] else 0
    ensures r.(notifications := s.notifications) == s
  {
    s.(notifications := Lists.RemoveById(s.notifications, Key, id))
  }

  function MarkRead(n: Notification): Notification {
    n.(read := true)
  }

  /** `markNotificationAsRead(id)`: the notifications with the id are read,
      the others untouched, in place. */
  function MarkNotificationAsRead(s: State, id: string): (r: State)
    ensures |r.notifications| == |s.notifications|
    ensures forall i :: 0 <= i < |s.notifications| ==>
      r.notifications[i] == (if s.notifications[i].id == id then s.notifications[i].(read := true) else s.notifications[i])
    ensures r.(notifications := s.notifications) == s
  {
    s.(notifications := Lists.UpdateById(s.notifications, Key, id, MarkRead))
  }

  /** `clearNotifications()` */
  function ClearNotifications(s: State): (r: State)
    ensures r.notifications == [] && r.(notifications := s.notifications) == s
  {
    s.(notifications := [])
  }

  /** Toggling the sidebar twice leaves the store as it was. */
  lemma ToggleTwice(s: State)
    ensures ToggleSidebar(ToggleSidebar(s)) == s
  {
  }

  /** Marking as read is idempotent, and marks nothing else. */
  lemma MarkReadIdempotent(s: State, id: string)
    ensures MarkNotificationAsRead(MarkNotificationAsRead(s, id), id) == MarkNotificationAsRead(s, id)
    ensures forall n :: n in MarkNotificationAsRead(s, id).notifications && !n.read ==> n in s.notifications && n.id != id
  {
    var once := MarkNotificationAsRead(s, id);
    var twice := MarkNotificationAsRead(once, id);
    assert twice.notifications == once.notifications;
  }

  /** Removing a notification just added at a new instant restores the list. */
  lemma AddThenRemove(s: State, kind: NotificationType, title: string, message: string, nowMs: nat)
    requires forall i :: 0 <= i < |s.notifications| ==> s.notifications[i].id != Decimal(nowMs)
    ensures RemoveNotification(AddNotification(s, kind, title, message, nowMs), Decimal(nowMs)) == s
  {
    StoreActions.PrependThenRemove(s.notifications, Key, Notification(Decimal(nowMs), kind, title, message, nowMs, false));
  }

  /** Ids come from the clock alone: two notifications added in the same
      millisecond share an id, so removing one removes both. */
  lemma SameInstantShareId(s: State, a: string, b: string, nowMs: nat)
    ensures var r := AddNotification(AddNotification(s, Info, a, "", nowMs), Info, b, "", nowMs);
      && r.notifications[0].id == r.notifications[1].id
      && RemoveNotification(r, r.notifications[0].id).notifications == Lists.RemoveById(s.notifications, Key, Decimal(nowMs))
  {
    var first := Notification(Decimal(nowMs), Info, a, "", nowMs, false);
    var second := Notification(Decimal(nowMs), Info, b, "", nowMs, false);
    StoreActions.PrependThenRemoveSameId(Lists.Prepend(first, s.notifications), Key, second);
    StoreActions.PrependThenRemoveSameId(s.notifications, Key, first);
  }
}

=== FILE: audit_log_model.dfy ===
/** The AuditLog model: the event record and its schema bounds, `logEvent`
    (which stamps the current time), the `findByTenant` query builder and the
    `actionLabel` virtual. The audit collection is a sequence of events. */
module AuditLogModel {
  import opened Common
  import opened Types
  import Lists
  import Paging

  const ResourceTypeMaxLength: int := 50
  const ResourceIdMaxLength: int := 100
  const UserAgentMaxLength: int := 500
  const DefaultLimit: int := 50
  const DefaultSort: string := "-timestamp"

  /** A stored audit event; the free-form `details` map is not modelled. */
  datatype AuditEvent = AuditEvent(
    customerId: string, userId: string, action: AuditAction, resourceType: string,
    resourceId: Option<string>, ipAddress: string, userAgent: string, timestamp: int)

  /** What a caller hands to `logEvent`; a timestamp in it is ignored. */
  datatype EventInput = EventInput(
    customerId: string, userId: string, action: AuditAction, resourceType: string,
    resourceId: Option<string>, ipAddress: string, userAgent: string, timestamp: Option<int>)

  /** `logEvent`: the input's fields (trimmed by the schema) and the current
      time, which overrides any timestamp the input carried. */
  function LogEvent(input: EventInput, nowMs: int): (e: AuditEvent)
    ensures e.timestamp == nowMs
    ensures e.customerId == input.customerId && e.userId == input.userId && e.action == input.action
    ensures e.resourceType == Trim(input.resourceType) && e.userAgent == Trim(input.userAgent)
    ensures e.resourceId.Some? <==> input.resourceId.Some?
    ensures input.resourceId.Some? ==> e.resourceId == Some(Trim(input.resourceId.value))
    ensures e.ipAddress == Trim(input.ipAddress)
  {
    AuditEvent(input.customerId, input.userId, input.action, Trim(input.resourceType),
               match input.resourceId case Some(id) => Some(Trim(id)) case None => None,
               Trim(input.ipAddress), Trim(input.userAgent), nowMs)
  }

  /** Two inputs that differ only in their timestamp are logged identically. */
  lemma LogEventIgnoresInputTimestamp(input: EventInput, t: Option<int>, nowMs: int)
    ensures LogEvent(input.(timestamp := t), nowMs) == LogEvent(input, nowMs)
  {
  }

  /** An input whose trimmed texts meet the schema's bounds gives an event
      that meets them. */
  lemma LogEventWithinBounds(input: EventInput, nowMs: int)
    requires input.customerId != ""
    requires 1 <= |Trim(input.resourceType)| <= ResourceTypeMaxLength
    requires input.resourceId.Some? ==> |Trim(input.resourceId.value)| <= ResourceIdMaxLength
    requires Trim(input.ipAddress) != ""
    requires 1 <= |Trim(input.userAgent)| <= UserAgentMaxLength
    ensures BoundsHold(LogEvent(input, nowMs))
  {
  }

  /** The schema's checks that do not depend on the actor: required paths and
      the length bounds on resource type, resource id and user agent. */
  predicate BoundsHold(e: AuditEvent) {
    && e.customerId != ""
    && e.resourceType != "" && |e.resourceType| <= ResourceTypeMaxLength
    && (e.resourceId.Some? ==> |e.resourceId.value| <= ResourceIdMaxLength)
    && e.ipAddress != ""
    && e.userAgent != "" && |e.userAgent| <= UserAgentMaxLength
  }

  /** The schema as written: `userId` is an ObjectId path, so it must cast
      from 24 hexadecimal digits. */
  predicate SchemaAcceptsAsWritten(e: AuditEvent) {
    BoundsHold(e) && IsObjectId(e.userId)
  }

  /** The schema with the non-human actor "system" admitted as a user id. */
  predicate SchemaAccepts(e: AuditEvent) {
    BoundsHold(e) && (IsObjectId(e.userId) || e.userId == SystemActor)
  }

  const SystemActor: string := "system"

  /** "system" is not an ObjectId, so the schema as written refuses every
      event whose actor is "system". */
  lemma SystemActorRefusedAsWritten(e: AuditEvent)
    requires e.userId == SystemActor
    ensures !SchemaAcceptsAsWritten(e)
    ensures BoundsHold(e) ==> SchemaAccepts(e)
  {
  }

  /** `AuditLog.create`: appended when the schema accepts the event, refused otherwise. */
  function Append(log: seq<AuditEvent>, e: AuditEvent): (r: Result<seq<AuditEvent>, string>)
    ensures r.Ok? <==> SchemaAccepts(e)
    ensures r.Ok? ==> r.value == log + [e]
  {
    if SchemaAccepts(e) then Ok(log + [e]) else Err("Validation failed")
  }

  /** `AuditLog.create` with the schema as written. */
  function AppendAsWritten(log: seq<AuditEvent>, e: AuditEvent): (r: Result<seq<AuditEvent>, string>)
    ensures r.Ok? <==> SchemaAcceptsAsWritten(e)
    ensures r.Ok? ==> r.value == log + [e]
  {
    if SchemaAcceptsAsWritten(e) then Ok(log + [e]) else Err("Validation failed")
  }

  /** An in-bounds event whose actor is an ObjectId is appended by the schema as written. */
  lemma AppendAsWrittenAccepts(log: seq<AuditEvent>, e: AuditEvent)
    requires BoundsHold(e) && IsObjectId(e.userId)
    ensures AppendAsWritten(log, e) == Ok(log + [e])
  {
  }

  // ------------------------------------------------------------------ query

  datatype FindOptions = FindOptions(
    action: Option<string>, userId: Option<string>, resourceType: Option<string>, resourceId: Option<string>,
    startDate: Option<int>, endDate: Option<int>, page: Option<int>, limit: Option<int>, sort: Option<string>)

  /** The filter document `findByTenant` builds. */
  datatype AuditFilter = AuditFilter(
    customerId: string, action: Option<string>, userId: Option<string>, resourceType: Option<string>,
    resourceId: Option<string>, from: Option<int>, to: Option<int>)

  datatype AuditQuery = AuditQuery(filter: AuditFilter, skip: int, limit: int, sort: string)

  function Truthy(s: Option<string>): Option<string> {
    if Present(s) then s else None
  }

  /** `findByTenant`: the tenant filter always, each optional filter only
      when given, the two date bounds independently; page 1, limit 50 and
      sort "-timestamp" by default. */
  function FindByTenant(customerId: string, o: FindOptions): (q: AuditQuery)
    ensures q.filter.customerId == customerId
    ensures q.filter.action == (if Present(o.action) then o.action else None)
    ensures q.filter.userId == (if Present(o.userId) then o.userId else None)
    ensures q.filter.resourceType == (if Present(o.resourceType) then o.resourceType else None)
    ensures q.filter.resourceId == (if Present(o.resourceId) then o.resourceId else None)
    ensures q.filter.from == o.startDate && q.filter.to == o.endDate
    ensures q.limit == Paging.OrDefault(o.limit, DefaultLimit) && q.limit != 0
    ensures o.limit.None? || o.limit == Some(0) ==> q.limit == DefaultLimit
    ensures q.skip == (Paging.OrDefault(o.page, 1) - 1) * q.limit
    ensures o.page.None? || o.page == Some(0) ==> q.skip == 0
    ensures q.sort == (if Present(o.sort) then o.sort.value else DefaultSort)
  {
    var page := Paging.OrDefault(o.page, 1);
    var limit := Paging.OrDefault(o.limit, DefaultLimit);
    AuditQuery(
      AuditFilter(customerId, Truthy(o.action), Truthy(o.userId), Truthy(o.resourceType), Truthy(o.resourceId),
                  o.startDate, o.endDate),
      Paging.Skip(page, limit), limit,
      if Present(o.sort) then o.sort.value else DefaultSort)
  }

  predicate FilterMatches(f: AuditFilter, e: AuditEvent) {
    && e.customerId == f.customerId
    && (f.action.Some? ==> ActionName(e.action) == f.action.value)
    && (f.userId.Some? ==> e.userId == f.userId.value)
    && (f.resourceType.Some? ==> e.resourceType == f.resourceType.value)
    && (f.resourceId.Some? ==> e.resourceId == f.resourceId)
    && (f.from.Some? ==> e.timestamp >= f.from.value)
    && (f.to.Some? ==> e.timestamp <= f.to.value)
  }

  /** The events a query selects, in storage order, before sorting and paging. */
  function Select(log: seq<AuditEvent>, f: AuditFilter): (r: seq<AuditEvent>)
    ensures forall e :: e in r <==> e in log && FilterMatches(f, e)
  {
    Lists.Filter(log, (e: AuditEvent) => FilterMatches(f, e))
  }

  /** `countDocuments(filter)`: the audit collection has no soft delete, so
      the count is the size of the selection the same filter makes. */
  function CountMatching(log: seq<AuditEvent>, f: AuditFilter): (n: nat)
    ensures n == |Select(log, f)|
  {
    Lists.CountIsFilterLength(log, (e: AuditEvent) => FilterMatches(f, e));
    Lists.Count(log, (e: AuditEvent) => FilterMatches(f, e))
  }

  /** Only the tenant's events are ever selected, and with only a start date
      every event of the tenant from that instant on is selected. */
  lemma FindByTenantSelectsTenant(log: seq<AuditEvent>, customerId: string, o: FindOptions, e: AuditEvent)
    ensures e in Select(log, FindByTenant(customerId, o).filter) ==> e.customerId == customerId
    ensures o.startDate.Some? && o.endDate.None? && !Present(o.action) && !Present(o.userId)
            && !Present(o.resourceType) && !Present(o.resourceId) ==>
      (e in Select(log, FindByTenant(customerId, o).filter) <==>
       e in log && e.customerId == customerId && e.timestamp >= o.startDate.value)
  {
  }

  // ------------------------------------------------------------------ label

  function Label(a: AuditAction): string {
    match a
    case Login => "User Login"
    case Logout => "User Logout"
    case TicketCreate => "Ticket Created"
    case TicketUpdate => "Ticket Updated"
    case TicketDelete => "Ticket Deleted"
    case UserCreate => "User Created"
    case UserUpdate => "User Updated"
    case AdminAccess => "Admin Access"
    case WorkflowTrigger => "Workflow Triggered"
    case WebhookReceived => "Webhook Received"
  }

  /** What `actionLabels[action] || action` yields: a text, or the member an
      object literal inherits under that name, which is truthy. */
  datatype LabelValue = Text(text: string) | Inherited(name: string)

  /** `actionLabel`: the fixed label of a known action, the member of
      `Object.prototype` for an inherited name, and the raw text otherwise.
      The schema's enumeration keeps the last two out of a stored event. */
  function ActionLabel(raw: string): (r: LabelValue)
    ensures ParseAction(raw).Some? ==> r == Text(Label(ParseAction(raw).value))
    ensures r.Inherited? <==> raw in InheritedNames
    ensures r.Inherited? ==> r.name == raw
    ensures ParseAction(raw).None? && raw !in InheritedNames ==> r == Text(raw)
  {
    match ParseAction(raw)
    case Some(a) => Text(Label(a))
    case None => if raw in InheritedNames then Inherited(raw) else Text(raw)
  }

  /** Different actions get different labels, so a label names its action;
      a stored event's action is always one of them. */
  lemma LabelsDistinct(a: AuditAction, b: AuditAction)
    ensures Label(a) == Label(b) ==> a == b
    ensures ActionLabel(ActionName(a)) == Text(Label(a))
  {
    EnumerationsRoundTrip(User, Open, Low, a);
  }
}

=== FILE: auth_controller.dfy ===
/** The authentication endpoints: `login`, `refreshToken`, `logout` and the
    login input rules. Each handler is a function from what the request
    carries, the collections it touches and the oracles it consults (the
    password comparison, the token verifier or decoder) to the reply and the
    collections afterwards. */
module AuthController {
  import opened Common
  import opened Types
  import opened Jwt
  import UserModel
  import AuditLogModel
  import Lists
  import opened AuthMiddleware

  const InvalidCredentials: string := "Invalid credentials"
  const ValidationFailed: string := "Validation failed"
  const InternalError: string := "Internal server error"
  const RefreshTokenRequired: string := "Refresh token is required"
  const InvalidRefreshToken: string := "Invalid refresh token"

  /** A login body after the validator chain: the email as `normalizeEmail`
      left it, and the `isEmail` verdict on the original text. */
  datatype LoginInput = LoginInput(email: string, emailIsValid: bool, password: string, customerId: string)

  /** `loginValidation`: a valid email, a password of at least 8 characters
      and a non-empty customer id. */
  predicate LoginValidation(input: LoginInput) {
    input.emailIsValid && |input.password| >= UserModel.PasswordMinLength && input.customerId != ""
  }

  /** The answer of `comparePassword`: bcrypt's verdict, or the Error it throws. */
  datatype PasswordCheck = Match | Mismatch | CompareFailed

  /** The user object of the login reply: the stored user without its password. */
  datatype PublicUser = PublicUser(
    id: string, customerId: string, email: string, role: Role, profile: UserModel.Profile,
    isActive: bool, lastLogin: Option<int>, createdAt: int, updatedAt: int)

  function Public(u: UserModel.UserRecord): PublicUser {
    PublicUser(u.id, u.customerId, u.email, u.role, u.profile, u.isActive, u.lastLogin, u.createdAt, u.updatedAt)
  }

  /** The claims a token is issued with: the stored user's tenant, role, id and email. */
  function ClaimsOf(u: UserModel.UserRecord): (c: IdentityClaims)
    ensures c.customerId == u.customerId && c.role == u.role && c.userId == u.id && c.email == u.email
  {
    IdentityClaims(u.customerId, u.role, u.id, u.email)
  }

  datatype LoginData = LoginData(accessToken: Token, refreshToken: Token, user: PublicUser)

  /** A handler's reply together with the user and audit collections afterwards. */
  datatype Effect<+T> = Effect(reply: Reply<T>, users: seq<UserModel.UserRecord>, log: seq<AuditLogModel.AuditEvent>)

  /** The LOGIN event for a user. */
  function LoginEvent(u: UserModel.UserRecord, client: ClientInfo): AuditLogModel.EventInput {
    AuditLogModel.EventInput(u.customerId, u.id, Types.Login, "User", Some(u.id), client.IpAddress(), client.Agent(), None)
  }

  /** `login`. Validation first; then a missing, inactive or wrong-password
      account all answer the same 401; a success records the login time,
      issues the pair from the stored user and awaits the LOGIN event, whose
      refusal turns the reply into a 500 after the login time was saved. */
  function Login(cfg: JwtConfig, input: LoginInput, check: PasswordCheck, client: ClientInfo,
                 users: seq<UserModel.UserRecord>, log: seq<AuditLogModel.AuditEvent>, nowMs: int): (r: Effect<LoginData>)
    ensures !LoginValidation(input) ==> r == Effect(Error(400, ValidationFailed), users, log)
    ensures r.reply.Error? && r.reply.status != 500 ==> r.users == users && r.log == log
    ensures r.reply.Success? ==> r.reply.status == 200
    ensures r.reply.Success? ==>
      var u := UserModel.FindByEmailAndTenant(users, input.email, input.customerId);
      && LoginValidation(input) && check == Match && u.Some? && u.value.isActive
      && r.reply.data.accessToken.claims == ClaimsOf(u.value)
      && r.reply.data.refreshToken.claims == ClaimsOf(u.value)
      && r.reply.data.user.lastLogin == Some(nowMs)
      && |r.users| == |users|
      && (forall i :: 0 <= i < |users| ==>
            r.users[i] == (if users[i].id == u.value.id then u.value.(lastLogin := Some(nowMs)) else users[i]))
      && |r.log| == |log| + 1 && r.log[|log|].action == Types.Login && r.log[|log|].userId == u.value.id
    ensures
      var u := UserModel.FindByEmailAndTenant(users, input.email, input.customerId);
      LoginValidation(input) && u.Some? && u.value.isActive && check == Match
      && AuditLogModel.SchemaAccepts(AuditLogModel.LogEvent(LoginEvent(u.value.(lastLogin := Some(nowMs)), client), nowMs))
      ==> r.reply.Success?
    ensures r.reply.Error? && r.reply.status == 500 ==>
      var u := UserModel.FindByEmailAndTenant(users, input.email, input.customerId);
      && LoginValidation(input) && u.Some? && u.value.isActive
      && (check == CompareFailed
          || (check == Match
              && !AuditLogModel.SchemaAccepts(AuditLogModel.LogEvent(LoginEvent(u.value.(lastLogin := Some(nowMs)), client), nowMs))))
  {
    if !LoginValidation(input) then Effect(Error(400, ValidationFailed), users, log)
    else match UserModel.FindByEmailAndTenant(users, input.email, input.customerId)
      case None => Effect(Error(401, InvalidCredentials), users, log)
      case Some(u) =>
        if !u.isActive then Effect(Error(401, InvalidCredentials), users, log)
        else match check
          case CompareFailed => Effect(Error(500, InternalError), users, log)
          case Mismatch => Effect(Error(401, InvalidCredentials), users, log)
          case Match =>
            var u' := u.(lastLogin := Some(nowMs));
            var users' := Lists.ReplaceById(users, (x: UserModel.UserRecord) => x.id, u.id, u');
            var pair := GenerateTokenPair(cfg, ClaimsOf(u'), nowMs);
            match AuditLogModel.Append(log, AuditLogModel.LogEvent(LoginEvent(u', client), nowMs))
            case Err(_) => Effect(Error(500, InternalError), users', log)
            case Ok(log') => Effect(Success(200, LoginData(pair.accessToken, pair.refreshToken, Public(u'))), users', log')
  }

  /** A client cannot tell an unknown account, a deactivated one and a wrong
      password apart: all three give the same reply and change nothing. */
  lemma LoginFailuresIndistinguishable(cfg: JwtConfig, input: LoginInput, check: PasswordCheck, client: ClientInfo,
                                       users: seq<UserModel.UserRecord>, log: seq<AuditLogModel.AuditEvent>, nowMs: int)
    requires LoginValidation(input)
    requires var u := UserModel.FindByEmailAndTenant(users, input.email, input.customerId);
      u.None? || !u.value.isActive || check == Mismatch
    ensures Login(cfg, input, check, client, users, log, nowMs) == Effect(Error(401, InvalidCredentials), users, log)
  {
  }

  /** A successful login of a stored user:
      the reply's user is that record, with only `lastLogin` changed; the
      stored record is saved with that login time, and no other user is
      touched. */
  lemma LoginTouchesOnlyItsUser(cfg: JwtConfig, input: LoginInput, client: ClientInfo,
                                users: seq<UserModel.UserRecord>, log: seq<AuditLogModel.AuditEvent>, nowMs: int)
    requires Login(cfg, input, Match, client, users, log, nowMs).reply.Success?
    ensures var r := Login(cfg, input, Match, client, users, log, nowMs);
      var u := UserModel.FindByEmailAndTenant(users, input.email, input.customerId).value;
      && r.reply.data.user == Public(u.(lastLogin := Some(nowMs)))
      && |r.users| == |users|
      && (forall i :: 0 <= i < |users| && users[i].id == u.id ==> r.users[i] == u.(lastLogin := Some(nowMs)))
      && (forall i :: 0 <= i < |users| && users[i].id != u.id ==> r.users[i] == users[i])
  {
  }

  // ---------------------------------------------------------------- refresh

  datatype RefreshData = RefreshData(accessToken: Token, expiresIn: int)

  /** `refreshToken`. A missing token is a 400; every verifier failure and
      every Error thrown later is a 401 with its message; only a non-Error
      throw is a 500. On success the new access token is built from the
      stored user as it is now, not from the old token's claims. */
  function Refresh(cfg: JwtConfig, token: Option<string>, verification: VerifyOutcome, identity: IdentityStore, nowMs: int)
    : (r: Reply<RefreshData>)
    ensures !Present(token) ==> r == Error(400, RefreshTokenRequired)
    ensures Present(token) && !verification.Verified? ==> r == Error(401, VerifyToken(RefreshKind, verification).error)
    ensures Present(token) && verification.Verified? && !ValidatePayload(verification.payload) ==>
      r == Error(401, InvalidRefreshToken)
    ensures r.Error? && r.status == 500 ==> identity == StoreDown(None)
    ensures r.Success? ==>
      && r.status == 200 && verification.Verified? && identity.Store?
      && var u := UserModel.FindById(identity.users, AsClaims(verification.payload).value.userId);
      && u.Some? && u.value.isActive
      && r.data.accessToken.claims == ClaimsOf(u.value)
      && r.data.accessToken.secret == cfg.secret
  {
    if !Present(token) then Error(400, RefreshTokenRequired)
    else match VerifyToken(RefreshKind, verification)
      case Err(m) => Error(401, m)
      case Ok(payload) =>
        match AsClaims(payload)
        case None => Error(401, InvalidRefreshToken)
        case Some(claims) =>
          match identity
          case StoreDown(thrown) => if thrown.Some? then Error(401, thrown.value) else Error(500, InternalError)
          case Store(users) =>
            if !IsObjectId(claims.userId) then Error(401, CastMessage(claims.userId, "User"))
            else match UserModel.FindById(users, claims.userId)
              case None => Error(401, AccountUnusable)
              case Some(u) =>
                if !u.isActive || u.deletedAt.Some? then Error(401, AccountUnusable)
                else
                  var pair := GenerateTokenPair(cfg, ClaimsOf(u), nowMs);
                  Success(200, RefreshData(pair.accessToken, pair.expiresIn))
  }

  /** Refresh and authenticate accept the same accounts: once a token
      verifies and is well-formed, refresh succeeds exactly when a request
      carrying such a token would pass `authenticate`. A user whose role was
      changed since the token was issued gets a token with the new role. */
  lemma RefreshFollowsAccount(cfg: JwtConfig, token: string, claims: Claims, users: seq<UserModel.UserRecord>,
                              header: string, nowMs: int)
    requires token != "" && BearerToken(Some(header)).Some?
    ensures var r := Refresh(cfg, Some(token), Verified(ToRaw(claims)), Store(users), nowMs);
      r.Success? <==> Authenticate(AuthRequest(Some(header), Verified(ToRaw(claims)), Store(users))).Pass?
    ensures var r := Refresh(cfg, Some(token), Verified(ToRaw(claims)), Store(users), nowMs);
      r.Success? ==> r.data.accessToken.claims.role == UserModel.FindById(users, claims.userId).value.role
  {
    ClaimsRoundTrip(claims);
  }

  // ----------------------------------------------------------------- logout

  /** The LOGOUT event built from an unverified decode; the schema refuses it
      when the tenant or the user id is not a string. */
  function LogoutEvent(p: RawPayload, client: ClientInfo): (r: Option<AuditLogModel.EventInput>)
    ensures r.Some? <==> p.customerId.JString? && p.userId.JString?
    ensures r.Some? ==> r.value.action == Types.Logout && r.value.userId == p.userId.s && r.value.resourceId == Some(p.userId.s)
  {
    if p.customerId.JString? && p.userId.JString? then
      Some(AuditLogModel.EventInput(p.customerId.s, p.userId.s, Types.Logout, "User", Some(p.userId.s),
                                    client.IpAddress(), client.Agent(), None))
    else None
  }

  /** `logout`: answers 200 and, when a Bearer token is present and decodes,
      awaits a LOGOUT event first; a refused event turns the reply into a
      500. The decode is unverified and the audit schema takes only an
      ObjectId as actor, so a token whose user id is not one makes logout
      fail. No user is read or written. */
  function Logout(authorization: Option<string>, decoded: Option<RawPayload>, client: ClientInfo,
                  users: seq<UserModel.UserRecord>, log: seq<AuditLogModel.AuditEvent>, nowMs: int): (r: Effect<()>)
    ensures r.users == users
    ensures r.reply == Success(200, ()) || r.reply == Error(500, InternalError)
    ensures BearerToken(authorization).None? || decoded.None? ==> r.reply == Success(200, ()) && r.log == log
    ensures r.log == log || (|r.log| == |log| + 1 && r.log[|log|].action == Types.Logout && r.reply.Success?)
    ensures (BearerToken(authorization).Some? && decoded.Some? && decoded.value.userId.JString?
             && !IsObjectId(decoded.value.userId.s)) ==> r == Effect(Error(500, InternalError), users, log)
  {
    if BearerToken(authorization).None? || decoded.None? then Effect(Success(200, ()), users, log)
    else match LogoutEvent(decoded.value, client)
      case None => Effect(Error(500, InternalError), users, log)
      case Some(input) =>
        match AuditLogModel.AppendAsWritten(log, AuditLogModel.LogEvent(input, nowMs))
        case Err(_) => Effect(Error(500, InternalError), users, log)
        case Ok(log') => Effect(Success(200, ()), users, log')
  }

  lemma UserTypeLength()
    ensures Trim("User") == "User"
  {
    TrimKeeps("User");
  }

  /** A LOGOUT event keeps its user id as actor and resource, and fits the
      audit schema's bounds when the id and the client's address and agent do. */
  lemma LogoutEventFits(customerId: string, userId: string, ip: string, agent: string, nowMs: int)
    requires Trim(userId) == userId && |userId| <= AuditLogModel.ResourceIdMaxLength && customerId != ""
    requires Trim(ip) != "" && 1 <= |Trim(agent)| <= AuditLogModel.UserAgentMaxLength
    ensures var e := AuditLogModel.LogEvent(
              AuditLogModel.EventInput(customerId, userId, Types.Logout, "User", Some(userId), ip, agent, None), nowMs);
      && e == AuditLogModel.AuditEvent(customerId, userId, Types.Logout, "User", Some(userId), Trim(ip), Trim(agent), nowMs)
      && AuditLogModel.BoundsHold(e)
  {
    UserTypeLength();
    AuditLogModel.LogEventWithinBounds(
      AuditLogModel.EventInput(customerId, userId, Types.Logout, "User", Some(userId), ip, agent, None), nowMs);
  }

  /** The LOGOUT event of a well-formed claim set names its user and tenant. */
  lemma LogoutEventOfClaims(c: Claims, client: ClientInfo)
    ensures LogoutEvent(ToRaw(c), client)
         == Some(AuditLogModel.EventInput(c.customerId, c.userId, Types.Logout, "User", Some(c.userId),
                                          client.IpAddress(), client.Agent(), None))
  {
  }

  /** A Bearer header with a non-empty token carries that token. */
  lemma BearerOfPrefixed(token: string)
    requires token != ""
    ensures BearerToken(Some(BearerPrefix + token)) == Some(token)
  {
    ExtractBearerRoundTrip(token);
  }

  /** Once the token is present and its LOGOUT event is accepted, logout
      appends exactly that event and answers 200. */
  lemma LogoutAppendsEvent(authorization: Option<string>, raw: RawPayload, client: ClientInfo, input: AuditLogModel.EventInput,
                           users: seq<UserModel.UserRecord>, log: seq<AuditLogModel.AuditEvent>, nowMs: int)
    requires BearerToken(authorization).Some? && LogoutEvent(raw, client) == Some(input)
    requires AuditLogModel.AppendAsWritten(log, AuditLogModel.LogEvent(input, nowMs))
          == Ok(log + [AuditLogModel.LogEvent(input, nowMs)])
    ensures Logout(authorization, Some(raw), client, users, log, nowMs)
         == Effect(Success(200, ()), users, log + [AuditLogModel.LogEvent(input, nowMs)])
  {
  }

  /** Logging out with a token issued for some claims records them: the
      decoded claims give a LOGOUT event whose actor and resource are the
      claimed user id and whose tenant is the claimed one, appended to the
      log, with the reply 200 and the users untouched. */
  lemma LogoutRecordsTokenUser(c: Claims, token: string, client: ClientInfo,
                               users: seq<UserModel.UserRecord>, log: seq<AuditLogModel.AuditEvent>, nowMs: int)
    requires token != "" && IsObjectId(c.userId) && c.customerId != ""
    requires Trim(client.IpAddress()) != "" && 1 <= |Trim(client.Agent())| <= AuditLogModel.UserAgentMaxLength
    ensures Logout(Some(BearerPrefix + token), Some(ToRaw(c)), client, users, log, nowMs)
         == Effect(Success(200, ()), users,
                   log + [AuditLogModel.AuditEvent(c.customerId, c.userId, Types.Logout, "User", Some(c.userId),
                                                   Trim(client.IpAddress()), Trim(client.Agent()), nowMs)])
  {
    var input := AuditLogModel.EventInput(c.customerId, c.userId, Types.Logout, "User", Some(c.userId),
                                          client.IpAddress(), client.Agent(), None);
    BearerOfPrefixed(token);
    LogoutEventOfClaims(c, client);
    ObjectIdTrimmed(c.userId);
    LogoutEventFits(c.customerId, c.userId, client.IpAddress(), client.Agent(), nowMs);
    AuditLogModel.AppendAsWrittenAccepts(log, AuditLogModel.LogEvent(input, nowMs));
    LogoutAppendsEvent(Some(BearerPrefix + token), ToRaw(c), client, input, users, log, nowMs);
  }
}

=== FILE: auth_middleware.dfy ===
/** The request guards: `authenticate`, `authorize`, `requireAdmin`,
    `requireSuperAdmin`, `tenantIsolation`, the `auditLog` recording rule and
    `optionalAuth`. Each guard is a pure function from what the request
    carries (header, the verifier's answer, the identity store) to either a
    rejection (status and message) or a pass with what it attaches. */
module AuthMiddleware {
  import opened Common
  import opened Types
  import opened Jwt
  import UserModel
  import AuditLogModel

  /** What the identity lookup sees: the user collection, or a lookup that
      threw (an Error with its message, or a non-Error value). */
  datatype IdentityStore = Store(users: seq<UserModel.UserRecord>) | StoreDown(thrown: Option<string>)

  /** The parts of a request `authenticate` reads, plus the verifier's answer
      on the token the header carries. */
  datatype AuthRequest = AuthRequest(authorization: Option<string>, verification: VerifyOutcome, identity: IdentityStore)

  /** Reject: the 401 reply sent and `next` never called. Pass: `next`
      called once, with `req.user` and `req.customerId` attached. */
  datatype AuthOutcome = Reject(status: int, message: string) | Pass(principal: Claims, customerId: string)

  const HeaderMissing: string := "Authorization header missing"
  const BadHeaderFormat: string := "Invalid authorization header format"
  const BadPayload: string := "Invalid token payload"
  const AccountUnusable: string := "User account is inactive or deleted"
  const AuthenticationFailed: string := "Authentication failed"
  const AuthenticationRequired: string := "Authentication required"

  /** The message of the CastError thrown when a lookup by `_id` receives a
      value that is not an ObjectId. */
  function CastMessage(value: string, model: string): string {
    "Cast to ObjectId failed for value \"" + value + "\" (type string) at path \"_id\" for model \"" + model + "\""
  }

  /** The token text of a header, when the header is truthy and holds a
      non-empty Bearer token. */
  function BearerToken(authorization: Option<string>): (r: Option<string>)
    ensures r.Some? <==> Present(authorization) && ExtractTokenFromHeader(authorization.value).Some?
                         && ExtractTokenFromHeader(authorization.value).value != ""
    ensures r.Some? ==> authorization.value == BearerPrefix + r.value && r.value != ""
  {
    if !Present(authorization) then None
    else match ExtractTokenFromHeader(authorization.value)
      case Some(t) => if t != "" then Some(t) else None
      case None => None
  }

  /** The user record `findById` returns for a claim's userId, if it is usable:
      found (hence not deleted) and active. */
  predicate UsableUser(users: seq<UserModel.UserRecord>, userId: string) {
    var u := UserModel.FindById(users, userId);
    u.Some? && u.value.isActive && u.value.deletedAt.None?
  }

  /** `authenticate`. The checks run in order and the first failure answers;
      every failure, thrown or not, is a 401. */
  function Authenticate(req: AuthRequest): (r: AuthOutcome)
    ensures r.Reject? ==> r.status == 401
    ensures !Present(req.authorization) ==> r == Reject(401, HeaderMissing)
    ensures Present(req.authorization) && BearerToken(req.authorization).None? ==> r == Reject(401, BadHeaderFormat)
    ensures BearerToken(req.authorization).Some? && !req.verification.Verified? ==>
      r == Reject(401, VerifyToken(AccessKind, req.verification).error)
    ensures BearerToken(req.authorization).Some? && req.verification.Verified? && !ValidatePayload(req.verification.payload) ==>
      r == Reject(401, BadPayload)
    ensures r.Pass? <==> && BearerToken(req.authorization).Some?
                         && req.verification.Verified?
                         && AsClaims(req.verification.payload).Some?
                         && req.identity.Store?
                         && IsObjectId(AsClaims(req.verification.payload).value.userId)
                         && UsableUser(req.identity.users, AsClaims(req.verification.payload).value.userId)
    ensures r.Pass? ==> ToRaw(r.principal) == req.verification.payload && r.customerId == r.principal.customerId
  {
    if !Present(req.authorization) then Reject(401, HeaderMissing)
    else if BearerToken(req.authorization).None? then Reject(401, BadHeaderFormat)
    else match VerifyToken(AccessKind, req.verification)
      case Err(m) => Reject(401, m)
      case Ok(payload) =>
        match AsClaims(payload)
        case None => Reject(401, BadPayload)
        case Some(claims) =>
          match req.identity
          case StoreDown(thrown) => Reject(401, thrown.GetOr(AuthenticationFailed))
          case Store(users) =>
            if !IsObjectId(claims.userId) then Reject(401, CastMessage(claims.userId, "User"))
            else if UsableUser(users, claims.userId) then Pass(claims, claims.customerId)
            else Reject(401, AccountUnusable)
  }

  /** With unique user ids, a well-formed request passes exactly when its
      user exists, is active and is not deleted; a deleted or deactivated
      account is refused with the same message as a missing one. */
  lemma AuthenticateChecksAccount(req: AuthRequest, users: seq<UserModel.UserRecord>, claims: Claims)
    requires req.identity == Store(users) && UserModel.IndexesHold(users)
    requires BearerToken(req.authorization).Some? && req.verification == Verified(ToRaw(claims))
    requires IsObjectId(claims.userId)
    ensures Authenticate(req).Pass? <==>
      exists u :: u in users && u.id == claims.userId && u.isActive && u.deletedAt.None?
    ensures Authenticate(req).Pass? ==> Authenticate(req) == Pass(claims, claims.customerId)
    ensures Authenticate(req).Reject? ==> Authenticate(req) == Reject(401, AccountUnusable)
  {
    ClaimsRoundTrip(claims);
    var f := UserModel.FindById(users, claims.userId);
    if f.Some? {
      forall u | u in users && u.id == claims.userId && u.deletedAt.None?
        ensures u == f.value
      {
        var i :| 0 <= i < |users| && users[i] == u;
        var j :| 0 <= j < |users| && users[j] == f.value;
        if i != j {
          if i < j { assert users[i].id != users[j].id; } else { assert users[j].id != users[i].id; }
        }
      }
    }
  }

  // ------------------------------------------------------------ role guards

  /** A role guard either calls `next` or answers with a status and message. */
  datatype GuardOutcome = Next | Deny(status: int, message: string)

  /** `authorize(requiredRoles)` */
  function Authorize(user: Option<Claims>, required: RoleRequirement): (r: GuardOutcome)
    ensures user.None? ==> r == Deny(401, AuthenticationRequired)
    ensures user.Some? ==> (r.Next? <==> user.value.role in required.Roles())
    ensures user.Some? && r.Deny? ==> r == Deny(403, "Insufficient permissions")
  {
    if user.None? then Deny(401, AuthenticationRequired)
    else if !HasRole(user.value.role, required) then Deny(403, "Insufficient permissions")
    else Next
  }

  /** `requireAdmin` */
  function RequireAdmin(user: Option<Claims>): (r: GuardOutcome)
    ensures r.Next? <==> user.Some? && user.value.role in {Admin, SuperAdmin}
    ensures user.None? ==> r == Deny(401, AuthenticationRequired)
    ensures user.Some? && r.Deny? ==> r == Deny(403, "Admin access required")
  {
    if user.None? then Deny(401, AuthenticationRequired)
    else if !IsAdmin(user.value.role) then Deny(403, "Admin access required")
    else Next
  }

  /** `requireSuperAdmin` */
  function RequireSuperAdmin(user: Option<Claims>): (r: GuardOutcome)
    ensures r.Next? <==> user.Some? && user.value.role == SuperAdmin
    ensures user.None? ==> r == Deny(401, AuthenticationRequired)
    ensures user.Some? && r.Deny? ==> r == Deny(403, "Super admin access required")
  {
    if user.None? then Deny(401, AuthenticationRequired)
    else if !IsSuperAdmin(user.value.role) then Deny(403, "Super admin access required")
    else Next
  }

  /** The three guards agree on who passes: `requireAdmin` is
      `authorize([Admin, SuperAdmin])`, `requireSuperAdmin` is
      `authorize(SuperAdmin)`, and a super admin passes every admin guard;
      they differ only in the 403 message. */
  lemma GuardsAgree(user: Option<Claims>)
    ensures RequireAdmin(user).Next? <==> Authorize(user, AnyOf([Admin, SuperAdmin])).Next?
    ensures RequireSuperAdmin(user).Next? <==> Authorize(user, Single(SuperAdmin)).Next?
    ensures RequireSuperAdmin(user).Next? ==> RequireAdmin(user).Next?
    ensures RequireAdmin(user).Deny? ==> RequireAdmin(user).status == Authorize(user, AnyOf([Admin, SuperAdmin])).status
  {
  }

  // -------------------------------------------------------- tenant isolation

  datatype TenantOutcome = Proceed(customerId: string) | Denied(status: int, message: string)

  /** `tenantIsolation`: a super admin may name another tenant with a truthy
      `x-tenant-id`; everyone else must stay within their own tenant. */
  function TenantIsolation(ctx: RequestContext, tenantHeader: Option<string>): (r: TenantOutcome)
    ensures ctx.user.None? || !Present(ctx.customerId) ==> r == Denied(401, AuthenticationRequired)
    ensures ctx.user.Some? && Present(ctx.customerId) && ctx.user.value.role == SuperAdmin && Present(tenantHeader) ==>
      r == Proceed(tenantHeader.value)
    ensures r.Proceed? && !(ctx.user.value.role == SuperAdmin && Present(tenantHeader)) ==>
      r.customerId == ctx.user.value.customerId == ctx.customerId.value
    ensures r.Denied? && ctx.user.Some? && Present(ctx.customerId) ==> r == Denied(403, "Cross-tenant access not allowed")
  {
    if ctx.user.None? || !Present(ctx.customerId) then Denied(401, AuthenticationRequired)
    else if IsSuperAdmin(ctx.user.value.role) && Present(tenantHeader) then Proceed(tenantHeader.value)
    else if ctx.user.value.customerId != ctx.customerId.value then Denied(403, "Cross-tenant access not allowed")
    else Proceed(ctx.customerId.value)
  }

  /** The context `authenticate` attaches on a pass. */
  function Attach(ctx: RequestContext, r: AuthOutcome): (c: RequestContext)
    ensures r.Pass? ==> c.user == Some(r.principal) && c.customerId == Some(r.customerId)
    ensures r.Reject? ==> c == ctx
  {
    if r.Pass? then RequestContext(Some(r.principal), Some(r.customerId)) else ctx
  }

  /** After a successful `authenticate`, tenant isolation never refuses, and
      the only way to reach a tenant other than one's own is to be a super
      admin naming it in `x-tenant-id`. */
  lemma AuthenticatedStaysInTenant(req: AuthRequest, ctx: RequestContext, tenantHeader: Option<string>)
    requires Authenticate(req).Pass? && Authenticate(req).customerId != ""
    ensures var a := Authenticate(req);
      && TenantIsolation(Attach(ctx, a), tenantHeader).Proceed?
      && (TenantIsolation(Attach(ctx, a), tenantHeader).customerId != a.principal.customerId ==>
            a.principal.role == SuperAdmin && Present(tenantHeader))
  {
  }

  // ------------------------------------------------------------- audit log

  /** JavaScript's `a || b` on optional strings. */
  function Or(a: Option<string>, b: Option<string>): (r: Option<string>)
    ensures Present(a) ==> r == a
    ensures !Present(a) ==> r == b
  {
    if Present(a) then a else b
  }

  /** Where a request came from, as every audit write reads it. */
  datatype ClientInfo = ClientInfo(ip: Option<string>, remoteAddress: Option<string>, userAgent: Option<string>) {
    /** `req.ip || req.connection.remoteAddress || 'Unknown'` */
    function IpAddress(): (r: string)
      ensures r != ""
    {
      Or(Or(ip, remoteAddress), Some("Unknown")).value
    }

    /** `req.get('User-Agent') || 'Unknown'` */
    function Agent(): (r: string)
      ensures r != ""
    {
      Or(userAgent, Some("Unknown")).value
    }
  }

  /** What the `auditLog` wrapper around `res.send` reads from the request. */
  datatype AuditContext = AuditContext(
    user: Option<Claims>, paramsId: Option<string>, bodyId: Option<string>, client: ClientInfo)

  /** The event `auditLog` hands to `logEvent` when the response is sent, or
      nothing: an event exists exactly when a principal is attached and the
      status is below 400. */
  function AuditDecision(c: AuditContext, action: AuditAction, resourceType: string, statusCode: int): (r: Option<AuditLogModel.EventInput>)
    ensures r.Some? <==> c.user.Some? && statusCode < 400
    ensures r.Some? ==> r.value.customerId == c.user.value.customerId && r.value.userId == c.user.value.userId
    ensures r.Some? ==> r.value.action == action && r.value.resourceType == resourceType
    ensures r.Some? ==> r.value.resourceId == Or(c.paramsId, c.bodyId)
    ensures r.Some? ==> r.value.ipAddress != "" && r.value.userAgent != ""
  {
    if c.user.Some? && statusCode < 400 then
      Some(AuditLogModel.EventInput(
        c.user.value.customerId, c.user.value.userId, action, resourceType, Or(c.paramsId, c.bodyId),
        c.client.IpAddress(), c.client.Agent(), None))
    else None
  }

  /** What one `res.send` produces: the status actually sent and the audit
      collection afterwards. */
  datatype SendEffect = SendEffect(sentStatus: int, log: seq<AuditLogModel.AuditEvent>)

  /** The wrapped `res.send`: the response goes out unchanged; the audit write
      is fire-and-forget, so a refused write only leaves the log as it was. */
  function AuditedSend(c: AuditContext, action: AuditAction, resourceType: string, statusCode: int,
                       log: seq<AuditLogModel.AuditEvent>, nowMs: int): (r: SendEffect)
    ensures r.sentStatus == statusCode
    ensures r.log == log || (exists e :: r.log == log + [e] && e.timestamp == nowMs)
    ensures c.user.None? || statusCode >= 400 ==> r.log == log
  {
    var log' := match AuditDecision(c, action, resourceType, statusCode)
      case None => log
      case Some(input) =>
        var e := AuditLogModel.LogEvent(input, nowMs);
        match AuditLogModel.Append(log, e)
        case Ok(l) => l
        case Err(_) => log;
    SendEffect(statusCode, log')
  }

  /** What an authenticated, successful request needs for its event to pass
      the audit schema: a tenant, an ObjectId actor and texts within bounds. */
  predicate Recordable(c: AuditContext, resourceType: string) {
    && c.user.Some? && c.user.value.customerId != "" && IsObjectId(c.user.value.userId)
    && 1 <= |Trim(resourceType)| <= AuditLogModel.ResourceTypeMaxLength
    && (Or(c.paramsId, c.bodyId).Some? ==> |Trim(Or(c.paramsId, c.bodyId).value)| <= AuditLogModel.ResourceIdMaxLength)
    && 1 <= |Trim(c.client.Agent())| <= AuditLogModel.UserAgentMaxLength && Trim(c.client.IpAddress()) != ""
  }

  lemma RecordableAccepted(c: AuditContext, action: AuditAction, resourceType: string, statusCode: int, nowMs: int)
    requires Recordable(c, resourceType) && statusCode < 400
    ensures AuditLogModel.SchemaAccepts(AuditLogModel.LogEvent(AuditDecision(c, action, resourceType, statusCode).value, nowMs))
  {
    AuditLogModel.LogEventWithinBounds(AuditDecision(c, action, resourceType, statusCode).value, nowMs);
  }

  /** For an authenticated user with a proper id and a successful response,
      the event lands in the log with the principal's tenant and id. */
  lemma AuditedSendRecordsSuccess(c: AuditContext, action: AuditAction, resourceType: string, statusCode: int,
                                  log: seq<AuditLogModel.AuditEvent>, nowMs: int)
    requires Recordable(c, resourceType) && statusCode < 400
    ensures var e := AuditLogModel.LogEvent(AuditDecision(c, action, resourceType, statusCode).value, nowMs);
      && AuditedSend(c, action, resourceType, statusCode, log, nowMs).log == log + [e]
      && e.customerId == c.user.value.customerId && e.userId == c.user.value.userId
      && e.action == action && e.timestamp == nowMs
  {
    RecordableAccepted(c, action, resourceType, statusCode, nowMs);
  }

  // ---------------------------------------------------------- optional auth

  /** `optionalAuth`: never answers, always calls `next`; it attaches the
      principal only when every check passes and swallows every throw. */
  function OptionalAuth(req: AuthRequest, ctx: RequestContext): (c: RequestContext)
    ensures c == ctx || (c.user.Some? && c.customerId == Some(c.user.value.customerId))
  {
    if !Present(req.authorization) then ctx
    else match ExtractTokenFromHeader(req.authorization.value)
      case None => ctx
      case Some(token) =>
        if token == "" then ctx
        else match req.verification
          case Verified(payload) =>
            if !ValidatePayload(payload) then ctx
            else
              var claims := AsClaims(payload).value;
              (match req.identity
               case StoreDown(_) => ctx
               case Store(users) =>
                 if !IsObjectId(claims.userId) then ctx
                 else
                   var u := UserModel.FindById(users, claims.userId);
                   if u.Some? && u.value.isActive && u.value.deletedAt.None? then
                     RequestContext(Some(claims), Some(claims.customerId))
                   else ctx)
          case _ => ctx
  }

  /** `optionalAuth` attaches exactly what `authenticate` would attach, and
      leaves the context untouched whenever `authenticate` would reject. */
  lemma OptionalAuthAgrees(req: AuthRequest, ctx: RequestContext)
    ensures OptionalAuth(req, ctx) == Attach(ctx, Authenticate(req))
  {
  }
}

=== FILE: auth_store.dfy ===
/** The shell's `useAuthStore`: the signed-in user, the two tokens, the
    authenticated flag, the loading flag and the error; persisted under
    "auth-storage" with only the session part kept. The API client is a
    parameter: each call is given as the way it settled. */
module AuthStore {
  import opened Common
  import AuthController

  type User = AuthController.PublicUser

  datatype State = State(user: Option<User>, accessToken: Option<string>, refreshToken: Option<string>,
                         isAuthenticated: bool, isLoading: bool, error: Option<string>)

  const Initial: State := State(None, None, None, false, false, None)

  /** The session the login endpoint hands back. */
  datatype Session = Session(accessToken: string, refreshToken: string, user: User)

  /** How an API call settled: the response body's `success`, `data` and
      `error`, or a thrown `Error` with its message (axios throws for every
      non-2xx status, "Request failed with status code 401" and the like). */
  datatype Response<T> = Responded(success: bool, data: Option<T>, error: Option<string>) | Threw(message: string)

  const LoginFailed: string := "Login failed"
  const RefreshFailed: string := "Failed to refresh user data"

  /** `clearAuth()`: the signed-out state. */
  function ClearAuth(s: State): (r: State)
    ensures r == Initial
  {
    State(None, None, None, false, false, None)
  }

  /** The result of `login`: the state, and the message of the error it rethrows. */
  datatype LoginOutcome = LoginOutcome(state: State, rethrown: Option<string>)

  /** `login(data)`. On a successful body the session is stored; otherwise
      the error becomes the message (the body's `error`, or "Login failed"
      when it has none), the flag drops, and the same error is rethrown.
      A failed login keeps the user and the tokens it found. */
  function Login(s: State, response: Response<Session>): (r: LoginOutcome)
    ensures r.state.isLoading == false
    ensures r.rethrown.None? <==> response.Responded? && response.success && response.data.Some?
    ensures r.rethrown.None? ==>
      && r.state.user == Some(response.data.value.user)
      && r.state.accessToken == Some(response.data.value.accessToken)
      && r.state.refreshToken == Some(response.data.value.refreshToken)
      && r.state.isAuthenticated && r.state.error.None?
    ensures r.rethrown.Some? ==>
      && r.state.error == r.rethrown && !r.state.isAuthenticated
      && r.state.user == s.user && r.state.accessToken == s.accessToken && r.state.refreshToken == s.refreshToken
    ensures response.Responded? && !(response.success && response.data.Some?) ==>
      r.rethrown == Some(if Present(response.error) then response.error.value else LoginFailed)
    ensures response.Threw? ==> r.rethrown == Some(response.message)
  {
    var pending := s.(isLoading := true, error := None);
    match response
    case Responded(success, data, error) =>
      if success && data.Some? then
        LoginOutcome(State(Some(data.value.user), Some(data.value.accessToken), Some(data.value.refreshToken),
                           true, false, None), None)
      else
        var message := if Present(error) then error.value else LoginFailed;
        LoginOutcome(pending.(isLoading := false, error := Some(message), isAuthenticated := false), Some(message))
    case Threw(message) =>
      LoginOutcome(pending.(isLoading := false, error := Some(message), isAuthenticated := false), Some(message))
  }

  /** `logout()`: the server call may fail; the store is cleared either way. */
  function Logout<T>(s: State, response: Response<T>): (r: State)
    ensures r == Initial
    ensures !r.isAuthenticated && r.accessToken.None? && r.refreshToken.None?
  {
    ClearAuth(s)
  }

  /** `refreshUser()`: a good profile replaces the user; any failure only
      drops the loading flag, unless the thrown message mentions "401", in
      which case the session is cleared. */
  function RefreshUser(s: State, response: Response<User>): (r: State)
    ensures response.Responded? && response.success && response.data.Some? ==>
      r == s.(user := response.data, isLoading := false, error := None)
    ensures response.Responded? && !(response.success && response.data.Some?) ==>
      r == s.(isLoading := false)
    ensures response.Threw? ==>
      r == if Contains(response.message, "401") then Initial else s.(isLoading := false)
  {
    match response
    case Responded(success, data, _) =>
      if success && data.Some? then s.(user := data, isLoading := false, error := None)
      else
        NoDigitFourNoStatus(RefreshFailed);
        if Contains(RefreshFailed, "401") then ClearAuth(s) else s.(isLoading := false)
    case Threw(message) =>
      if Contains(message, "401") then ClearAuth(s) else s.(isLoading := false)
  }

  /** A text without the digit 4 cannot mention the status 401. */
  lemma {:induction false} NoDigitFourNoStatus(s: string)
    requires '4' !in s
    ensures !Contains(s, "401")
    decreases |s|
  {
    if s != [] {
      assert s[0] != '4';
      assert '4' !in s[1..] by {
        forall i | 0 <= i < |s[1..]|
          ensures s[1..][i] != '4'
        {
          assert s[1..][i] == s[i + 1];
        }
      }
      NoDigitFourNoStatus(s[1..]);
    }
  }

  /** `setTokens(accessToken, refreshToken)`: signed in, user untouched. */
  function SetTokens(s: State, accessToken: string, refreshToken: string): (r: State)
    ensures r.accessToken == Some(accessToken) && r.refreshToken == Some(refreshToken) && r.isAuthenticated
    ensures r.user == s.user && r.isLoading == s.isLoading && r.error == s.error
  {
    s.(accessToken := Some(accessToken), refreshToken := Some(refreshToken), isAuthenticated := true)
  }

  /** `setUser(user)` */
  function SetUser(s: State, user: User): (r: State)
    ensures r.user == Some(user) && r.(user := s.user) == s
  {
    s.(user := Some(user))
  }

  /** `setLoading(loading)` */
  function SetLoading(s: State, loading: bool): (r: State)
    ensures r.isLoading == loading && r.(isLoading := s.isLoading) == s
  {
    s.(isLoading := loading)
  }

  /** `setError(error)`: the session is untouched, so an error can show while signed in. */
  function SetError(s: State, error: Option<string>): (r: State)
    ensures r.error == error && r.(error := s.error) == s
  {
    s.(error := error)
  }

  /** What `persist` writes to storage: the session part of the state. */
  datatype Persisted = Persisted(accessToken: Option<string>, refreshToken: Option<string>,
                                 user: Option<User>, isAuthenticated: bool)

  /** `partialize` */
  function Partialize(s: State): (p: Persisted)
    ensures p.accessToken == s.accessToken && p.refreshToken == s.refreshToken
    ensures p.user == s.user && p.isAuthenticated == s.isAuthenticated
  {
    Persisted(s.accessToken, s.refreshToken, s.user, s.isAuthenticated)
  }

  /** Rehydration: the stored fields shallow-merged over the current state. */
  function Rehydrate(s: State, p: Persisted): (r: State)
    ensures r.isLoading == s.isLoading && r.error == s.error
    ensures Partialize(r) == p
  {
    s.(accessToken := p.accessToken, refreshToken := p.refreshToken, user := p.user, isAuthenticated := p.isAuthenticated)
  }

  /** A page reload restores every persisted field, and the loading flag
      and the error come back as in a fresh store: reloading an idle store
      gives it back unchanged. */
  lemma ReloadRestoresSession(s: State)
    ensures Partialize(Rehydrate(Initial, Partialize(s))) == Partialize(s)
    ensures !s.isLoading && s.error.None? ==> Rehydrate(Initial, Partialize(s)) == s
    ensures Rehydrate(Initial, Partialize(s)).error.None? && !Rehydrate(Initial, Partialize(s)).isLoading
  {
  }

  /** A profile refresh whose body has no data never signs the user out. */
  lemma EmptyRefreshKeepsSession(s: State, error: Option<string>)
    ensures RefreshUser(s, Responded(true, None, error)).isAuthenticated == s.isAuthenticated
    ensures RefreshUser(s, Responded(false, None, error)).accessToken == s.accessToken
  {
  }

  /** After a login the store is signed in exactly when the login did not
      throw, and a sign-out after it always leaves the initial state. */
  lemma LoginThenLogout<T>(s: State, response: Response<Session>, logoutResponse: Response<T>)
    ensures Login(s, response).state.isAuthenticated <==> Login(s, response).rethrown.None?
    ensures Logout(Login(s, response).state, logoutResponse) == Initial
  {
  }
}

=== FILE: common.dfy ===
/** Shared vocabulary: optional values, results, HTTP-style replies and the
    small string helpers (prefix test, trimming, lower-casing) that the
    backend gets from JavaScript's String methods. */
module Common {

  datatype Option<+T> = None | Some(value: T) {
    function GetOr(default: T): T {
      match this
      case Some(v) => v
      case None => default
    }
  }

  /** A thrown-or-returned value: `Err` carries what a `throw` would carry. */
  datatype Result<+T, +E> = Ok(value: T) | Err(error: E)

  /** A JSON reply of the backend: `{ success: true, data }` with a success
      status, or `{ success: false, error }` with an error status. */
  datatype Reply<+T> = Success(status: int, data: T) | Error(status: int, message: string)

  /** JavaScript truthiness of an optional string (`undefined` and `""` are falsy). */
  predicate Present(s: Option<string>) {
    s.Some? && s.value != ""
  }

  predicate StartsWith(s: string, prefix: string) {
    |prefix| <= |s| && s[..|prefix|] == prefix
  }

  /** `s.includes(part)` */
  predicate Contains(s: string, part: string)
    decreases |s|
  {
    StartsWith(s, part) || (s != [] && Contains(s[1..], part))
  }

  /** The whitespace that `String.prototype.trim` removes (ASCII part). */
  predicate IsSpace(c: char) {
    c == ' ' || c == '\t' || c == '\n' || c == '\r' || c == '\U{000B}' || c == '\U{000C}'
  }

  /** The first position at or after `i` that does not hold a space. */
  function SpacesFrom(s: string, i: nat): (k: nat)
    requires i <= |s|
    ensures i <= k <= |s|
    ensures k == |s| || !IsSpace(s[k])
    ensures forall j :: i <= j < k ==> IsSpace(s[j])
    decreases |s| - i
  {
    if i < |s| && IsSpace(s[i]) then SpacesFrom(s, i + 1) else i
  }

  function TrimStart(s: string): (r: string)
    ensures |r| <= |s| && r == s[|s| - |r|..]
    ensures r == [] || !IsSpace(r[0])
    ensures forall i :: 0 <= i < |s| - |r| ==> IsSpace(s[i])
  {
    s[SpacesFrom(s, 0)..]
  }

  /** The end of the prefix of `s[..n]` that does not end with a space. */
  function SpacesBefore(s: string, n: nat): (k: nat)
    requires n <= |s|
    ensures k <= n
    ensures k == 0 || !IsSpace(s[k - 1])
    ensures forall j :: k <= j < n ==> IsSpace(s[j])
  {
    if n > 0 && IsSpace(s[n - 1]) then SpacesBefore(s, n - 1) else n
  }

  function TrimEnd(s: string): (r: string)
    ensures |r| <= |s| && r == s[..|r|]
    ensures r == [] || !IsSpace(r[|r| - 1])
    ensures forall i :: |r| <= i < |s| ==> IsSpace(s[i])
  {
    s[..SpacesBefore(s, |s|)]
  }

  /** `s.trim()`: the longest infix of `s` that neither starts nor ends with a space. */
  function Trim(s: string): (r: string)
    ensures |r| <= |s|
    ensures r == [] || (!IsSpace(r[0]) && !IsSpace(r[|r| - 1]))
    ensures var k := |s| - |TrimStart(s)|;
      && k + |r| <= |s| && r == s[k..k + |r|]
      && (forall i :: 0 <= i < k ==> IsSpace(s[i]))
      && (forall i :: k + |r| <= i < |s| ==> IsSpace(s[i]))
  {
    var t := TrimStart(s);
    var k := |s| - |t|;
    assert forall i :: k + |TrimEnd(t)| <= i < |s| ==> s[i] == t[i - k];
    TrimEnd(t)
  }

  /** A string that neither starts nor ends with a space is its own trim. */
  lemma TrimKeeps(s: string)
    requires s == [] || (!IsSpace(s[0]) && !IsSpace(s[|s| - 1]))
    ensures Trim(s) == s
  {
    assert TrimStart(s) == s;
    assert TrimEnd(s) == s;
  }

  /** Trimming an already trimmed string changes nothing. */
  lemma TrimIdempotent(s: string)
    ensures Trim(Trim(s)) == Trim(s)
  {
    var r := Trim(s);
    assert TrimStart(r) == r;
    assert TrimEnd(r) == r;
  }

  /** The trimmed text of an optional body field, when it is truthy after
      the validator's `trim()`: what `if (field) ...` sees in a handler. */
  function Trimmed(field: Option<string>): (r: Option<string>)
    ensures r.Some? <==> field.Some? && Trim(field.value) != ""
    ensures r.Some? ==> r.value == Trim(field.value)
  {
    if field.Some? && Trim(field.value) != "" then Some(Trim(field.value)) else None
  }

  function LowerChar(c: char): char {
    if 'A' <= c <= 'Z' then (c as int + 32) as char else c
  }

  /** `s.toLowerCase()` on the ASCII letters. */
  function Lower(s: string): (r: string)
    ensures |r| == |s|
    ensures forall i :: 0 <= i < |s| ==> r[i] == LowerChar(s[i])
  {
    if s == [] then [] else [LowerChar(s[0])] + Lower(s[1..])
  }

  lemma {:induction false} LowerIdempotent(s: string)
    ensures Lower(Lower(s)) == Lower(s)
  {
    var l := Lower(s);
    assert forall i :: 0 <= i < |s| ==> LowerChar(l[i]) == l[i];
  }

  /** The names every plain JavaScript object inherits from `Object.prototype`:
      reading one of them on an object literal yields that (truthy) member. */
  const InheritedNames: set<string> := {
    "constructor", "__proto__", "hasOwnProperty", "isPrototypeOf", "propertyIsEnumerable",
    "toLocaleString", "toString", "valueOf", "__defineGetter__", "__defineSetter__",
    "__lookupGetter__", "__lookupSetter__"}

  predicate IsHexDigit(c: char) {
    ('0' <= c <= '9') || ('a' <= c <= 'f') || ('A' <= c <= 'F')
  }

  /** The shape of a MongoDB ObjectId in text: exactly 24 hexadecimal digits
      (what `isMongoId` accepts and what an ObjectId path can cast). */
  predicate IsObjectId(s: string) {
    |s| == 24 && forall i :: 0 <= i < |s| ==> IsHexDigit(s[i])
  }

  /** An ObjectId has no surrounding white space, so trimming keeps it. */
  lemma ObjectIdTrimmed(s: string)
    requires IsObjectId(s)
    ensures Trim(s) == s
  {
    assert IsHexDigit(s[0]) && IsHexDigit(s[|s| - 1]);
    TrimKeeps(s);
  }
}

/** The soft-delete convention of the User and Ticket models: a `find` whose
    query does not mention `deletedAt` gets `deletedAt: null` added to it. */
module SoftDelete {
  import opened Common

  /** What a query says about `deletedAt`. */
  datatype DeletedAtFilter = Unmentioned | OnlyLive | OnlyDeleted

  /** The pre-find hook: `if (getQuery().deletedAt === undefined) where({ deletedAt: null })`. */
  function WithDefault(f: DeletedAtFilter): (r: DeletedAtFilter)
    ensures f.Unmentioned? ==> r == OnlyLive
    ensures !f.Unmentioned? ==> r == f
  {
    if f.Unmentioned? then OnlyLive else f
  }

  /** Whether a record with this `deletedAt` passes a find with filter `f`,
      after the hook ran. */
  predicate FindMatches(f: DeletedAtFilter, deletedAt: Option<int>) {
    match WithDefault(f)
    case OnlyLive => deletedAt.None?
    case OnlyDeleted => deletedAt.Some?
    case Unmentioned => true
  }

  /** A find that does not mention `deletedAt` never returns a deleted record;
      only a query that asks for deleted records can see them. */
  lemma FindExcludesDeleted(f: DeletedAtFilter, deletedAt: Option<int>)
    ensures FindMatches(f, deletedAt) && deletedAt.Some? ==> f.OnlyDeleted?
    ensures f.Unmentioned? ==> (FindMatches(f, deletedAt) <==> deletedAt.None?)
  {
  }
}

/** Page and limit handling of the list endpoints. */
module Paging {
  import opened Common

  /** `parseInt(q) || d`: `parsed` is what `parseInt` produced (None for an
      absent or unparsable value, NaN); NaN and 0 are falsy and give `d`. */
  function OrDefault(parsed: Option<int>, d: int): (r: int)
    ensures parsed.Some? && parsed.value != 0 ==> r == parsed.value
    ensures parsed.None? || parsed.value == 0 ==> r == d
    ensures d != 0 ==> r != 0
  {
    if parsed.Some? && parsed.value != 0 then parsed.value else d
  }

  /** A list reply: the documents the query matches (before sorting and
      windowing), the window asked for and the pagination block. */
  datatype Listing<T> = Listing(matching: seq<T>, skip: int, page: int, limit: int, total: nat, totalPages: int)

  /** `(page - 1) * limit` */
  function Skip(page: int, limit: int): int {
    (page - 1) * limit
  }

  /** `Math.ceil(total / limit)` for a non-zero limit. */
  function TotalPages(total: nat, limit: int): (r: int)
    requires limit != 0
    ensures limit > 0 ==> r >= 0 && r * limit >= total && (r == 0 || (r - 1) * limit < total)
    ensures limit > 0 ==> (r == 0 <==> total == 0)
    ensures limit < 0 ==> r <= 0
  {
    CeilDivisionSpec(total, limit);
    if limit > 0 then (total + limit - 1) / limit else -(total / -limit)
  }

  /** Integer ceiling division meets the ceiling's defining inequalities. */
  lemma CeilDivisionSpec(total: nat, limit: int)
    requires limit != 0
    ensures limit > 0 ==> var r := (total + limit - 1) / limit;
      r >= 0 && r * limit >= total && (r == 0 || (r - 1) * limit < total) && (r == 0 <==> total == 0)
  {
    if limit < 0 { return; }
    var n := total + limit - 1;
    var r := n / limit;
    assert n == r * limit + n % limit;
    assert 0 <= n % limit < limit;
    assert (r - 1) * limit == r * limit - limit;
    if total == 0 {
      assert n < limit;
    } else {
      assert n >= limit;
    }
  }
}

=== FILE: grouping.dfy ===
/** Counting by key, as a `$group` stage with `count: { $sum: 1 }` does, and
    the `reduce` that adds the group counts back up. The one fact the
    analytics totals rest on: over a list of distinct keys that covers every
    record in scope, the group counts add up to the number of records in scope. */
module Grouping {
  import Lists

  /** `ns.reduce((sum, n) => sum + n, 0)` */
  function Sum(ns: seq<nat>): nat {
    if ns == [] then 0 else ns[0] + Sum(ns[1..])
  }

  /** The size of the group with key `k`: the records in scope whose key is `k`. */
  function CountKey<T(!new), K(==)>(xs: seq<T>, inScope: T -> bool, key: T -> K, k: K): (n: nat)
    ensures n <= Lists.Count(xs, inScope)
  {
    if xs == [] then 0
    else (if inScope(xs[0]) && key(xs[0]) == k then 1 else 0) + CountKey(xs[1..], inScope, key, k)
  }

  /** The records in scope whose key is one of `keys`. */
  function CountIn<T(!new), K(==)>(xs: seq<T>, inScope: T -> bool, key: T -> K, keys: seq<K>): nat {
    if xs == [] then 0
    else (if inScope(xs[0]) && key(xs[0]) in keys then 1 else 0) + CountIn(xs[1..], inScope, key, keys)
  }

  /** The group sizes for `keys`, in the order of `keys`. */
  function Counts<T(!new), K(==)>(xs: seq<T>, inScope: T -> bool, key: T -> K, keys: seq<K>): (r: seq<nat>)
    ensures |r| == |keys|
    ensures forall i :: 0 <= i < |keys| ==> r[i] == CountKey(xs, inScope, key, keys[i])
  {
    seq(|keys|, i requires 0 <= i < |keys| => CountKey(xs, inScope, key, keys[i]))
  }

  predicate Distinct<K(==)>(keys: seq<K>) {
    forall i, j :: 0 <= i < j < |keys| ==> keys[i] != keys[j]
  }

  lemma {:induction false} CountInNoKeys<T(!new), K>(xs: seq<T>, inScope: T -> bool, key: T -> K)
    ensures CountIn(xs, inScope, key, []) == 0
  {
    if xs != [] {
      CountInNoKeys(xs[1..], inScope, key);
    }
  }

  /** Taking one key off the front splits the count in two. */
  lemma {:induction false} CountInFirstKey<T(!new), K>(xs: seq<T>, inScope: T -> bool, key: T -> K, keys: seq<K>)
    requires keys != [] && keys[0] !in keys[1..]
    ensures CountIn(xs, inScope, key, keys) == CountKey(xs, inScope, key, keys[0]) + CountIn(xs, inScope, key, keys[1..])
  {
    if xs != [] {
      CountInFirstKey(xs[1..], inScope, key, keys);
      assert key(xs[0]) in keys <==> key(xs[0]) == keys[0] || key(xs[0]) in keys[1..] by {
        assert keys == [keys[0]] + keys[1..];
      }
    }
  }

  /** The group sizes over distinct keys add up to the records whose key is among them. */
  lemma {:induction false} SumOfCounts<T(!new), K>(xs: seq<T>, inScope: T -> bool, key: T -> K, keys: seq<K>)
    requires Distinct(keys)
    ensures Sum(Counts(xs, inScope, key, keys)) == CountIn(xs, inScope, key, keys)
  {
    if keys == [] {
      CountInNoKeys(xs, inScope, key);
    } else {
      assert Counts(xs, inScope, key, keys)[1..] == Counts(xs, inScope, key, keys[1..]);
      SumOfCounts(xs, inScope, key, keys[1..]);
      assert keys[0] !in keys[1..] by {
        forall j | 0 <= j < |keys[1..]|
          ensures keys[1..][j] != keys[0]
        {
          assert keys[1..][j] == keys[j + 1];
        }
      }
      CountInFirstKey(xs, inScope, key, keys);
    }
  }

  /** When every record in scope has one of the keys, counting by those keys
      misses nothing. */
  lemma {:induction false} CountInCovers<T(!new), K>(xs: seq<T>, inScope: T -> bool, key: T -> K, keys: seq<K>)
    requires forall x :: inScope(x) ==> key(x) in keys
    ensures CountIn(xs, inScope, key, keys) == Lists.Count(xs, inScope)
  {
    if xs != [] {
      CountInCovers(xs[1..], inScope, key, keys);
    }
  }

  /** The `reduce` over the groups of a `$group` stage counts every record
      in scope exactly once. */
  lemma GroupTotal<T(!new), K>(xs: seq<T>, inScope: T -> bool, key: T -> K, keys: seq<K>)
    requires Distinct(keys)
    requires forall x :: inScope(x) ==> key(x) in keys
    ensures Sum(Counts(xs, inScope, key, keys)) == Lists.Count(xs, inScope)
  {
    SumOfCounts(xs, inScope, key, keys);
    CountInCovers(xs, inScope, key, keys);
  }
}

=== FILE: jwt.dfy ===
/** The token helpers of `JwtService`: Bearer-header parsing, claim-shape
    validation, role predicates, expiry arithmetic, token-pair issuance and the
    mapping of verifier failures to error messages.

    Signing and verification belong to the token library and are not modelled
    as cryptography: a token is a symbolic record of what was signed, and the
    verifier's answer on a given token is a `VerifyOutcome` supplied from
    outside. `VerifyReference` is a reference verifier used only to state the
    round-trip and secret-separation properties of the issued pair. */
module Jwt {
  import opened Common
  import opened Types

  const BearerPrefix: string := "Bearer "
  const Issuer: string := "flowbit-api"
  const Audience: string := "flowbit-users"

  /** Default lifetimes, '15m' and '7d', in seconds. */
  const DefaultAccessLifetime: int := 900
  const DefaultRefreshLifetime: int := 604800
  /** expiresIn reported when the access token carries no usable expiry. */
  const FallbackExpiresIn: int := 900

  const DefaultAccessSecret: string := "your-super-secret-jwt-key-change-in-production"
  const DefaultRefreshSecret: string := "your-refresh-secret-change-in-production"

  /** Secrets and lifetimes (seconds) for the two kinds of token. */
  datatype JwtConfig = JwtConfig(secret: string, refreshSecret: string, accessLifetime: int, refreshLifetime: int)

  /** `process.env.X || default` for the two secrets and the two lifetimes.
      A lifetime arrives as the seconds the token library reads from the
      `JWT_EXPIRES_IN` or `JWT_REFRESH_EXPIRES_IN` text, None when the
      variable is unset or empty; the defaults are '15m' and '7d'. */
  function ConfigFromEnv(secret: Option<string>, refreshSecret: Option<string>,
                         accessLifetime: Option<int>, refreshLifetime: Option<int>): (c: JwtConfig)
    ensures Present(secret) ==> c.secret == secret.value
    ensures !Present(secret) ==> c.secret == DefaultAccessSecret
    ensures Present(refreshSecret) ==> c.refreshSecret == refreshSecret.value
    ensures !Present(refreshSecret) ==> c.refreshSecret == DefaultRefreshSecret
    ensures accessLifetime.Some? ==> c.accessLifetime == accessLifetime.value
    ensures accessLifetime.None? ==> c.accessLifetime == 15 * 60
    ensures refreshLifetime.Some? ==> c.refreshLifetime == refreshLifetime.value
    ensures refreshLifetime.None? ==> c.refreshLifetime == 7 * 24 * 60 * 60
  {
    JwtConfig(if Present(secret) then secret.value else DefaultAccessSecret,
              if Present(refreshSecret) then refreshSecret.value else DefaultRefreshSecret,
              accessLifetime.GetOr(DefaultAccessLifetime), refreshLifetime.GetOr(DefaultRefreshLifetime))
  }

  /** Any configuration with non-empty secrets is what the environment
      spelling it out yields. */
  lemma ConfigFromEnvRoundTrip(c: JwtConfig)
    requires c.secret != "" && c.refreshSecret != ""
    ensures ConfigFromEnv(Some(c.secret), Some(c.refreshSecret), Some(c.accessLifetime), Some(c.refreshLifetime)) == c
  {
  }

  /** An empty environment gives two different secrets, so the issued pair
      keeps its kinds apart, and an access token shorter-lived than the
      refresh token. */
  lemma DefaultConfigSeparatesKinds()
    ensures var c := ConfigFromEnv(None, None, None, None);
      && c.secret != c.refreshSecret
      && 0 < c.accessLifetime < c.refreshLifetime
  {
    assert DefaultAccessSecret[5] != DefaultRefreshSecret[5];
  }

  // ---------------------------------------------------------------- header

  /** `extractTokenFromHeader`: the text after "Bearer ", or nothing. */
  function ExtractTokenFromHeader(header: string): (r: Option<string>)
    ensures r.Some? <==> StartsWith(header, BearerPrefix)
    ensures r.Some? ==> header == BearerPrefix + r.value
  {
    if |header| >= 7 && header[..7] == BearerPrefix then Some(header[7..]) else None
  }

  /** Extraction undoes prefixing, for every token text (the empty one included). */
  lemma ExtractBearerRoundTrip(t: string)
    ensures ExtractTokenFromHeader(BearerPrefix + t) == Some(t)
  {
    assert (BearerPrefix + t)[..7] == BearerPrefix;
    assert (BearerPrefix + t)[7..] == t;
  }

  /** Other schemes, and the bare word without its space, are refused. */
  lemma ExtractRejectsOtherSchemes()
    ensures ExtractTokenFromHeader("Basic abc") == None
    ensures ExtractTokenFromHeader("Bearer") == None
    ensures ExtractTokenFromHeader("bearer abc") == None
  {
    assert "bearer abc"[..7][0] != BearerPrefix[0];
    assert "Basic abc"[..7][1] != BearerPrefix[1];
  }

  // ---------------------------------------------------------------- claims

  /** `validatePayload`: the type tests on the six claim fields and the role test. */
  predicate ValidatePayload(p: RawPayload) {
    && p.customerId.JString?
    && p.role.JString?
    && ParseRole(p.role.s).Some?
    && p.userId.JString?
    && p.email.JString?
    && p.iat.JNumber?
    && p.exp.JNumber?
  }

  /** The typed claims of a payload that passes `validatePayload`. */
  function AsClaims(p: RawPayload): (r: Option<Claims>)
    ensures r.Some? <==> ValidatePayload(p)
    ensures r.Some? ==> ToRaw(r.value) == p
  {
    if ValidatePayload(p) then
      Some(Claims(p.customerId.s, ParseRole(p.role.s).value, p.userId.s, p.email.s, p.iat.n, p.exp.n))
    else None
  }

  /** A payload is valid exactly when it is the encoding of some claim set:
      every encoded claim set validates and decodes back to itself. */
  lemma ClaimsRoundTrip(c: Claims)
    ensures ValidatePayload(ToRaw(c))
    ensures AsClaims(ToRaw(c)) == Some(c)
  {
    EnumerationsRoundTrip(c.role, Open, Low, Login);
  }

  /** A role outside the three names is refused even when every other field is well typed. */
  lemma UnknownRoleRejected(c: Claims, name: string)
    requires ParseRole(name).None?
    ensures !ValidatePayload(ToRaw(c).(role := JString(name)))
  {
  }

  // ----------------------------------------------------------------- roles

  /** `requiredRoles: UserRole | UserRole[]` */
  datatype RoleRequirement = Single(role: Role) | AnyOf(roles: seq<Role>) {
    /** A single role is wrapped into a one-element list. */
    function Roles(): seq<Role> {
      match this
      case Single(r) => [r]
      case AnyOf(rs) => rs
    }
  }

  /** `hasRole`: exact membership in the (wrapped) list; no role implies another. */
  predicate HasRole(role: Role, required: RoleRequirement) {
    role in required.Roles()
  }

  predicate IsAdmin(role: Role) {
    role == Admin || role == SuperAdmin
  }

  predicate IsSuperAdmin(role: Role) {
    role == SuperAdmin
  }

  /** The role hierarchy as the code states it: `isAdmin` is membership in
      {Admin, SuperAdmin}, `isSuperAdmin` implies `isAdmin`, and an exact
      check for Admin does not admit a SuperAdmin. */
  lemma RolePredicates(r: Role)
    ensures IsAdmin(r) <==> HasRole(r, AnyOf([Admin, SuperAdmin]))
    ensures IsSuperAdmin(r) <==> HasRole(r, Single(SuperAdmin))
    ensures IsSuperAdmin(r) ==> IsAdmin(r)
    ensures HasRole(r, Single(Admin)) <==> r == Admin
    ensures !HasRole(SuperAdmin, Single(Admin))
  {
  }

  // ---------------------------------------------------------------- expiry

  /** JavaScript truthiness of a decoded claim. */
  predicate IsTruthy(v: Json) {
    match v
    case JUndefined => false
    case JNull => false
    case JBool(b) => b
    case JNumber(n) => n != 0
    case JString(s) => s != ""
    case JObject => true
  }

  /** The number JavaScript's `<` and `*` read from a claim, None for NaN.
      `numeric` is `Number(text)` on strings, None when the text is not a
      whole number. */
  function ToNumber(v: Json, numeric: string -> Option<int>): (r: Option<int>)
    ensures v.JNumber? ==> r == Some(v.n)
    ensures v == JBool(true) ==> r == Some(1)
    ensures v.JString? ==> r == numeric(v.s)
  {
    match v
    case JUndefined => None
    case JNull => Some(0)
    case JBool(b) => Some(if b then 1 else 0)
    case JNumber(n) => Some(n)
    case JString(s) => numeric(s)
    case JObject => None
  }

  /** The `exp` claim of a decode, undefined when nothing decoded. */
  function ExpClaim(decoded: Option<RawPayload>): Json {
    if decoded.Some? then decoded.value.exp else JUndefined
  }

  /** `isTokenExpired`: no decode or a falsy expiry counts as expired;
      otherwise the expiry, read as a number, is compared with `<` against
      the current whole second, and a comparison with NaN is false.
      `Math.floor(Date.now() / 1000)` is Dafny's `/` by a positive divisor. */
  function IsTokenExpired(decoded: Option<RawPayload>, numeric: string -> Option<int>, nowMs: int): (r: bool)
    ensures !IsTruthy(ExpClaim(decoded)) ==> r
    ensures IsTruthy(ExpClaim(decoded)) && ToNumber(ExpClaim(decoded), numeric).None? ==> !r
    ensures IsTruthy(ExpClaim(decoded)) && ToNumber(ExpClaim(decoded), numeric).Some? ==>
      (r <==> ToNumber(ExpClaim(decoded), numeric).value * 1000 + 1000 <= nowMs)
  {
    var exp := ExpClaim(decoded);
    if !IsTruthy(exp) then true
    else match ToNumber(exp, numeric)
      case None => false
      case Some(e) =>
        ExpirySecondsArithmetic(e, nowMs);
        e < nowMs / 1000
  }

  /** `e < floor(now/1000)` is `(e + 1) * 1000 <= now`. */
  lemma ExpirySecondsArithmetic(e: int, nowMs: int)
    ensures e < nowMs / 1000 <==> e * 1000 + 1000 <= nowMs
  {
    var q := nowMs / 1000;
    assert nowMs == q * 1000 + nowMs % 1000;
    if e < q {
      assert (e + 1) * 1000 <= q * 1000;
    } else {
      assert q * 1000 <= e * 1000;
    }
  }

  /** The largest distance from the epoch, in milliseconds, a `Date` holds. */
  const MaxDateMs: int := 8_640_000_000_000_000

  /** A `Date` object: an instant, or the invalid date NaN gives. */
  datatype DateValue = ValidDate(ms: int) | InvalidDate

  /** `new Date(x)` for a number x, None standing for NaN. */
  function MakeDate(x: Option<int>): (d: DateValue)
    ensures d.ValidDate? <==> x.Some? && -MaxDateMs <= x.value <= MaxDateMs
    ensures d.ValidDate? ==> d.ms == x.value
  {
    if x.Some? && -MaxDateMs <= x.value <= MaxDateMs then ValidDate(x.value) else InvalidDate
  }

  /** `getTokenExpiration`: nothing for no decode or a falsy expiry,
      otherwise `new Date(exp * 1000)`, which is the invalid date when the
      expiry does not read as a number. */
  function GetTokenExpiration(decoded: Option<RawPayload>, numeric: string -> Option<int>): (r: Option<DateValue>)
    ensures r.Some? <==> IsTruthy(ExpClaim(decoded))
    ensures r.Some? && ToNumber(ExpClaim(decoded), numeric).None? ==> r.value == InvalidDate
    ensures r.Some? && r.value.ValidDate? ==>
      ToNumber(ExpClaim(decoded), numeric) == Some(r.value.ms / 1000) && r.value.ms % 1000 == 0
    ensures var n := ToNumber(ExpClaim(decoded), numeric);
      IsTruthy(ExpClaim(decoded)) && n.Some? ==>
        r == Some(if -MaxDateMs <= n.value * 1000 <= MaxDateMs then ValidDate(n.value * 1000) else InvalidDate)
  {
    var exp := ExpClaim(decoded);
    if !IsTruthy(exp) then None
    else match ToNumber(exp, numeric)
      case None => Some(InvalidDate)
      case Some(e) => Some(MakeDate(Some(e * 1000)))
  }

  /** The two expiry helpers agree: no expiration means expired; a valid
      expiration instant means expired exactly when it lies a full second or
      more in the past, so one in the current second is not expired; and an
      expiry that is not a number gives the invalid date and never expires. */
  lemma ExpiryHelpersAgree(decoded: Option<RawPayload>, numeric: string -> Option<int>, nowMs: int)
    ensures GetTokenExpiration(decoded, numeric).None? ==> IsTokenExpired(decoded, numeric, nowMs)
    ensures GetTokenExpiration(decoded, numeric).Some? && GetTokenExpiration(decoded, numeric).value.ValidDate? ==>
      (IsTokenExpired(decoded, numeric, nowMs) <==> GetTokenExpiration(decoded, numeric).value.ms + 1000 <= nowMs)
    ensures IsTruthy(ExpClaim(decoded)) && ToNumber(ExpClaim(decoded), numeric).None? ==>
      GetTokenExpiration(decoded, numeric) == Some(InvalidDate) && !IsTokenExpired(decoded, numeric, nowMs)
    ensures ExpClaim(decoded) == JNumber(nowMs / 1000) && nowMs >= 1000 ==> !IsTokenExpired(decoded, numeric, nowMs)
  {
  }

  /** An expiry text that is not a number never expires and has the
      invalid date as its expiration. */
  lemma TextExpiryNeverExpires(p: RawPayload, numeric: string -> Option<int>, nowMs: int)
    requires p.exp == JString("abc") && numeric("abc").None?
    ensures !IsTokenExpired(Some(p), numeric, nowMs)
    ensures GetTokenExpiration(Some(p), numeric) == Some(InvalidDate)
  {
  }

  /** A numeric expiry text is coerced: "5" expires from the sixth second on. */
  lemma NumericTextExpiryExpires(p: RawPayload, numeric: string -> Option<int>, nowMs: int)
    requires p.exp == JString("5") && numeric("5") == Some(5) && nowMs >= 6000
    ensures IsTokenExpired(Some(p), numeric, nowMs)
    ensures GetTokenExpiration(Some(p), numeric) == Some(ValidDate(5000))
  {
  }

  // --------------------------------------------------------------- issuing

  /** What `jwt.sign` embeds: the identity claims, issuer/audience markers,
      issue time and expiry in seconds, and (symbolically) the signing secret. */
  datatype Token = Token(claims: IdentityClaims, secret: string, issuer: string, audience: string, iat: int, exp: int)

  datatype TokenPair = TokenPair(accessToken: Token, refreshToken: Token, expiresIn: int)

  function Sign(claims: IdentityClaims, secret: string, lifetime: int, nowMs: int): Token {
    Token(claims, secret, Issuer, Audience, nowMs / 1000, nowMs / 1000 + lifetime)
  }

  /** `generateTokenPair`: both tokens carry the same identity claims and are
      signed with the two configured secrets; expiresIn is the access token's
      decoded expiry minus the current second, or 900 when that expiry is falsy. */
  function GenerateTokenPair(cfg: JwtConfig, claims: IdentityClaims, nowMs: int): (r: TokenPair)
    ensures r.accessToken.claims == claims && r.refreshToken.claims == claims
    ensures r.accessToken.secret == cfg.secret && r.refreshToken.secret == cfg.refreshSecret
    ensures r.accessToken.exp - r.accessToken.iat == cfg.accessLifetime
    ensures r.refreshToken.exp - r.refreshToken.iat == cfg.refreshLifetime
    ensures r.accessToken.exp != 0 ==> r.expiresIn == cfg.accessLifetime
    ensures r.accessToken.exp == 0 ==> r.expiresIn == FallbackExpiresIn
  {
    var access := Sign(claims, cfg.secret, cfg.accessLifetime, nowMs);
    var refresh := Sign(claims, cfg.refreshSecret, cfg.refreshLifetime, nowMs);
    var expiresIn := if access.exp != 0 then access.exp - nowMs / 1000 else FallbackExpiresIn;
    TokenPair(access, refresh, expiresIn)
  }

  // ------------------------------------------------------------- verifying

  /** The verifier's answer: the decoded payload, or which library error it threw. */
  datatype VerifyOutcome = Verified(payload: RawPayload) | Expired | Invalid | OtherFailure

  datatype TokenKind = AccessKind | RefreshKind

  /** `verifyAccessToken` / `verifyRefreshToken`: the payload, or the Error
      message the wrapper throws for each library failure. */
  function VerifyToken(kind: TokenKind, outcome: VerifyOutcome): (r: Result<RawPayload, string>)
    ensures r.Ok? <==> outcome.Verified?
    ensures r.Ok? ==> r.value == outcome.payload
    ensures outcome.Expired? ==> r == Err(if kind == AccessKind then "Token expired" else "Refresh token expired")
    ensures outcome.Invalid? ==> r == Err(if kind == AccessKind then "Invalid token" else "Invalid refresh token")
    ensures outcome.OtherFailure? ==>
      r == Err(if kind == AccessKind then "Token verification failed" else "Refresh token verification failed")
  {
    match outcome
    case Verified(p) => Ok(p)
    case Expired => Err(ExpiredMessage(kind))
    case Invalid => Err(InvalidMessage(kind))
    case OtherFailure => Err(FailedMessage(kind))
  }

  function ExpiredMessage(kind: TokenKind): string {
    if kind == AccessKind then "Token expired" else "Refresh token expired"
  }

  function InvalidMessage(kind: TokenKind): string {
    if kind == AccessKind then "Invalid token" else "Invalid refresh token"
  }

  function FailedMessage(kind: TokenKind): string {
    if kind == AccessKind then "Token verification failed" else "Refresh token verification failed"
  }

  /** The three failure messages of one kind are pairwise different, and the
      access and refresh messages never coincide, so the message alone tells
      which kind of token failed and why. */
  lemma VerifyMessagesDistinct(k1: TokenKind, k2: TokenKind, o1: VerifyOutcome, o2: VerifyOutcome)
    requires !o1.Verified? && !o2.Verified?
    requires VerifyToken(k1, o1) == VerifyToken(k2, o2)
    ensures k1 == k2 && o1 == o2
  {
  }

  /** A reference verifier with the library's order of checks: the
      signature first, then expiry (`now >= exp` is expired), then audience
      and issuer. */
  function VerifyReference(secret: string, t: Token, nowMs: int): VerifyOutcome {
    if t.secret != secret then Invalid
    else if nowMs / 1000 >= t.exp then Expired
    else if t.audience != Audience || t.issuer != Issuer then Invalid
    else Verified(ToRaw(Claims(t.claims.customerId, t.claims.role, t.claims.userId, t.claims.email, t.iat, t.exp)))
  }

  /** An issued access token verifies, within its lifetime, to claims whose
      identity part is exactly what was signed; a refresh token never passes
      access verification when the two secrets differ. */
  lemma IssuedPairVerifies(cfg: JwtConfig, claims: IdentityClaims, issuedMs: int, nowMs: int)
    requires cfg.secret != cfg.refreshSecret
    requires issuedMs / 1000 <= nowMs / 1000 < issuedMs / 1000 + cfg.accessLifetime
    ensures var pair := GenerateTokenPair(cfg, claims, issuedMs);
      && VerifyReference(cfg.secret, pair.accessToken, nowMs).Verified?
      && AsClaims(VerifyReference(cfg.secret, pair.accessToken, nowMs).payload).Some?
      && AsClaims(VerifyReference(cfg.secret, pair.accessToken, nowMs).payload).value.Identity() == claims
      && VerifyReference(cfg.secret, pair.refreshToken, nowMs) == Invalid
      && VerifyReference(cfg.refreshSecret, pair.accessToken, nowMs) == Invalid
  {
    var pair := GenerateTokenPair(cfg, claims, issuedMs);
    var c := Claims(claims.customerId, claims.role, claims.userId, claims.email, pair.accessToken.iat, pair.accessToken.exp);
    ClaimsRoundTrip(c);
  }
}

=== FILE: lists.dfy ===
/** Sequence operations shared by the data models and the frontend stores:
    `filter`, `map` restricted to entries with a given id, prepend, and the
    first match of a query. Each comes with the facts the callers rely on:
    what is kept, what is changed, and that order is preserved. */
module Lists {
  import opened Common

  /** `sub` is `xs` with some entries left out and the others in their order. */
  ghost predicate IsSubsequence<T>(sub: seq<T>, xs: seq<T>)
    decreases |xs|
  {
    sub == [] || (xs != [] && ((sub[0] == xs[0] && IsSubsequence(sub[1..], xs[1..])) || IsSubsequence(sub, xs[1..])))
  }

  /** `xs.filter(p)` */
  function Filter<T(!new)>(xs: seq<T>, p: T -> bool): (r: seq<T>)
    ensures |r| <= |xs|
    ensures forall i :: 0 <= i < |r| ==> p(r[i])
    ensures forall x :: x in r <==> x in xs && p(x)
  {
    if xs == [] then []
    else if p(xs[0]) then [xs[0]] + Filter(xs[1..], p)
    else Filter(xs[1..], p)
  }

  /** A filter keeps the entries that pass in their order, each as often as
      it occurs in `xs`. */
  lemma {:induction false} FilterKeepsOrder<T(!new)>(xs: seq<T>, p: T -> bool)
    ensures IsSubsequence(Filter(xs, p), xs)
    ensures forall x :: multiset(Filter(xs, p))[x] == if p(x) then multiset(xs)[x] else 0
  {
    if xs != [] {
      FilterKeepsOrder(xs[1..], p);
      assert xs == [xs[0]] + xs[1..];
      if p(xs[0]) {
        assert Filter(xs, p)[1..] == Filter(xs[1..], p);
      }
    }
  }

  /** Filtering distributes over concatenation: relative order is kept. */
  lemma {:induction false} FilterAppend<T(!new)>(xs: seq<T>, ys: seq<T>, p: T -> bool)
    ensures Filter(xs + ys, p) == Filter(xs, p) + Filter(ys, p)
  {
    if xs == [] {
      assert xs + ys == ys;
    } else {
      assert (xs + ys)[1..] == xs[1..] + ys;
      FilterAppend(xs[1..], ys, p);
    }
  }

  /** A filter that every element passes keeps the whole sequence. */
  lemma {:induction false} FilterAll<T(!new)>(xs: seq<T>, p: T -> bool)
    requires forall i :: 0 <= i < |xs| ==> p(xs[i])
    ensures Filter(xs, p) == xs
  {
    if xs != [] {
      FilterAll(xs[1..], p);
    }
  }

  /** Filtering twice by the same test is filtering once. */
  lemma {:induction false} FilterIdempotent<T(!new)>(xs: seq<T>, p: T -> bool)
    ensures Filter(Filter(xs, p), p) == Filter(xs, p)
  {
    FilterAll(Filter(xs, p), p);
  }

  /** The number of entries a test accepts. */
  function Count<T(!new)>(xs: seq<T>, p: T -> bool): (n: nat)
    ensures n <= |xs|
  {
    if xs == [] then 0 else (if p(xs[0]) then 1 else 0) + Count(xs[1..], p)
  }

  lemma {:induction false} CountIsFilterLength<T(!new)>(xs: seq<T>, p: T -> bool)
    ensures Count(xs, p) == |Filter(xs, p)|
  {
    if xs != [] {
      CountIsFilterLength(xs[1..], p);
    }
  }

  /** `xs.filter(x => key(x) !== id)`: every entry with that id is removed,
      every other entry is kept, as often as it occurred and in its order. */
  function RemoveById<T(!new)>(xs: seq<T>, key: T -> string, id: string): (r: seq<T>)
    ensures forall i :: 0 <= i < |r| ==> key(r[i]) != id
    ensures forall x :: x in xs && key(x) != id ==> x in r
    ensures forall x :: x in r ==> x in xs
    ensures IsSubsequence(r, xs)
    ensures forall x :: multiset(r)[x] == if key(x) != id then multiset(xs)[x] else 0
  {
    FilterKeepsOrder(xs, x => key(x) != id);
    Filter(xs, x => key(x) != id)
  }

  /** Removing an id nobody has changes nothing. */
  lemma RemoveAbsentId<T(!new)>(xs: seq<T>, key: T -> string, id: string)
    requires forall i :: 0 <= i < |xs| ==> key(xs[i]) != id
    ensures RemoveById(xs, key, id) == xs
  {
    FilterAll(xs, x => key(x) != id);
  }

  /** The number of entries removed is the number that carried the id. */
  lemma RemoveByIdLength<T(!new)>(xs: seq<T>, key: T -> string, id: string)
    ensures |RemoveById(xs, key, id)| + Count(xs, x => key(x) == id) == |xs|
  {
    CountComplement(xs, x => key(x) != id, x => key(x) == id);
    CountIsFilterLength(xs, x => key(x) != id);
  }

  lemma {:induction false} CountComplement<T(!new)>(xs: seq<T>, p: T -> bool, q: T -> bool)
    requires forall x :: p(x) <==> !q(x)
    ensures Count(xs, p) + Count(xs, q) == |xs|
  {
    if xs != [] {
      CountComplement(xs[1..], p, q);
    }
  }

  /** A weaker test accepts at least as many entries. */
  lemma {:induction false} CountMonotone<T(!new)>(xs: seq<T>, p: T -> bool, q: T -> bool)
    requires forall x :: q(x) ==> p(x)
    ensures Count(xs, q) <= Count(xs, p)
  {
    if xs != [] {
      CountMonotone(xs[1..], p, q);
    }
  }

  /** `xs.map(x => key(x) === id ? f(x) : x)`: entries with the id are
      rewritten by `f`, all others are left as they were, and length is kept. */
  function UpdateById<T(!new)>(xs: seq<T>, key: T -> string, id: string, f: T -> T): (r: seq<T>)
    ensures |r| == |xs|
    ensures forall i :: 0 <= i < |xs| && key(xs[i]) == id ==> r[i] == f(xs[i])
    ensures forall i :: 0 <= i < |xs| && key(xs[i]) != id ==> r[i] == xs[i]
  {
    seq(|xs|, i requires 0 <= i < |xs| => if key(xs[i]) == id then f(xs[i]) else xs[i])
  }

  /** `xs.map(x => key(x) === id ? y : x)` */
  function ReplaceById<T(!new)>(xs: seq<T>, key: T -> string, id: string, y: T): (r: seq<T>)
    ensures |r| == |xs|
    ensures forall i :: 0 <= i < |xs| ==> r[i] == (if key(xs[i]) == id then y else xs[i])
  {
    UpdateById(xs, key, id, _ => y)
  }

  /** Replacing by id twice with the same value is replacing once, whatever
      id the new value itself carries. */
  lemma ReplaceByIdIdempotent<T(!new)>(xs: seq<T>, key: T -> string, id: string, y: T)
    ensures ReplaceById(ReplaceById(xs, key, id, y), key, id, y) == ReplaceById(xs, key, id, y)
  {
  }

  /** `[y, ...xs]`: exactly one new entry, in front, with the old ones after it in order. */
  function Prepend<T(!new)>(y: T, xs: seq<T>): (r: seq<T>)
    ensures |r| == |xs| + 1 && r[0] == y && r[1..] == xs
  {
    [y] + xs
  }

  /** The index of the first entry a test accepts (MongoDB's `findOne` in
      storage order). */
  function FirstIndex<T(!new)>(xs: seq<T>, p: T -> bool): (r: Option<nat>)
    ensures r.Some? ==> r.value < |xs| && p(xs[r.value])
    ensures r.Some? ==> forall j :: 0 <= j < r.value ==> !p(xs[j])
    ensures r.None? ==> forall j :: 0 <= j < |xs| ==> !p(xs[j])
  {
    if xs == [] then None
    else if p(xs[0]) then Some(0)
    else match FirstIndex(xs[1..], p)
      case None => None
      case Some(k) => Some(k + 1)
  }

  function FindFirst<T(!new)>(xs: seq<T>, p: T -> bool): (r: Option<T>)
    ensures r.Some? <==> exists i :: 0 <= i < |xs| && p(xs[i])
    ensures r.Some? ==> r.value in xs && p(r.value)
  {
    match FirstIndex(xs, p)
    case None => None
    case Some(i) => Some(xs[i])
  }
}

=== FILE: store_actions.dfy ===
/** What the frontend's zustand stores have in common. An action sets
    `loading: true, error: null`, awaits one API call, and then either
    writes the answer into the state or writes the error text; in both
    cases it sets `loading: false`. Lists are keyed by `_id`. */
module StoreActions {
  import opened Common
  import Lists

  /** How the awaited API call settled: with its value, or by throwing an
      error whose `response.data.message` may be absent. */
  datatype Api<T> = Answered(value: T) | Failed(serverMessage: Option<string>)

  /** The value of a call that answers with nothing (`delete`). */
  datatype Ack = Ack

  /** `error.response?.data?.message || fallback` */
  function ErrorText(serverMessage: Option<string>, fallback: string): (r: string)
    ensures Present(serverMessage) ==> r == serverMessage.value
    ensures !Present(serverMessage) ==> r == fallback
  {
    if Present(serverMessage) then serverMessage.value else fallback
  }

  /** `state.current?._id === id ? updated : state.current` */
  function CurrentAfterUpdate<T>(current: Option<T>, key: T -> string, id: string, updated: T): (r: Option<T>)
    ensures current.Some? && key(current.value) == id ==> r == Some(updated)
    ensures current.None? || key(current.value) != id ==> r == current
  {
    if current.Some? && key(current.value) == id then Some(updated) else current
  }

  /** `state.current?._id === id ? null : state.current` */
  function CurrentAfterRemove<T>(current: Option<T>, key: T -> string, id: string): (r: Option<T>)
    ensures r.None? <==> current.None? || key(current.value) == id
    ensures r.Some? ==> r == current
  {
    if current.Some? && key(current.value) == id then None else current
  }

  /** Writing the same update into the current item twice is writing it once. */
  lemma CurrentAfterUpdateIdempotent<T>(current: Option<T>, key: T -> string, id: string, updated: T)
    ensures CurrentAfterUpdate(CurrentAfterUpdate(current, key, id, updated), key, id, updated)
         == CurrentAfterUpdate(current, key, id, updated)
  {
  }

  /** An entry prepended and then removed by its own id is gone, and so is
      every other entry with that id; the rest is untouched. */
  lemma PrependThenRemoveSameId<T(!new)>(xs: seq<T>, key: T -> string, y: T)
    ensures Lists.RemoveById(Lists.Prepend(y, xs), key, key(y)) == Lists.RemoveById(xs, key, key(y))
  {
    assert Lists.Prepend(y, xs)[1..] == xs;
  }

  /** Removing an entry just prepended, whose id nobody else had, gives the
      list back as it was. */
  lemma PrependThenRemove<T(!new)>(xs: seq<T>, key: T -> string, y: T)
    requires forall i :: 0 <= i < |xs| ==> key(xs[i]) != key(y)
    ensures Lists.RemoveById(Lists.Prepend(y, xs), key, key(y)) == xs
  {
    PrependThenRemoveSameId(xs, key, y);
    Lists.RemoveAbsentId(xs, key, key(y));
  }

  /** Removing after a replacement under the same id is just removing: the
      replacement carries that id, so it is gone with the rest of that id. */
  lemma {:induction false} ReplaceThenRemove<T(!new)>(xs: seq<T>, key: T -> string, id: string, y: T)
    requires key(y) == id
    ensures Lists.RemoveById(Lists.ReplaceById(xs, key, id, y), key, id) == Lists.RemoveById(xs, key, id)
  {
    if xs != [] {
      var ys := Lists.ReplaceById(xs, key, id, y);
      assert ys[1..] == Lists.ReplaceById(xs[1..], key, id, y);
      ReplaceThenRemove(xs[1..], key, id, y);
    }
  }
}

=== FILE: ticket_model.dfy ===
/** The Ticket model: schema enums, bounds and defaults, the soft-delete find
    hook, the `findByTenant` query builder, `countByTenant`, the
    `updateStatus`/`assignTo` instance methods and the `isOverdue` and
    `timeSinceCreation` virtuals. The ticket collection is a sequence of
    records in storage order. */
module TicketModel {
  import opened Common
  import opened Types
  import opened SoftDelete
  import Lists
  import Paging

  const TitleMaxLength: int := 200
  const DescriptionMaxLength: int := 2000
  const CategoryMaxLength: int := 100
  const DefaultLimit: int := 10
  const DefaultSort: string := "-createdAt"
  /** `1000 * 60 * 60 * 24` */
  const DayMs: int := 86400000
  const OverdueDays: int := 7

  /** A stored ticket; times are milliseconds since the epoch. */
  datatype TicketRecord = TicketRecord(
    id: string, customerId: string, userId: string, title: string, description: string,
    status: TicketStatus, priority: TicketPriority, category: string,
    workflowId: Option<string>, assignedTo: Option<string>, deletedAt: Option<int>,
    createdAt: int, updatedAt: int)

  /** Schema validation of a stored ticket: the required paths, the three
      length bounds and the ObjectId casts of the user references. */
  predicate SchemaValid(t: TicketRecord) {
    && t.customerId != ""
    && IsObjectId(t.userId)
    && 1 <= |t.title| <= TitleMaxLength
    && 1 <= |t.description| <= DescriptionMaxLength
    && 1 <= |t.category| <= CategoryMaxLength
    && (t.assignedTo.Some? ==> IsObjectId(t.assignedTo.value))
  }

  /** The fields handed to `new Ticket(...)`; status and priority arrive as text. */
  datatype NewTicket = NewTicket(
    customerId: string, userId: string, title: string, description: string,
    status: Option<string>, priority: Option<string>, category: string)

  /** An enumerated path: absent gives the default, otherwise the text must
      name a member of the enumeration. */
  function StatusOrDefault(s: Option<string>): (r: Option<TicketStatus>)
    ensures s.None? ==> r == Some(Open)
    ensures s.Some? ==> r == ParseStatus(s.value)
  {
    if s.None? then Some(Open) else ParseStatus(s.value)
  }

  function PriorityOrDefault(p: Option<string>): (r: Option<TicketPriority>)
    ensures p.None? ==> r == Some(Medium)
    ensures p.Some? ==> r == ParsePriority(p.value)
  {
    if p.None? then Some(Medium) else ParsePriority(p.value)
  }

  /** `new Ticket(input).save()`: the string paths are trimmed, status and
      priority take their defaults (Open, Medium) when absent, and the
      document is kept only when it passes schema validation. */
  function Create(input: NewTicket, id: string, nowMs: int): (r: Option<TicketRecord>)
    ensures r.Some? ==> SchemaValid(r.value)
    ensures r.Some? ==> r.value.id == id && r.value.customerId == input.customerId && r.value.userId == input.userId
    ensures r.Some? ==> r.value.title == Trim(input.title) && r.value.description == Trim(input.description)
                        && r.value.category == Trim(input.category)
    ensures r.Some? ==> Some(r.value.status) == StatusOrDefault(input.status)
                        && Some(r.value.priority) == PriorityOrDefault(input.priority)
    ensures r.Some? ==> r.value.deletedAt.None? && r.value.assignedTo.None? && r.value.workflowId.None?
    ensures r.Some? ==> r.value.createdAt == nowMs && r.value.updatedAt == nowMs
    ensures r.None? <==> StatusOrDefault(input.status).None? || PriorityOrDefault(input.priority).None?
                         || input.customerId == "" || !IsObjectId(input.userId)
                         || !(1 <= |Trim(input.title)| <= TitleMaxLength)
                         || !(1 <= |Trim(input.description)| <= DescriptionMaxLength)
                         || !(1 <= |Trim(input.category)| <= CategoryMaxLength)
  {
    var status := StatusOrDefault(input.status);
    var priority := PriorityOrDefault(input.priority);
    if status.None? || priority.None? then None
    else
      var t := TicketRecord(id, input.customerId, input.userId, Trim(input.title), Trim(input.description),
                            status.value, priority.value, Trim(input.category), None, None, None, nowMs, nowMs);
      if SchemaValid(t) then Some(t) else None
  }

  /** A document with defined enumerations, an author id and texts within
      bounds after trimming is stored. */
  lemma CreateAccepts(input: NewTicket, id: string, nowMs: int)
    requires StatusOrDefault(input.status).Some? && PriorityOrDefault(input.priority).Some?
    requires input.customerId != "" && IsObjectId(input.userId)
    requires 1 <= |Trim(input.title)| <= TitleMaxLength && 1 <= |Trim(input.description)| <= DescriptionMaxLength
    requires 1 <= |Trim(input.category)| <= CategoryMaxLength
    ensures Create(input, id, nowMs).Some?
  {
  }

  /** A title of spaces only is refused by the schema, whatever its length. */
  lemma BlankTitleRefused(input: NewTicket, id: string, nowMs: int)
    requires forall i :: 0 <= i < |input.title| ==> IsSpace(input.title[i])
    ensures Create(input, id, nowMs).None?
  {
    assert TrimStart(input.title) == [];
  }

  // ------------------------------------------------------------------ finds

  datatype FindOptions = FindOptions(
    status: Option<string>, priority: Option<string>, assignedTo: Option<string>, userId: Option<string>,
    category: Option<string>, page: Option<int>, limit: Option<int>, sort: Option<string>)

  /** The filter document of a ticket query; no route mentions `deletedAt`. */
  datatype TicketFilter = TicketFilter(
    customerId: string, status: Option<string>, priority: Option<string>, assignedTo: Option<string>,
    userId: Option<string>, category: Option<string>)

  datatype TicketQuery = TicketQuery(filter: TicketFilter, skip: int, limit: int, sort: string)

  function Truthy(s: Option<string>): Option<string> {
    if Present(s) then s else None
  }

  /** `findByTenant`: the tenant filter always, each optional filter only when
      it is a non-empty string; page 1, limit 10 and sort "-createdAt" by default. */
  function FindByTenant(customerId: string, o: FindOptions): (q: TicketQuery)
    ensures q.filter.customerId == customerId
    ensures q.filter.status == (if Present(o.status) then o.status else None)
    ensures q.filter.priority == (if Present(o.priority) then o.priority else None)
    ensures q.filter.assignedTo == (if Present(o.assignedTo) then o.assignedTo else None)
    ensures q.filter.userId == (if Present(o.userId) then o.userId else None)
    ensures q.filter.category == (if Present(o.category) then o.category else None)
    ensures q.limit == Paging.OrDefault(o.limit, DefaultLimit) && q.limit != 0
    ensures q.skip == (Paging.OrDefault(o.page, 1) - 1) * q.limit
    ensures o.page.None? || o.page == Some(0) ==> q.skip == 0
    ensures q.sort == (if Present(o.sort) then o.sort.value else DefaultSort)
  {
    var page := Paging.OrDefault(o.page, 1);
    var limit := Paging.OrDefault(o.limit, DefaultLimit);
    TicketQuery(
      TicketFilter(customerId, Truthy(o.status), Truthy(o.priority), Truthy(o.assignedTo), Truthy(o.userId),
                   Truthy(o.category)),
      Paging.Skip(page, limit), limit,
      if Present(o.sort) then o.sort.value else DefaultSort)
  }

  /** The filter's own conditions, without the soft-delete hook. */
  predicate FilterMatches(f: TicketFilter, t: TicketRecord) {
    && t.customerId == f.customerId
    && (f.status.Some? ==> StatusName(t.status) == f.status.value)
    && (f.priority.Some? ==> PriorityName(t.priority) == f.priority.value)
    && (f.assignedTo.Some? ==> t.assignedTo == f.assignedTo)
    && (f.userId.Some? ==> t.userId == f.userId.value)
    && (f.category.Some? ==> t.category == f.category.value)
  }

  /** `Ticket.find(filter)`: what the filter and the pre-find hook let
      through, in storage order, before sorting and paging. */
  function Select(db: seq<TicketRecord>, f: TicketFilter): (r: seq<TicketRecord>)
    ensures forall t :: t in r <==> t in db && FilterMatches(f, t) && t.deletedAt.None?
  {
    Lists.Filter(db, (t: TicketRecord) => FilterMatches(f, t) && FindMatches(Unmentioned, t.deletedAt))
  }

  /** A tenant's listing never shows another tenant's ticket nor a deleted one. */
  lemma FindByTenantIsolated(db: seq<TicketRecord>, customerId: string, o: FindOptions, t: TicketRecord)
    ensures t in Select(db, FindByTenant(customerId, o).filter) ==> t.customerId == customerId && t.deletedAt.None?
    ensures t in db && t.customerId == customerId && t.deletedAt.None? && !Present(o.status) && !Present(o.priority)
            && !Present(o.assignedTo) && !Present(o.userId) && !Present(o.category)
            ==> t in Select(db, FindByTenant(customerId, o).filter)
  {
  }

  /** `countByTenant` as written: `countDocuments` is not a find, so the
      soft-delete hook does not run and deleted tickets are counted. */
  function CountByTenantAsWritten(db: seq<TicketRecord>, f: TicketFilter): (n: nat)
    ensures n == |Lists.Filter(db, (t: TicketRecord) => FilterMatches(f, t))|
  {
    Lists.CountIsFilterLength(db, (t: TicketRecord) => FilterMatches(f, t));
    Lists.Count(db, (t: TicketRecord) => FilterMatches(f, t))
  }

  /** A tenant with one deleted ticket: the listing is empty, the count says 1. */
  lemma CountIncludesDeletedAsWritten()
    ensures var t := TicketRecord("t1", "acme", "u1", "T", "D", Open, Low, "C", None, None, Some(5), 0, 0);
            var f := TicketFilter("acme", None, None, None, None, None);
            CountByTenantAsWritten([t], f) == 1 && Select([t], f) == []
  {
    var t := TicketRecord("t1", "acme", "u1", "T", "D", Open, Low, "C", None, None, Some(5), 0, 0);
    var f := TicketFilter("acme", None, None, None, None, None);
    assert [t][1..] == [];
  }

  /** `countByTenant` with the soft-delete condition added, as every find has. */
  function CountByTenant(db: seq<TicketRecord>, f: TicketFilter): (n: nat)
    ensures n <= |db|
  {
    Lists.Count(db, (t: TicketRecord) => FilterMatches(f, t) && FindMatches(Unmentioned, t.deletedAt))
  }

  /** The corrected count is exactly the number of tickets the same filter lists. */
  lemma CountMatchesListing(db: seq<TicketRecord>, f: TicketFilter)
    ensures CountByTenant(db, f) == |Select(db, f)|
  {
    Lists.CountIsFilterLength(db, (t: TicketRecord) => FilterMatches(f, t) && FindMatches(Unmentioned, t.deletedAt));
  }

  /** `findOne({ _id, customerId })`: the live ticket with that id, in that tenant. */
  function FindScoped(db: seq<TicketRecord>, id: string, customerId: string): (r: Option<TicketRecord>)
    ensures r.Some? ==> r.value in db && r.value.id == id && r.value.customerId == customerId && r.value.deletedAt.None?
    ensures r.None? <==> forall t :: t in db && t.id == id && t.customerId == customerId ==> t.deletedAt.Some?
  {
    Lists.FindFirst(db, (t: TicketRecord) => t.id == id && t.customerId == customerId && FindMatches(Unmentioned, t.deletedAt))
  }

  /** `findById(id)`: the live ticket with that id, in any tenant. */
  function FindById(db: seq<TicketRecord>, id: string): (r: Option<TicketRecord>)
    ensures r.Some? ==> r.value in db && r.value.id == id && r.value.deletedAt.None?
    ensures r.None? <==> forall t :: t in db && t.id == id ==> t.deletedAt.Some?
  {
    Lists.FindFirst(db, (t: TicketRecord) => t.id == id && FindMatches(Unmentioned, t.deletedAt))
  }

  /** `ticket.save()` on a loaded ticket: the stored copy with that id is replaced. */
  function Save(db: seq<TicketRecord>, t: TicketRecord): (r: seq<TicketRecord>)
    ensures |r| == |db|
    ensures forall i :: 0 <= i < |db| ==> r[i] == (if db[i].id == t.id then t else db[i])
  {
    Lists.ReplaceById(db, (x: TicketRecord) => x.id, t.id, t)
  }

  // ------------------------------------------------------------ instance methods

  /** `updateStatus(status, assignedTo?)`: the status always, the assignee only
      when one is given; nothing else changes. */
  function UpdateStatus(t: TicketRecord, status: TicketStatus, assignedTo: Option<string>): (r: TicketRecord)
    ensures r.status == status
    ensures r.assignedTo == (if Present(assignedTo) then assignedTo else t.assignedTo)
    ensures r.(status := t.status, assignedTo := t.assignedTo) == t
  {
    t.(status := status, assignedTo := if Present(assignedTo) then assignedTo else t.assignedTo)
  }

  /** Applying the same status update twice is applying it once. */
  lemma UpdateStatusIdempotent(t: TicketRecord, status: TicketStatus, assignedTo: Option<string>)
    ensures UpdateStatus(UpdateStatus(t, status, assignedTo), status, assignedTo) == UpdateStatus(t, status, assignedTo)
  {
  }

  /** `assignTo(userId)`: only the assignee changes. */
  function AssignTo(t: TicketRecord, userId: string): (r: TicketRecord)
    ensures r.assignedTo == Some(userId)
    ensures r.(assignedTo := t.assignedTo) == t
  {
    t.(assignedTo := Some(userId))
  }

  // ------------------------------------------------------------------ virtuals

  /** `isOverdue`: still Open and created more than seven days before now. */
  predicate IsOverdue(t: TicketRecord, nowMs: int) {
    t.status == Open && t.createdAt < nowMs - OverdueDays * DayMs
  }

  /** `timeSinceCreation`: the whole days elapsed since creation, rounded down
      (also for a creation time in the future). */
  function TimeSinceCreation(t: TicketRecord, nowMs: int): (days: int)
    ensures days * DayMs <= nowMs - t.createdAt < days * DayMs + DayMs
  {
    var diff := nowMs - t.createdAt;
    assert diff == (diff / DayMs) * DayMs + diff % DayMs;
    diff / DayMs
  }

  /** An overdue ticket is at least seven days old; an open ticket at least
      eight days old is overdue. */
  lemma OverdueAgreesWithAge(t: TicketRecord, nowMs: int)
    ensures IsOverdue(t, nowMs) ==> TimeSinceCreation(t, nowMs) >= OverdueDays
    ensures t.status == Open && TimeSinceCreation(t, nowMs) >= OverdueDays + 1 ==> IsOverdue(t, nowMs)
  {
    var d := TimeSinceCreation(t, nowMs);
    if d >= OverdueDays + 1 {
      assert d * DayMs >= (OverdueDays + 1) * DayMs;
    }
  }
}

=== FILE: ticket_routes.dfy ===
/** The ticket router: list, create, read, update and soft-delete, all scoped
    to the tenant that `authenticate` attached to the request. Each handler
    is a function from the request context, the request's fields and the
    ticket collection to the reply and the collection afterwards. */
module TicketRoutes {
  import opened Common
  import opened Types
  import Paging
  import TicketModel
  import Lists

  const AuthenticationRequired: string := "Authentication required"
  const ValidationFailed: string := "Validation failed"
  const InternalError: string := "Internal server error"
  const TicketNotFound: string := "Ticket not found"

  /** A reply together with the ticket collection afterwards. */
  datatype Outcome<+T> = Outcome(reply: Reply<T>, tickets: seq<TicketModel.TicketRecord>)

  /** What express-validator sees of an optional body field: `undefined`
      reads as the empty string. */
  function Raw(field: Option<string>): string {
    field.GetOr("")
  }

  // ------------------------------------------------------------------- list

  /** The query string of `GET /api/tickets`; page and limit are what
      `parseInt` made of them. */
  datatype ListQuery = ListQuery(
    page: Option<int>, limit: Option<int>, status: Option<string>, priority: Option<string>,
    category: Option<string>, assignedTo: Option<string>)

  /** The tickets `GET /api/tickets` lists: the tenant's live tickets with
      the requested status, priority, category and assignee, each filter
      applying only when its text is non-empty. */
  predicate ListedTicket(customerId: string, q: ListQuery, t: TicketModel.TicketRecord) {
    && t.customerId == customerId && t.deletedAt.None?
    && (Present(q.status) ==> StatusName(t.status) == q.status.value)
    && (Present(q.priority) ==> PriorityName(t.priority) == q.priority.value)
    && (Present(q.category) ==> t.category == q.category.value)
    && (Present(q.assignedTo) ==> t.assignedTo == q.assignedTo)
  }

  /** `GET /api/tickets`: the tenant's live tickets matching the given
      filters, with page 1 and limit 10 by default and a total that counts
      the same tickets the listing shows. An assignee that is not an
      ObjectId fails the cast of the `assignedTo` path, and a negative skip
      is refused by the database: both are 500. */
  function ListTickets(ctx: RequestContext, q: ListQuery, db: seq<TicketModel.TicketRecord>)
    : (r: Reply<Paging.Listing<TicketModel.TicketRecord>>)
    ensures !Present(ctx.customerId) ==> r == Error(401, AuthenticationRequired)
    ensures Present(ctx.customerId) && Present(q.assignedTo) && !IsObjectId(q.assignedTo.value) ==>
      r == Error(500, InternalError)
    ensures r.Success? <==>
      && Present(ctx.customerId)
      && (Present(q.assignedTo) ==> IsObjectId(q.assignedTo.value))
      && Paging.Skip(Paging.OrDefault(q.page, 1), Paging.OrDefault(q.limit, TicketModel.DefaultLimit)) >= 0
    ensures r.Error? ==> r.status in {401, 500}
    ensures r.Success? ==>
      && r.status == 200
      && r.data.page == Paging.OrDefault(q.page, 1)
      && r.data.limit == Paging.OrDefault(q.limit, TicketModel.DefaultLimit)
      && r.data.skip == (r.data.page - 1) * r.data.limit
      && (forall t :: t in r.data.matching <==> t in db && ListedTicket(ctx.customerId.value, q, t))
      && r.data.total == |r.data.matching|
      && (r.data.limit > 0 ==> r.data.totalPages * r.data.limit >= r.data.total && r.data.totalPages >= 0)
  {
    if !Present(ctx.customerId) then Error(401, AuthenticationRequired)
    else if Present(q.assignedTo) && !IsObjectId(q.assignedTo.value) then Error(500, InternalError)
    else
      var query := TicketModel.FindByTenant(ctx.customerId.value,
        TicketModel.FindOptions(q.status, q.priority, q.assignedTo, None, q.category, q.page, q.limit, Some("-createdAt")));
      if query.skip < 0 then Error(500, InternalError)
      else
        var matching := TicketModel.Select(db, query.filter);
        var total := TicketModel.CountByTenant(db, query.filter);
        TicketModel.CountMatchesListing(db, query.filter);
        var page := Paging.OrDefault(q.page, 1);
        Success(200, Paging.Listing(matching, query.skip, page, query.limit, total, Paging.TotalPages(total, query.limit)))
  }

  /** Without filters, the listing is exactly the tenant's live tickets, so
      a ticket of another tenant or a deleted one never shows. */
  lemma ListingIsTenantsLiveTickets(ctx: RequestContext, page: Option<int>, limit: Option<int>,
                                    db: seq<TicketModel.TicketRecord>, t: TicketModel.TicketRecord)
    requires ListTickets(ctx, ListQuery(page, limit, None, None, None, None), db).Success?
    ensures t in ListTickets(ctx, ListQuery(page, limit, None, None, None, None), db).data.matching
            <==> t in db && t.customerId == ctx.customerId.value && t.deletedAt.None?
  {
  }

  // ----------------------------------------------------------------- create

  /** The body of `POST /api/tickets`. */
  datatype CreateBody = CreateBody(title: Option<string>, description: Option<string>,
                                   priority: Option<string>, category: Option<string>)

  /** The create validators as written: each length is checked on the text
      before the `.trim()` sanitizer runs; the priority must name a level. */
  predicate ValidCreateAsWritten(b: CreateBody) {
    && 1 <= |Raw(b.title)| <= TicketModel.TitleMaxLength
    && 1 <= |Raw(b.description)| <= TicketModel.DescriptionMaxLength
    && ParsePriority(Raw(b.priority)).Some?
    && 1 <= |Raw(b.category)| <= TicketModel.CategoryMaxLength
  }

  /** The create validators with each sanitizer run before its length check,
      so the bounds apply to the text that is stored. */
  predicate ValidCreate(b: CreateBody) {
    && 1 <= |Trim(Raw(b.title))| <= TicketModel.TitleMaxLength
    && 1 <= |Trim(Raw(b.description))| <= TicketModel.DescriptionMaxLength
    && ParsePriority(Raw(b.priority)).Some?
    && 1 <= |Trim(Raw(b.category))| <= TicketModel.CategoryMaxLength
  }

  /** The handler after validation: the tenant and the author come from the
      request, the status is "Open", and a save the schema refuses is a 500.
      `id` is the ObjectId the new document receives. */
  function CreateValidated(ctx: RequestContext, b: CreateBody, db: seq<TicketModel.TicketRecord>, id: string, nowMs: int)
    : (r: Outcome<TicketModel.TicketRecord>)
    ensures r.reply.Error? ==> r.tickets == db
    ensures r.reply.Success? ==>
      && r.reply.status == 201 && r.tickets == db + [r.reply.data]
      && TicketModel.SchemaValid(r.reply.data)
      && ctx.customerId.Some? && ctx.user.Some?
      && r.reply.data.customerId == ctx.customerId.value && r.reply.data.userId == ctx.user.value.userId
      && r.reply.data.status == Open && r.reply.data.id == id
  {
    if !Present(ctx.customerId) || ctx.user.None? || ctx.user.value.userId == "" then
      Outcome(Error(401, AuthenticationRequired), db)
    else
      // The sanitizers' trim and the schema's trim amount to one trim
      // (`TrimIdempotent`), so the raw texts are handed to the schema.
      var input := TicketModel.NewTicket(ctx.customerId.value, ctx.user.value.userId,
        Raw(b.title), Raw(b.description), Some("Open"), b.priority, Raw(b.category));
      match TicketModel.Create(input, id, nowMs)
      case None => Outcome(Error(500, InternalError), db)
      case Some(t) => Outcome(Success(201, t), db + [t])
  }

  /** `POST /api/tickets` as written. */
  function CreateTicketAsWritten(ctx: RequestContext, b: CreateBody, db: seq<TicketModel.TicketRecord>, id: string, nowMs: int)
    : (r: Outcome<TicketModel.TicketRecord>)
    ensures !ValidCreateAsWritten(b) ==> r == Outcome(Error(400, ValidationFailed), db)
    ensures ValidCreateAsWritten(b) ==> r == CreateValidated(ctx, b, db, id, nowMs)
  {
    if !ValidCreateAsWritten(b) then Outcome(Error(400, ValidationFailed), db)
    else CreateValidated(ctx, b, db, id, nowMs)
  }

  /** A title of three spaces passes the validators as written, is trimmed to
      nothing and is then refused by the schema: the client gets a 500, not
      the 400 the validators exist to give. */
  lemma BlankTitleIs500AsWritten(ctx: RequestContext, b: CreateBody, db: seq<TicketModel.TicketRecord>, id: string, nowMs: int)
    requires Present(ctx.customerId) && ctx.user.Some? && ctx.user.value.userId != ""
    requires b.title == Some("   ") && ValidCreateAsWritten(b)
    ensures CreateTicketAsWritten(ctx, b, db, id, nowMs) == Outcome(Error(500, InternalError), db)
  {
    assert TrimStart("   ") == [];
    assert Trim(Raw(b.title)) == [];
  }

  /** `POST /api/tickets` with the bounds checked after trimming. */
  function CreateTicket(ctx: RequestContext, b: CreateBody, db: seq<TicketModel.TicketRecord>, id: string, nowMs: int)
    : (r: Outcome<TicketModel.TicketRecord>)
    ensures !ValidCreate(b) ==> r == Outcome(Error(400, ValidationFailed), db)
    ensures ValidCreate(b) ==> r == CreateValidated(ctx, b, db, id, nowMs)
  {
    if !ValidCreate(b) then Outcome(Error(400, ValidationFailed), db)
    else CreateValidated(ctx, b, db, id, nowMs)
  }

  /** With the bounds checked on the trimmed text, a body the validators
      accept is always stored for an authenticated user: the schema never
      refuses what validation let through. */
  lemma ValidatedCreateIsStored(ctx: RequestContext, b: CreateBody, db: seq<TicketModel.TicketRecord>, id: string, nowMs: int)
    requires ValidCreate(b)
    requires Present(ctx.customerId) && ctx.user.Some? && IsObjectId(ctx.user.value.userId)
    ensures var r := CreateTicket(ctx, b, db, id, nowMs);
      r.reply.Success? && r.reply.status == 201 && Some(r.reply.data.priority) == ParsePriority(Raw(b.priority))
  {
    var input := TicketModel.NewTicket(ctx.customerId.value, ctx.user.value.userId,
      Raw(b.title), Raw(b.description), Some("Open"), b.priority, Raw(b.category));
    PriorityGiven(b.priority);
    assert ParseStatus("Open") == Some(Open);
    TicketModel.CreateAccepts(input, id, nowMs);
  }

  /** A priority the validator accepts was present in the body. */
  lemma PriorityGiven(p: Option<string>)
    requires ParsePriority(Raw(p)).Some?
    ensures p.Some? && TicketModel.PriorityOrDefault(p) == ParsePriority(Raw(p))
  {
  }

  // ------------------------------------------------------------------- read

  /** `GET /api/tickets/:id`: the tenant's live ticket with that id. An id
      that is not an ObjectId fails to cast (500); no such ticket in this
      tenant is a 404, whether it is deleted, missing or another tenant's. */
  function GetTicket(ctx: RequestContext, id: string, db: seq<TicketModel.TicketRecord>): (r: Reply<TicketModel.TicketRecord>)
    ensures !Present(ctx.customerId) ==> r == Error(401, AuthenticationRequired)
    ensures Present(ctx.customerId) && !IsObjectId(id) ==> r == Error(500, InternalError)
    ensures r.Success? <==>
      Present(ctx.customerId) && IsObjectId(id)
      && exists t :: t in db && t.id == id && t.customerId == ctx.customerId.value && t.deletedAt.None?
    ensures r.Success? ==> r.status == 200 && r.data in db && r.data.id == id
                           && r.data.customerId == ctx.customerId.value && r.data.deletedAt.None?
    ensures r.Error? && r.status == 404 ==> r.message == TicketNotFound
  {
    if !Present(ctx.customerId) then Error(401, AuthenticationRequired)
    else if !IsObjectId(id) then Error(500, InternalError)
    else match TicketModel.FindScoped(db, id, ctx.customerId.value)
      case None => Error(404, TicketNotFound)
      case Some(t) => Success(200, t)
  }

  // ----------------------------------------------------------------- update

  /** The body of `PUT /api/tickets/:id`; every field is optional. */
  datatype UpdateBody = UpdateBody(
    title: Option<string>, description: Option<string>, status: Option<string>,
    priority: Option<string>, category: Option<string>, assignedTo: Option<string>)

  /** The update validators: a field that is present (even as "") is checked,
      lengths before trimming; an absent field is skipped. */
  predicate ValidUpdate(b: UpdateBody) {
    && (b.title.Some? ==> 1 <= |b.title.value| <= TicketModel.TitleMaxLength)
    && (b.description.Some? ==> 1 <= |b.description.value| <= TicketModel.DescriptionMaxLength)
    && (b.status.Some? ==> ParseStatus(b.status.value).Some?)
    && (b.priority.Some? ==> ParsePriority(b.priority.value).Some?)
    && (b.category.Some? ==> 1 <= |b.category.value| <= TicketModel.CategoryMaxLength)
    && (b.assignedTo.Some? ==> IsObjectId(b.assignedTo.value))
  }

  /** The `if (field) ticket.field = field` assignments: each truthy field
      replaces the stored one; absent fields, and text fields that trimmed
      to nothing, leave it as it was. */
  function Merge(t: TicketModel.TicketRecord, b: UpdateBody): (r: TicketModel.TicketRecord)
    requires ValidUpdate(b)
    ensures r.title == (if Trimmed(b.title).Some? then Trim(b.title.value) else t.title)
    ensures r.description == (if Trimmed(b.description).Some? then Trim(b.description.value) else t.description)
    ensures r.category == (if Trimmed(b.category).Some? then Trim(b.category.value) else t.category)
    ensures b.status.Some? ==> StatusName(r.status) == b.status.value
    ensures b.status.None? ==> r.status == t.status
    ensures b.priority.Some? ==> PriorityName(r.priority) == b.priority.value
    ensures b.priority.None? ==> r.priority == t.priority
    ensures r.assignedTo == (if b.assignedTo.Some? then b.assignedTo else t.assignedTo)
    ensures r.(title := t.title, description := t.description, status := t.status, priority := t.priority,
               category := t.category, assignedTo := t.assignedTo) == t
  {
    EnumerationsRoundTrip(User, t.status, t.priority, Login);
    var status := if b.status.Some? then ParseStatus(b.status.value).value else t.status;
    var priority := if b.priority.Some? then ParsePriority(b.priority.value).value else t.priority;
    t.(title := Trimmed(b.title).GetOr(t.title),
       description := Trimmed(b.description).GetOr(t.description),
       status := status, priority := priority,
       category := Trimmed(b.category).GetOr(t.category),
       assignedTo := if b.assignedTo.Some? then b.assignedTo else t.assignedTo)
  }

  /** Applying an update twice is applying it once. */
  lemma MergeIdempotent(t: TicketModel.TicketRecord, b: UpdateBody)
    requires ValidUpdate(b)
    ensures Merge(Merge(t, b), b) == Merge(t, b)
  {
  }

  /** A validated update keeps a valid ticket valid, so its save never fails
      on the schema. */
  lemma MergeKeepsSchema(t: TicketModel.TicketRecord, b: UpdateBody)
    requires ValidUpdate(b) && TicketModel.SchemaValid(t)
    ensures TicketModel.SchemaValid(Merge(t, b))
  {
  }

  /** `PUT /api/tickets/:id`: validation, then the scoped lookup, then the
      merge and the save. Only the ticket with that id changes. */
  function UpdateTicket(ctx: RequestContext, id: string, b: UpdateBody, db: seq<TicketModel.TicketRecord>)
    : (r: Outcome<TicketModel.TicketRecord>)
    ensures !ValidUpdate(b) ==> r == Outcome(Error(400, ValidationFailed), db)
    ensures ValidUpdate(b) && GetTicket(ctx, id, db).Error? ==>
      r == Outcome(Error(GetTicket(ctx, id, db).status, GetTicket(ctx, id, db).message), db)
    ensures r.reply.Error? && r.reply.status != 500 ==> r.tickets == db
    ensures r.reply.Success? ==>
      && ValidUpdate(b) && GetTicket(ctx, id, db).Success?
      && r.reply == Success(200, Merge(GetTicket(ctx, id, db).data, b))
      && r.reply.data.customerId == ctx.customerId.value
      && |r.tickets| == |db|
      && forall i :: 0 <= i < |db| ==> r.tickets[i] == (if db[i].id == id then r.reply.data else db[i])
  {
    if !ValidUpdate(b) then Outcome(Error(400, ValidationFailed), db)
    else match GetTicket(ctx, id, db)
      case Error(s, m) => Outcome(Error(s, m), db)
      case Success(_, t) =>
        var t' := Merge(t, b);
        if !TicketModel.SchemaValid(t') then Outcome(Error(500, InternalError), db)
        else Outcome(Success(200, t'), TicketModel.Save(db, t'))
  }

  // ----------------------------------------------------------------- delete

  /** `DELETE /api/tickets/:id`: the scoped lookup, then the record is kept
      with `deletedAt` set to now. */
  function DeleteTicket(ctx: RequestContext, id: string, db: seq<TicketModel.TicketRecord>, nowMs: int): (r: Outcome<()>)
    ensures GetTicket(ctx, id, db).Error? ==>
      r == Outcome(Error(GetTicket(ctx, id, db).status, GetTicket(ctx, id, db).message), db)
    ensures r.reply.Success? <==> GetTicket(ctx, id, db).Success?
    ensures r.reply.Success? ==>
      && r.reply.status == 200 && |r.tickets| == |db|
      && forall i :: 0 <= i < |db| ==>
           r.tickets[i] == (if db[i].id == id then GetTicket(ctx, id, db).data.(deletedAt := Some(nowMs)) else db[i])
  {
    match GetTicket(ctx, id, db)
    case Error(s, m) => Outcome(Error(s, m), db)
    case Success(_, t) => Outcome(Success(200, ()), TicketModel.Save(db, t.(deletedAt := Some(nowMs))))
  }

  /** After a delete the ticket is still stored but no longer found: reading
      it is a 404 and it leaves the tenant's listing. */
  lemma DeletedTicketIsHidden(ctx: RequestContext, id: string, db: seq<TicketModel.TicketRecord>, nowMs: int)
    requires DeleteTicket(ctx, id, db, nowMs).reply.Success?
    ensures var after := DeleteTicket(ctx, id, db, nowMs).tickets;
      && GetTicket(ctx, id, after) == Error(404, TicketNotFound)
      && (exists t :: t in after && t.id == id && t.deletedAt == Some(nowMs))
      && forall t :: t in TicketModel.Select(after, TicketModel.TicketFilter(ctx.customerId.value, None, None, None, None, None)) ==>
           t.id != id
  {
    var after := DeleteTicket(ctx, id, db, nowMs).tickets;
    var t := GetTicket(ctx, id, db).data;
    var k :| 0 <= k < |db| && db[k] == t;
    assert after[k].id == id;
    forall u | u in after && u.id == id
      ensures u.deletedAt.Some?
    {
      var j :| 0 <= j < |after| && after[j] == u;
    }
  }

  /** Read, update and delete act on the caller's tenant only: whatever the
      id, a success is about a ticket of the caller's tenant, and the
      tickets with any other id are untouched. */
  lemma HandlersStayInTenant(ctx: RequestContext, id: string, b: UpdateBody, db: seq<TicketModel.TicketRecord>, nowMs: int)
    ensures GetTicket(ctx, id, db).Success? ==> GetTicket(ctx, id, db).data.customerId == ctx.customerId.value
    ensures UpdateTicket(ctx, id, b, db).reply.Success? ==>
      UpdateTicket(ctx, id, b, db).reply.data.customerId == ctx.customerId.value
    ensures forall i :: 0 <= i < |db| && db[i].id != id ==>
      && (UpdateTicket(ctx, id, b, db).tickets[i] == db[i])
      && (DeleteTicket(ctx, id, db, nowMs).tickets[i] == db[i])
  {
  }
}

=== FILE: ticket_store.dfy ===
/** The support-tickets app's `useTicketStore`: the ticket list with its
    paging, the ticket being viewed, the filters of the last successful
    fetch, and the loading and error flags. Each asynchronous action is a
    function of the state before it and of how its API call settled. */
module TicketStore {
  import opened Common
  import Lists
  import opened StoreActions

  /** A ticket as the app receives it (comments and attachments are not modelled). */
  datatype Ticket = Ticket(id: string, title: string, description: string, status: string,
                           priority: string, category: string, assignedTo: Option<string>)

  datatype Filters = Filters(status: Option<string>, priority: Option<string>, category: Option<string>,
                             assignedTo: Option<string>, search: Option<string>, page: Option<int>, limit: Option<int>)

  const NoFilters: Filters := Filters(None, None, None, None, None, None, None)

  /** What `getTickets` answers. */
  datatype TicketPage = TicketPage(tickets: seq<Ticket>, total: int, page: int, totalPages: int)

  datatype State = State(tickets: seq<Ticket>, currentTicket: Option<Ticket>, loading: bool, error: Option<string>,
                         total: int, page: int, totalPages: int, filters: Filters)

  const Initial: State := State([], None, false, None, 0, 1, 1, NoFilters)

  function Key(t: Ticket): string { t.id }

  /** Only the two flags differ: the data the store holds is the same. */
  predicate SameData(s: State, r: State) {
    r.(loading := s.loading, error := s.error) == s
  }

  /** The catch branch of an action: the error text, loading off, and the
      data as it was before the action. */
  predicate FailedWith(s: State, r: State, serverMessage: Option<string>, fallback: string) {
    SameData(s, r) && !r.loading && r.error == Some(ErrorText(serverMessage, fallback))
  }

  /** `set({ loading: true, error: null })`, the first step of every action. */
  function Begin(s: State): State {
    s.(loading := true, error := None)
  }

  function Fail(s: State, serverMessage: Option<string>, fallback: string): (r: State)
    ensures FailedWith(s, r, serverMessage, fallback)
  {
    Begin(s).(error := Some(ErrorText(serverMessage, fallback)), loading := false)
  }

  /** `fetchTickets(filters)`: the page and its counts, and the filters,
      only when the call answers. */
  function FetchTickets(s: State, filters: Filters, result: Api<TicketPage>): (r: State)
    ensures result.Failed? ==> FailedWith(s, r, result.serverMessage, "Failed to fetch tickets")
    ensures result.Answered? ==>
      && r.tickets == result.value.tickets && r.filters == filters
      && r.total == result.value.total && r.page == result.value.page && r.totalPages == result.value.totalPages
      && r.currentTicket == s.currentTicket && !r.loading && r.error.None?
  {
    match result
    case Failed(m) => Fail(s, m, "Failed to fetch tickets")
    case Answered(p) =>
      Begin(s).(tickets := p.tickets, total := p.total, page := p.page, totalPages := p.totalPages,
                filters := filters, loading := false)
  }

  /** `fetchTicket(id)`: the ticket becomes the current one; the list stays. */
  function FetchTicket(s: State, id: string, result: Api<Ticket>): (r: State)
    ensures result.Failed? ==> FailedWith(s, r, result.serverMessage, "Failed to fetch ticket")
    ensures result.Answered? ==>
      r.currentTicket == Some(result.value) && r.tickets == s.tickets && r.filters == s.filters
      && !r.loading && r.error.None?
    ensures result.Answered? ==> r.(currentTicket := s.currentTicket, loading := s.loading, error := s.error) == s
  {
    match result
    case Failed(m) => Fail(s, m, "Failed to fetch ticket")
    case Answered(t) => Begin(s).(currentTicket := Some(t), loading := false)
  }

  /** `createTicket(data)`: the created ticket goes in front of the list. */
  function CreateTicket(s: State, result: Api<Ticket>): (r: State)
    ensures result.Failed? ==> FailedWith(s, r, result.serverMessage, "Failed to create ticket")
    ensures result.Answered? ==>
      && |r.tickets| == |s.tickets| + 1 && r.tickets[0] == result.value && r.tickets[1..] == s.tickets
      && r.currentTicket == s.currentTicket && !r.loading && r.error.None?
    ensures result.Answered? ==> r.(tickets := s.tickets, loading := s.loading, error := s.error) == s
  {
    match result
    case Failed(m) => Fail(s, m, "Failed to create ticket")
    case Answered(t) => Begin(s).(tickets := Lists.Prepend(t, s.tickets), loading := false)
  }

  /** `updateTicket(id, data)`: every listed ticket with the id becomes the
      server's copy, the others stay where they are; the current ticket
      changes only when it has the id. */
  function UpdateTicket(s: State, id: string, result: Api<Ticket>): (r: State)
    ensures result.Failed? ==> FailedWith(s, r, result.serverMessage, "Failed to update ticket")
    ensures result.Answered? ==>
      && |r.tickets| == |s.tickets|
      && (forall i :: 0 <= i < |s.tickets| ==> r.tickets[i] == (if s.tickets[i].id == id then result.value else s.tickets[i]))
      && (r.currentTicket != s.currentTicket ==> s.currentTicket.Some? && s.currentTicket.value.id == id)
      && (s.currentTicket.Some? && s.currentTicket.value.id == id ==> r.currentTicket == Some(result.value))
      && !r.loading && r.error.None?
    ensures result.Answered? ==>
      r.(tickets := s.tickets, currentTicket := s.currentTicket, loading := s.loading, error := s.error) == s
  {
    match result
    case Failed(m) => Fail(s, m, "Failed to update ticket")
    case Answered(t) =>
      Begin(s).(tickets := Lists.ReplaceById(s.tickets, Key, id, t),
                currentTicket := CurrentAfterUpdate(s.currentTicket, Key, id, t), loading := false)
  }

  /** `deleteTicket(id)`: every ticket with the id leaves the list, every
      other stays; the current ticket is cleared exactly when it has the id. */
  function DeleteTicket(s: State, id: string, result: Api<Ack>): (r: State)
    ensures result.Failed? ==> FailedWith(s, r, result.serverMessage, "Failed to delete ticket")
    ensures result.Answered? ==>
      && (forall t :: t in r.tickets <==> t in s.tickets && t.id != id)
      && Lists.IsSubsequence(r.tickets, s.tickets)
      && (forall t :: multiset(r.tickets)[t] == if t.id != id then multiset(s.tickets)[t] else 0)
      && (r.currentTicket.None? <==> s.currentTicket.None? || s.currentTicket.value.id == id)
      && (r.currentTicket.Some? ==> r.currentTicket == s.currentTicket)
      && !r.loading && r.error.None?
    ensures result.Answered? ==>
      r.(tickets := s.tickets, currentTicket := s.currentTicket, loading := s.loading, error := s.error) == s
  {
    match result
    case Failed(m) => Fail(s, m, "Failed to delete ticket")
    case Answered(_) =>
      Begin(s).(tickets := Lists.RemoveById(s.tickets, Key, id),
                currentTicket := CurrentAfterRemove(s.currentTicket, Key, id), loading := false)
  }

  /** `clearError()`: only the error changes. */
  function ClearError(s: State): (r: State)
    ensures r.error.None?
    ensures r.(error := s.error) == s
  {
    s.(error := None)
  }

  /** `setFilters(filters)`: only the filters change; no fetch is made. */
  function SetFilters(s: State, filters: Filters): (r: State)
    ensures r.filters == filters && r.(filters := s.filters) == s
  {
    s.(filters := filters)
  }

  /** `setCurrentTicket(ticket)` */
  function SetCurrentTicket(s: State, t: Option<Ticket>): (r: State)
    ensures r.currentTicket == t && r.(currentTicket := s.currentTicket) == s
  {
    s.(currentTicket := t)
  }

  /** Deleting a ticket just created, whose id was new to the list, leaves
      the list as it was before the creation. */
  lemma CreateThenDeleteRestores(s: State, t: Ticket)
    requires forall i :: 0 <= i < |s.tickets| ==> s.tickets[i].id != t.id
    ensures DeleteTicket(CreateTicket(s, Answered(t)), t.id, Answered(Ack)).tickets == s.tickets
  {
    PrependThenRemove(s.tickets, Key, t);
  }

  /** Receiving the same update twice is receiving it once. */
  lemma UpdateTicketIdempotent(s: State, id: string, t: Ticket)
    ensures UpdateTicket(UpdateTicket(s, id, Answered(t)), id, Answered(t)) == UpdateTicket(s, id, Answered(t))
  {
    Lists.ReplaceByIdIdempotent(s.tickets, Key, id, t);
    CurrentAfterUpdateIdempotent(s.currentTicket, Key, id, t);
  }

  /** Deleting after an update of the same id is deleting: the list and the
      current ticket end up as if the update had not happened. */
  lemma UpdateThenDelete(s: State, t: Ticket)
    ensures var r := DeleteTicket(UpdateTicket(s, t.id, Answered(t)), t.id, Answered(Ack));
      r == DeleteTicket(s, t.id, Answered(Ack))
  {
    ReplaceThenRemove(s.tickets, Key, t.id, t);
  }

  /** A failed action followed by `clearError` leaves the store as it was
      before the action, with no error showing, whatever the action was. */
  lemma FailureThenClearError(s: State, serverMessage: Option<string>, id: string, filters: Filters)
    requires !s.loading && s.error.None?
    ensures ClearError(FetchTickets(s, filters, Failed(serverMessage))) == s
    ensures ClearError(FetchTicket(s, id, Failed(serverMessage))) == s
    ensures ClearError(CreateTicket(s, Failed(serverMessage))) == s
    ensures ClearError(UpdateTicket(s, id, Failed(serverMessage))) == s
    ensures ClearError(DeleteTicket(s, id, Failed(serverMessage))) == s
  {
  }
}

=== FILE: types.dfy ===
/** The backend's shared type vocabulary: the three roles, the ticket status
    and priority enumerations, the ten audit actions, the JWT claim set and
    the request context that authentication fills in. Every enumeration has
    its wire name and a parser, and the two are inverse to each other. */
module Types {
  import opened Common

  datatype Role = Admin | User | SuperAdmin

  datatype TicketStatus = Open | InProgress | Resolved | Closed

  datatype TicketPriority = Low | Medium | High | Critical

  datatype AuditAction =
    | Login | Logout
    | TicketCreate | TicketUpdate | TicketDelete
    | UserCreate | UserUpdate
    | AdminAccess | WorkflowTrigger | WebhookReceived

  function RoleName(r: Role): string {
    match r
    case Admin => "Admin"
    case User => "User"
    case SuperAdmin => "SuperAdmin"
  }

  function ParseRole(s: string): (r: Option<Role>)
    ensures r.Some? ==> RoleName(r.value) == s
  {
    if s == "Admin" then Some(Admin)
    else if s == "User" then Some(User)
    else if s == "SuperAdmin" then Some(SuperAdmin)
    else None
  }

  function StatusName(s: TicketStatus): string {
    match s
    case Open => "Open"
    case InProgress => "InProgress"
    case Resolved => "Resolved"
    case Closed => "Closed"
  }

  function ParseStatus(s: string): (r: Option<TicketStatus>)
    ensures r.Some? ==> StatusName(r.value) == s
  {
    if s == "Open" then Some(Open)
    else if s == "InProgress" then Some(InProgress)
    else if s == "Resolved" then Some(Resolved)
    else if s == "Closed" then Some(Closed)
    else None
  }

  function PriorityName(p: TicketPriority): string {
    match p
    case Low => "Low"
    case Medium => "Medium"
    case High => "High"
    case Critical => "Critical"
  }

  function ParsePriority(s: string): (r: Option<TicketPriority>)
    ensures r.Some? ==> PriorityName(r.value) == s
  {
    if s == "Low" then Some(Low)
    else if s == "Medium" then Some(Medium)
    else if s == "High" then Some(High)
    else if s == "Critical" then Some(Critical)
    else None
  }

  function ActionName(a: AuditAction): string {
    match a
    case Login => "LOGIN"
    case Logout => "LOGOUT"
    case TicketCreate => "TICKET_CREATE"
    case TicketUpdate => "TICKET_UPDATE"
    case TicketDelete => "TICKET_DELETE"
    case UserCreate => "USER_CREATE"
    case UserUpdate => "USER_UPDATE"
    case AdminAccess => "ADMIN_ACCESS"
    case WorkflowTrigger => "WORKFLOW_TRIGGER"
    case WebhookReceived => "WEBHOOK_RECEIVED"
  }

  function ParseAction(s: string): (r: Option<AuditAction>)
    ensures r.Some? ==> ActionName(r.value) == s
  {
    if s == "LOGIN" then Some(Login)
    else if s == "LOGOUT" then Some(Logout)
    else if s == "TICKET_CREATE" then Some(TicketCreate)
    else if s == "TICKET_UPDATE" then Some(TicketUpdate)
    else if s == "TICKET_DELETE" then Some(TicketDelete)
    else if s == "USER_CREATE" then Some(UserCreate)
    else if s == "USER_UPDATE" then Some(UserUpdate)
    else if s == "ADMIN_ACCESS" then Some(AdminAccess)
    else if s == "WORKFLOW_TRIGGER" then Some(WorkflowTrigger)
    else if s == "WEBHOOK_RECEIVED" then Some(WebhookReceived)
    else None
  }

  /** Every role, status, priority and action is recognised by its own wire
      name, so each enumeration is exactly the list of names it prints. */
  lemma EnumerationsRoundTrip(r: Role, s: TicketStatus, p: TicketPriority, a: AuditAction)
    ensures ParseRole(RoleName(r)) == Some(r)
    ensures ParseStatus(StatusName(s)) == Some(s)
    ensures ParsePriority(PriorityName(p)) == Some(p)
    ensures ParseAction(ActionName(a)) == Some(a)
  {
  }

  /** A decoded JSON value, as far as `typeof` can tell them apart.
      JavaScript numbers are modelled by integers. */
  datatype Json = JUndefined | JNull | JBool(b: bool) | JNumber(n: int) | JString(s: string) | JObject

  /** The object a token verifier hands back, before anyone checked its shape. */
  datatype RawPayload = RawPayload(customerId: Json, role: Json, userId: Json, email: Json, iat: Json, exp: Json)

  /** The identity part of the claims: what the backend signs into a token. */
  datatype IdentityClaims = IdentityClaims(customerId: string, role: Role, userId: string, email: string)

  /** `JwtPayload`: the identity claims plus issued-at and expiry, in seconds. */
  datatype Claims = Claims(customerId: string, role: Role, userId: string, email: string, iat: int, exp: int) {
    function Identity(): IdentityClaims {
      IdentityClaims(customerId, role, userId, email)
    }
  }

  /** The JSON object a well-formed claim set decodes to. */
  function ToRaw(c: Claims): RawPayload {
    RawPayload(JString(c.customerId), JString(RoleName(c.role)), JString(c.userId),
               JString(c.email), JNumber(c.iat), JNumber(c.exp))
  }

  /** `RequestWithUser`: both the principal and the request's tenant are
      optional, so a request that has not been authenticated yet is representable. */
  datatype RequestContext = RequestContext(user: Option<Claims>, customerId: Option<string>)

  const Unauthenticated: RequestContext := RequestContext(None, None)
}

=== FILE: user_model.dfy ===
/** The User model: schema defaults and bounds, email normalisation and the
    two unique indexes, the soft-delete find hook, the tenant-scoped finders,
    the `fullName` virtual and the `toJSON` output, as configured and as meant.
    The user collection is a sequence of records in storage order. */
module UserModel {
  import opened Common
  import opened Types
  import opened SoftDelete
  import Lists

  const NameMaxLength: int := 50
  const PasswordMinLength: int := 8

  datatype Profile = Profile(firstName: string, lastName: string, avatar: Option<string>)

  /** A stored user document; times are milliseconds since the epoch. */
  datatype UserRecord = UserRecord(
    id: string, customerId: string, email: string, password: string, role: Role,
    profile: Profile, isActive: bool, lastLogin: Option<int>, deletedAt: Option<int>,
    createdAt: int, updatedAt: int)

  /** The `trim` and `lowercase` setters of the email path: the stored
      address is the trimmed one, letter for letter up to case, in lower case. */
  function NormalizeEmail(email: string): (r: string)
    ensures Lower(r) == r
    ensures |r| <= |email|
    ensures |r| == |Trim(email)|
    ensures forall i :: 0 <= i < |r| ==> LowerChar(r[i]) == LowerChar(Trim(email)[i])
  {
    LowerIdempotent(Trim(email));
    Lower(Trim(email))
  }

  /** The fields a caller supplies when a user document is created. */
  datatype NewUser = NewUser(
    customerId: string, email: string, password: string, role: Option<Role>,
    profile: Profile, isActive: Option<bool>)

  /** A new document with the schema's defaults: role User, active, not
      deleted, never logged in; setters normalise email and trim the names. */
  function CreateRecord(input: NewUser, id: string, nowMs: int): (u: UserRecord)
    ensures u.role == (if input.role.Some? then input.role.value else User)
    ensures u.isActive == (if input.isActive.Some? then input.isActive.value else true)
    ensures u.deletedAt.None? && u.lastLogin.None?
    ensures u.email == NormalizeEmail(input.email) && u.customerId == input.customerId
    ensures u.id == id && u.createdAt == nowMs
  {
    UserRecord(id, input.customerId, NormalizeEmail(input.email), input.password,
               input.role.GetOr(User),
               Profile(Trim(input.profile.firstName), Trim(input.profile.lastName),
                       match input.profile.avatar case Some(a) => Some(Trim(a)) case None => None),
               input.isActive.GetOr(true), None, None, nowMs, nowMs)
  }

  /** `\w`: an ASCII letter, digit or underscore. */
  predicate IsWordChar(c: char) {
    ('a' <= c <= 'z') || ('A' <= c <= 'Z') || ('0' <= c <= '9') || c == '_'
  }

  predicate IsEmailSeparator(c: char) {
    c == '.' || c == '-'
  }

  /** `\w+([.-]?\w+)*`: runs of word characters, separated by single dots or hyphens. */
  predicate SeparatedWord(s: string) {
    && s != []
    && IsWordChar(s[0]) && IsWordChar(s[|s| - 1])
    && (forall k :: 0 <= k < |s| ==> IsWordChar(s[k]) || IsEmailSeparator(s[k]))
    && (forall k :: 0 <= k < |s| - 1 && IsEmailSeparator(s[k]) ==> IsWordChar(s[k + 1]))
  }

  /** The first position at or after `i` holding `c`, if any. */
  function FirstFrom(s: string, c: char, i: nat): (r: Option<nat>)
    requires i <= |s|
    ensures r.Some? ==> i <= r.value < |s| && s[r.value] == c
    ensures forall k :: i <= k < |s| && (r.None? || k < r.value) ==> s[k] != c
    decreases |s| - i
  {
    if i == |s| then None else if s[i] == c then Some(i) else FirstFrom(s, c, i + 1)
  }

  /** The last position before `n` holding `c`, if any. */
  function LastBefore(s: string, c: char, n: nat): (r: Option<nat>)
    requires n <= |s|
    ensures r.Some? ==> r.value < n && s[r.value] == c
    ensures forall k :: 0 <= k < n && (r.None? || r.value < k) ==> s[k] != c
  {
    if n == 0 then None else if s[n - 1] == c then Some(n - 1) else LastBefore(s, c, n - 1)
  }

  /** The email path's `match` pattern
      `^\w+([.-]?\w+)*@\w+([.-]?\w+)*(\.\w{2,3})+$`. A separated word
      followed by any number of `.xx`/`.xxx` pieces is again a separated
      word, so the pattern holds exactly when the text splits at an `@` and
      at a later dot into two separated words and a final piece of two or
      three word characters. Neither word holds an `@` and the final piece
      holds no dot, so the split is at the first `@` and the last dot. */
  predicate EmailPatternMatches(s: string) {
    var at, dot := FirstFrom(s, '@', 0), LastBefore(s, '.', |s|);
    && at.Some? && dot.Some? && at.value < dot.value
    && SeparatedWord(s[..at.value]) && SeparatedWord(s[at.value + 1..dot.value])
    && 2 <= |s| - dot.value - 1 <= 3 && (forall k :: dot.value < k < |s| ==> IsWordChar(s[k]))
  }

  /** The pattern read directly: some `@` and some later dot split the text
      into two separated words and a final piece of two or three word
      characters. */
  lemma EmailPatternSplits(s: string, i: nat, j: nat)
    requires i < j < |s| && s[i] == '@' && s[j] == '.'
    requires SeparatedWord(s[..i]) && SeparatedWord(s[i + 1..j])
    requires 2 <= |s| - j - 1 <= 3 && (forall k :: j < k < |s| ==> IsWordChar(s[k]))
    ensures EmailPatternMatches(s)
  {
    forall k | 0 <= k < i
      ensures s[k] != '@'
    {
      assert s[..i][k] == s[k];
    }
  }

  /** An address with a dotted local part, a hyphenated domain and a
      three-letter suffix passes the pattern. */
  lemma EmailPatternAccepts()
    ensures EmailPatternMatches("a.b@c-d.org")
  {
    var s := "a.b@c-d.org";
    assert s[..3] == "a.b" && s[4..7] == "c-d";
    EmailPatternSplits(s, 3, 7);
  }

  /** An address without a dotted suffix, and one whose last label is four
      letters long, fail the pattern. */
  lemma EmailPatternRefuses()
    ensures !EmailPatternMatches("a@b")
    ensures !EmailPatternMatches("ann@example.info")
  {
    var s := "ann@example.info";
    assert s[11] == '.' && s[12..] == "info";
    assert LastBefore(s, '.', |s|) == Some(11);
  }

  /** Schema validation: required paths present, the email matching its
      pattern, password of at least 8 characters, names of 1..50 characters. */
  predicate SchemaValid(u: UserRecord) {
    && u.customerId != ""
    && u.email != ""
    && EmailPatternMatches(u.email)
    && |u.password| >= PasswordMinLength
    && 1 <= |u.profile.firstName| <= NameMaxLength
    && 1 <= |u.profile.lastName| <= NameMaxLength
  }

  /** Why a write was refused: a unique index (reported by its key fields,
      as MongoDB's error 11000 does) or schema validation. */
  datatype WriteError = DuplicateKey(keyFields: seq<string>) | SchemaRejected

  /** The unique indexes on `_id` and `email` hold across the whole collection. */
  ghost predicate IndexesHold(db: seq<UserRecord>) {
    forall i, j :: 0 <= i < j < |db| ==> db[i].id != db[j].id && db[i].email != db[j].email
  }

  /** The compound `(customerId, email)` index. */
  ghost predicate TenantEmailUnique(db: seq<UserRecord>) {
    forall i, j :: 0 <= i < j < |db| && db[i].customerId == db[j].customerId ==> db[i].email != db[j].email
  }

  /** `new User(input).save()`: validation, then the unique indexes. */
  function Insert(db: seq<UserRecord>, input: NewUser, id: string, nowMs: int): (r: Result<seq<UserRecord>, WriteError>)
    ensures r.Ok? ==> r.value == db + [CreateRecord(input, id, nowMs)]
    ensures r.Ok? <==> SchemaValid(CreateRecord(input, id, nowMs))
                       && (forall v :: v in db ==> v.id != id && v.email != NormalizeEmail(input.email))
  {
    var u := CreateRecord(input, id, nowMs);
    if !SchemaValid(u) then Err(SchemaRejected)
    else if exists v :: v in db && v.id == id then Err(DuplicateKey(["_id"]))
    else if exists v :: v in db && v.email == u.email then Err(DuplicateKey(["email"]))
    else Ok(db + [u])
  }

  /** Inserting keeps both unique indexes, and email uniqueness across the
      collection implies it within every tenant. */
  lemma InsertKeepsIndexes(db: seq<UserRecord>, input: NewUser, id: string, nowMs: int)
    requires IndexesHold(db)
    requires Insert(db, input, id, nowMs).Ok?
    ensures IndexesHold(Insert(db, input, id, nowMs).value)
    ensures TenantEmailUnique(Insert(db, input, id, nowMs).value)
  {
    var db' := Insert(db, input, id, nowMs).value;
    forall i, j | 0 <= i < j < |db'|
      ensures db'[i].id != db'[j].id && db'[i].email != db'[j].email
    {
      if j == |db| {
        assert db'[i] == db[i] && db'[i] in db;
      } else {
        assert db'[i] == db[i] && db'[j] == db[j];
      }
    }
  }

  // ------------------------------------------------------------------ finds

  /** A user query: tenant, optional role and active filters, and what it says about deletedAt. */
  datatype UserQuery = UserQuery(customerId: Option<string>, role: Option<string>, isActive: Option<bool>, deletedAt: DeletedAtFilter)

  predicate QueryMatches(q: UserQuery, u: UserRecord) {
    && (q.customerId.Some? ==> u.customerId == q.customerId.value)
    && (q.role.Some? ==> RoleName(u.role) == q.role.value)
    && (q.isActive.Some? ==> u.isActive == q.isActive.value)
  }

  /** `User.find(query)`: the query's filters plus the soft-delete hook, in storage order. */
  function Find(db: seq<UserRecord>, q: UserQuery): (r: seq<UserRecord>)
    ensures forall u :: u in r <==> u in db && QueryMatches(q, u) && FindMatches(q.deletedAt, u.deletedAt)
    ensures q.deletedAt.Unmentioned? ==> forall u :: u in r ==> u.deletedAt.None?
  {
    Lists.Filter(db, (u: UserRecord) => QueryMatches(q, u) && FindMatches(q.deletedAt, u.deletedAt))
  }

  /** `User.findById(id)`: the first live user with that id. */
  function FindById(db: seq<UserRecord>, id: string): (r: Option<UserRecord>)
    ensures r.Some? ==> r.value in db && r.value.id == id && r.value.deletedAt.None?
    ensures r.None? <==> forall u :: u in db && u.id == id ==> u.deletedAt.Some?
  {
    Lists.FindFirst(db, (u: UserRecord) => u.id == id && FindMatches(Unmentioned, u.deletedAt))
  }

  /** `findByEmailAndTenant`: lower-cases the email and matches a live user of that tenant. */
  function FindByEmailAndTenant(db: seq<UserRecord>, email: string, customerId: string): (r: Option<UserRecord>)
    ensures r.Some? ==> r.value in db && r.value.email == Lower(email)
                        && r.value.customerId == customerId && r.value.deletedAt.None?
    ensures r.None? <==> forall u :: u in db && u.email == Lower(email) && u.customerId == customerId ==> u.deletedAt.Some?
  {
    Lists.FindFirst(db, (u: UserRecord) => u.email == Lower(email) && u.customerId == customerId && FindMatches(OnlyLive, u.deletedAt))
  }

  /** `findActiveByTenant`: exactly the tenant's users that are live and active. */
  function FindActiveByTenant(db: seq<UserRecord>, customerId: string): (r: seq<UserRecord>)
    ensures forall u :: u in r <==> u in db && u.customerId == customerId && u.deletedAt.None? && u.isActive
  {
    Find(db, UserQuery(Some(customerId), None, Some(true), OnlyLive))
  }

  /** A lookup by email is case-insensitive in its argument: any spelling that
      lower-cases to the stored address finds the same user. */
  lemma EmailLookupIgnoresCase(db: seq<UserRecord>, email: string, customerId: string)
    ensures FindByEmailAndTenant(db, Lower(email), customerId) == FindByEmailAndTenant(db, email, customerId)
  {
    LowerIdempotent(email);
  }

  // ------------------------------------------------------------ virtuals / JSON

  /** The `fullName` virtual: first name, one space, last name. */
  function FullName(p: Profile): (r: string)
    ensures |r| == |p.firstName| + 1 + |p.lastName|
    ensures r[..|p.firstName|] == p.firstName && r[|p.firstName|] == ' ' && r[|p.firstName| + 1..] == p.lastName
  {
    p.firstName + " " + p.lastName
  }

  /** The top-level paths of a serialised user, and the two virtuals. */
  datatype Path =
    | IdPath | CustomerIdPath | EmailPath | PasswordPath | RolePath | ProfilePath | IsActivePath
    | LastLoginPath | DeletedAtPath | CreatedAtPath | UpdatedAtPath | IdVirtual | FullNameVirtual

  /** The key each path is written under. */
  function PathName(p: Path): string {
    match p
    case IdPath => "_id"
    case CustomerIdPath => "customerId"
    case EmailPath => "email"
    case PasswordPath => "password"
    case RolePath => "role"
    case ProfilePath => "profile"
    case IsActivePath => "isActive"
    case LastLoginPath => "lastLogin"
    case DeletedAtPath => "deletedAt"
    case CreatedAtPath => "createdAt"
    case UpdatedAtPath => "updatedAt"
    case IdVirtual => "id"
    case FullNameVirtual => "fullName"
  }

  /** The top-level paths of a loaded document; `lastLogin` once set, and
      `password` only when the query selected it. */
  function Document(u: UserRecord, passwordSelected: bool): (d: map<Path, Json>)
    ensures PasswordPath in d <==> passwordSelected
    ensures LastLoginPath in d <==> u.lastLogin.Some?
    ensures IdVirtual !in d && FullNameVirtual !in d
  {
    var base := map[
      IdPath := JString(u.id), CustomerIdPath := JString(u.customerId), EmailPath := JString(u.email),
      RolePath := JString(RoleName(u.role)), ProfilePath := JObject, IsActivePath := JBool(u.isActive),
      DeletedAtPath := (if u.deletedAt.Some? then JNumber(u.deletedAt.value) else JNull),
      CreatedAtPath := JNumber(u.createdAt), UpdatedAtPath := JNumber(u.updatedAt)];
    var seen := if u.lastLogin.Some? then base[LastLoginPath := JNumber(u.lastLogin.value)] else base;
    if passwordSelected then seen[PasswordPath := JString(u.password)] else seen
  }

  /** The virtuals `toJSON` adds once `virtuals` is on: Mongoose's `id`,
      the text of `_id`, and `fullName`. */
  function WithVirtuals(d: map<Path, Json>, u: UserRecord): (r: map<Path, Json>)
    ensures r.Keys == d.Keys + {IdVirtual, FullNameVirtual}
  {
    d[IdVirtual := JString(u.id)][FullNameVirtual := JString(FullName(u.profile))]
  }

  /** `toJSON` as the schema ends up configured: setting the option to
      `{ virtuals: true }` replaces the earlier option object, and with it
      the transform that deletes `password`. A document read with the
      password selected serialises the stored hash. */
  function ToJsonAsWritten(u: UserRecord, passwordSelected: bool): (r: map<Path, Json>)
    ensures PasswordPath in r <==> passwordSelected
    ensures forall k :: k in Document(u, passwordSelected) ==> k in r && r[k] == Document(u, passwordSelected)[k]
  {
    WithVirtuals(Document(u, passwordSelected), u)
  }

  /** The hash of a password-selected document reaches the JSON as written. */
  lemma PasswordSerialisedAsWritten(u: UserRecord)
    ensures PasswordPath in ToJsonAsWritten(u, true) && ToJsonAsWritten(u, true)[PasswordPath] == JString(u.password)
  {
  }

  /** `toJSON` as its authors meant it: the transform drops `password` and
      the virtuals are added. */
  function ToJson(u: UserRecord, passwordSelected: bool): (r: map<Path, Json>)
    ensures PasswordPath !in r
    ensures forall k :: k in Document(u, passwordSelected) && k != PasswordPath ==>
      k in r && r[k] == Document(u, passwordSelected)[k]
    ensures FullNameVirtual in r && r[FullNameVirtual] == JString(FullName(u.profile))
    ensures IdVirtual in r && r[IdVirtual] == JString(u.id)
  {
    WithVirtuals(Document(u, passwordSelected) - {PasswordPath}, u)
  }

  /** The intended output is the written one without the hash, and so does
      not depend on whether the query selected the password. */
  lemma ToJsonHidesOnlyPassword(u: UserRecord, passwordSelected: bool)
    ensures ToJson(u, passwordSelected) == ToJsonAsWritten(u, passwordSelected) - {PasswordPath}
    ensures ToJson(u, passwordSelected) == ToJson(u, false)
  {
    HidingCommutesWithVirtuals(Document(u, passwordSelected), u);
    HidingForgetsSelection(u);
  }

  lemma HidingCommutesWithVirtuals(d: map<Path, Json>, u: UserRecord)
    ensures WithVirtuals(d - {PasswordPath}, u) == WithVirtuals(d, u) - {PasswordPath}
  {
  }

  /** Without the password, a document does not show whether it was selected. */
  lemma HidingForgetsSelection(u: UserRecord)
    ensures Document(u, true) - {PasswordPath} == Document(u, false) - {PasswordPath}
  {
  }

  /** What a client can read back from a user's JSON. */
  datatype PublicUser = PublicUser(
    id: string, customerId: string, email: string, role: Role, isActive: bool,
    lastLogin: Option<int>, deletedAt: Option<int>, createdAt: int, updatedAt: int, fullName: string)

  function PublicOf(u: UserRecord): PublicUser {
    PublicUser(u.id, u.customerId, u.email, u.role, u.isActive, u.lastLogin, u.deletedAt,
               u.createdAt, u.updatedAt, FullName(u.profile))
  }

  /** A JSON time path: absent or null is no time. */
  function ReadTime(m: map<Path, Json>, p: Path): Option<Option<int>> {
    if p !in m || m[p] == JNull then Some(None)
    else if m[p].JNumber? then Some(Some(m[p].n))
    else None
  }

  /** A client's reading of a user's JSON; None when a path is missing or
      of the wrong kind. */
  function ReadPublic(m: map<Path, Json>): (r: Option<PublicUser>)
    ensures r.Some? ==> IdPath in m && m[IdPath] == JString(r.value.id)
    ensures r.Some? ==> RolePath in m && m[RolePath] == JString(RoleName(r.value.role))
  {
    if && IdPath in m && m[IdPath].JString? && CustomerIdPath in m && m[CustomerIdPath].JString?
       && EmailPath in m && m[EmailPath].JString? && RolePath in m && m[RolePath].JString?
       && ParseRole(m[RolePath].s).Some? && IsActivePath in m && m[IsActivePath].JBool?
       && ReadTime(m, LastLoginPath).Some? && ReadTime(m, DeletedAtPath).Some?
       && CreatedAtPath in m && m[CreatedAtPath].JNumber? && UpdatedAtPath in m && m[UpdatedAtPath].JNumber?
       && FullNameVirtual in m && m[FullNameVirtual].JString?
    then Some(PublicUser(m[IdPath].s, m[CustomerIdPath].s, m[EmailPath].s, ParseRole(m[RolePath].s).value,
                         m[IsActivePath].b, ReadTime(m, LastLoginPath).value, ReadTime(m, DeletedAtPath).value,
                         m[CreatedAtPath].n, m[UpdatedAtPath].n, m[FullNameVirtual].s))
    else None
  }

  /** The values a loaded document holds under each path it has. */
  lemma DocumentValues(u: UserRecord, passwordSelected: bool)
    ensures var d := Document(u, passwordSelected);
      && IdPath in d && d[IdPath] == JString(u.id)
      && CustomerIdPath in d && d[CustomerIdPath] == JString(u.customerId)
      && EmailPath in d && d[EmailPath] == JString(u.email)
      && RolePath in d && d[RolePath] == JString(RoleName(u.role))
      && IsActivePath in d && d[IsActivePath] == JBool(u.isActive)
      && DeletedAtPath in d && d[DeletedAtPath] == (if u.deletedAt.Some? then JNumber(u.deletedAt.value) else JNull)
      && CreatedAtPath in d && d[CreatedAtPath] == JNumber(u.createdAt)
      && UpdatedAtPath in d && d[UpdatedAtPath] == JNumber(u.updatedAt)
      && (u.lastLogin.Some? ==> d[LastLoginPath] == JNumber(u.lastLogin.value))
  {
  }

  /** Reading a user's JSON back recovers every public field of the record. */
  lemma ToJsonReadsBack(u: UserRecord, passwordSelected: bool)
    ensures ReadPublic(ToJson(u, passwordSelected)) == Some(PublicOf(u))
  {
    EnumerationsRoundTrip(u.role, TicketStatus.Open, TicketPriority.Low, AuditAction.Login);
    ToJsonDeletedAt(u, passwordSelected);
    ToJsonLastLogin(u, passwordSelected);
    DocumentValues(u, passwordSelected);
  }

  /** The JSON keeps the deletion time of the document. */
  lemma ToJsonDeletedAt(u: UserRecord, passwordSelected: bool)
    ensures ReadTime(ToJson(u, passwordSelected), DeletedAtPath) == Some(u.deletedAt)
  {
    var d := Document(u, passwordSelected);
    assert DeletedAtPath in d && d[DeletedAtPath] == (if u.deletedAt.Some? then JNumber(u.deletedAt.value) else JNull);
  }

  /** The JSON keeps the last login time, and has none before the first login. */
  lemma ToJsonLastLogin(u: UserRecord, passwordSelected: bool)
    ensures ReadTime(ToJson(u, passwordSelected), LastLoginPath) == Some(u.lastLogin)
  {
    var d := Document(u, passwordSelected);
    if u.lastLogin.Some? {
      assert d[LastLoginPath] == JNumber(u.lastLogin.value);
    }
  }
}

=== FILE: user_routes.dfy ===
/** The `/api/me` router: the caller's profile (read and update), the
    screens the caller's tenant configuration grants the caller's role, and
    the caller's own audit trail. All of it runs behind `authenticate`. */
module UserRoutes {
  import opened Common
  import opened Types
  import Paging
  import Lists
  import UserModel
  import AuditLogModel
  import AuthController
  import AdminRoutes

  const AuthenticationRequired: string := "Authentication required"
  const ValidationFailed: string := "Validation failed"
  const InternalError: string := "Internal server error"
  const UserNotFound: string := "User not found"
  const TenantNotConfigured: string := "Tenant configuration not found"
  const DefaultAuditLimit: int := 20

  // ---------------------------------------------------------------- screens

  /** A screen of a tenant's UI and the roles allowed to open it. */
  datatype Screen = Screen(id: string, name: string, url: string, icon: string, permissions: seq<Role>)

  datatype TenantConfig = TenantConfig(name: string, theme: string, screens: seq<Screen>)

  const LogisticsCo: TenantConfig := TenantConfig("Logistics Corporation", "blue", [
    Screen("support-tickets", "Support Tickets", "/support-tickets", "ticket", [User, Admin]),
    Screen("admin-dashboard", "Admin Dashboard", "/admin", "dashboard", [Admin])])

  const RetailGmbH: TenantConfig := TenantConfig("Retail GmbH", "green", [
    Screen("support-tickets", "Customer Support", "/support-tickets", "support", [User, Admin])])

  /** What `tenantConfigs[customerId]` yields on the object literal: a
      configuration, an inherited member (truthy, without `screens`), or
      `undefined`. */
  datatype ConfigLookup = Configured(config: TenantConfig) | InheritedMember | NoConfig

  /** `getTenantConfig` as written: a plain property read. */
  function TenantConfigAsWritten(customerId: string): (r: ConfigLookup)
    ensures r.Configured? <==> customerId in {"LogisticsCo", "RetailGmbH"}
    ensures r.InheritedMember? <==> customerId in InheritedNames
  {
    if customerId == "LogisticsCo" then Configured(LogisticsCo)
    else if customerId == "RetailGmbH" then Configured(RetailGmbH)
    else if customerId in InheritedNames then InheritedMember
    else NoConfig
  }

  /** `getTenantConfig` reading own properties only: the two configured
      tenants, and nothing for any other id. */
  function GetTenantConfig(customerId: string): (r: Option<TenantConfig>)
    ensures r.Some? <==> customerId in {"LogisticsCo", "RetailGmbH"}
    ensures TenantConfigAsWritten(customerId).Configured? ==> r == Some(TenantConfigAsWritten(customerId).config)
  {
    if customerId == "LogisticsCo" then Some(LogisticsCo)
    else if customerId == "RetailGmbH" then Some(RetailGmbH)
    else None
  }

  /** `screens.filter(screen => screen.permissions.includes(role))`: the
      screens the role may see, in the configured order. */
  function AvailableScreens(config: TenantConfig, role: Role): (r: seq<Screen>)
    ensures forall s :: s in r <==> s in config.screens && role in s.permissions
    ensures |r| <= |config.screens|
    ensures Lists.IsSubsequence(r, config.screens)
    ensures forall s :: multiset(r)[s] == if role in s.permissions then multiset(config.screens)[s] else 0
  {
    Lists.FilterKeepsOrder(config.screens, (s: Screen) => role in s.permissions);
    Lists.Filter(config.screens, (s: Screen) => role in s.permissions)
  }

  datatype ScreensData = ScreensData(tenantName: string, theme: string, screens: seq<Screen>)

  /** `GET /api/me/screens` as written. The tenant is the token's, not the
      tenant header's; an id that names an inherited member passes the
      `!tenantConfig` test and then fails on `screens.filter` (500). */
  function GetScreensAsWritten(ctx: RequestContext): (r: Reply<ScreensData>)
    ensures ctx.user.None? || ctx.user.value.customerId == "" ==> r == Error(401, AuthenticationRequired)
    ensures ctx.user.Some? && ctx.user.value.customerId in InheritedNames ==> r == Error(500, InternalError)
    ensures r.Success? ==>
      && ctx.user.Some?
      && var config := TenantConfigAsWritten(ctx.user.value.customerId);
      && config.Configured?
      && r.data == ScreensData(config.config.name, config.config.theme, AvailableScreens(config.config, ctx.user.value.role))
  {
    if ctx.user.None? || ctx.user.value.customerId == "" then Error(401, AuthenticationRequired)
    else match TenantConfigAsWritten(ctx.user.value.customerId)
      case NoConfig => Error(404, TenantNotConfigured)
      case InheritedMember => Error(500, InternalError)
      case Configured(config) =>
        Success(200, ScreensData(config.name, config.theme, AvailableScreens(config, ctx.user.value.role)))
  }

  /** `GET /api/me/screens` reading own properties only: every tenant
      without a configuration gets the 404. */
  function GetScreens(ctx: RequestContext): (r: Reply<ScreensData>)
    ensures ctx.user.None? || ctx.user.value.customerId == "" ==> r == Error(401, AuthenticationRequired)
    ensures r.Error? && r.status != 401 ==> r == Error(404, TenantNotConfigured)
    ensures ctx.user.Some? && ctx.user.value.customerId != "" ==>
      (r.Success? <==> GetTenantConfig(ctx.user.value.customerId).Some?)
    ensures r.Success? ==>
      && ctx.user.Some?
      && var config := GetTenantConfig(ctx.user.value.customerId).value;
      r.data == ScreensData(config.name, config.theme, AvailableScreens(config, ctx.user.value.role))
  {
    if ctx.user.None? || ctx.user.value.customerId == "" then Error(401, AuthenticationRequired)
    else match GetTenantConfig(ctx.user.value.customerId)
      case None => Error(404, TenantNotConfigured)
      case Some(config) => Success(200, ScreensData(config.name, config.theme, AvailableScreens(config, ctx.user.value.role)))
  }

  /** A user of tenant "constructor" gets a 500 from the handler as written
      and the 404 of an unconfigured tenant from the corrected lookup. */
  lemma InheritedNameIs500AsWritten(c: Claims)
    requires c.customerId == "constructor"
    ensures GetScreensAsWritten(RequestContext(Some(c), Some(c.customerId))) == Error(500, InternalError)
    ensures GetScreens(RequestContext(Some(c), Some(c.customerId))) == Error(404, TenantNotConfigured)
  {
  }

  /** Who sees which screen: in LogisticsCo an admin sees both screens in
      their configured order and a user only the ticket screen; in
      RetailGmbH both see the support screen; a super admin is listed in
      no screen's permissions and sees none. */
  lemma ScreensByRole()
    ensures AvailableScreens(LogisticsCo, Admin) == LogisticsCo.screens
    ensures AvailableScreens(LogisticsCo, User) == [LogisticsCo.screens[0]]
    ensures AvailableScreens(RetailGmbH, Admin) == RetailGmbH.screens == AvailableScreens(RetailGmbH, User)
    ensures AvailableScreens(LogisticsCo, SuperAdmin) == [] && AvailableScreens(RetailGmbH, SuperAdmin) == []
  {
    var l := LogisticsCo.screens;
    assert l[1..][1..] == [];
    var r := RetailGmbH.screens;
    assert r[1..] == [];
  }

  // ---------------------------------------------------------------- profile

  /** `GET /api/me/profile`: the caller's live user record without its
      password. A user id that is not an ObjectId fails to cast (500). */
  function GetProfile(ctx: RequestContext, users: seq<UserModel.UserRecord>): (r: Reply<AuthController.PublicUser>)
    ensures ctx.user.None? || ctx.user.value.userId == "" ==> r == Error(401, AuthenticationRequired)
    ensures r.Success? <==>
      ctx.user.Some? && IsObjectId(ctx.user.value.userId) && UserModel.FindById(users, ctx.user.value.userId).Some?
    ensures r.Success? ==> r == Success(200, AuthController.Public(UserModel.FindById(users, ctx.user.value.userId).value))
    ensures r.Error? && r.status == 404 ==> r.message == UserNotFound
  {
    if ctx.user.None? || ctx.user.value.userId == "" then Error(401, AuthenticationRequired)
    else if !IsObjectId(ctx.user.value.userId) then Error(500, InternalError)
    else match UserModel.FindById(users, ctx.user.value.userId)
      case None => Error(404, UserNotFound)
      case Some(u) => Success(200, AuthController.Public(u))
  }

  /** The body of `PUT /api/me/profile`, with the `isURL` verdict on the avatar. */
  datatype ProfileBody = ProfileBody(firstName: Option<string>, lastName: Option<string>,
                                     avatar: Option<string>, avatarIsUrl: bool)

  /** The profile validators: a present name (even "") has 1 to 50
      characters before trimming; a present avatar is a URL. */
  predicate ValidProfile(b: ProfileBody) {
    && (b.firstName.Some? ==> 1 <= |b.firstName.value| <= UserModel.NameMaxLength)
    && (b.lastName.Some? ==> 1 <= |b.lastName.value| <= UserModel.NameMaxLength)
    && (b.avatar.Some? ==> b.avatarIsUrl)
  }

  /** `if (firstName) …; if (lastName) …; if (avatar !== undefined) …`: a
      name that is absent or trims to nothing is kept, an avatar that is
      present replaces the stored one. */
  function MergeProfile(p: UserModel.Profile, b: ProfileBody): (r: UserModel.Profile)
    ensures r.firstName == (if Trimmed(b.firstName).Some? then Trim(b.firstName.value) else p.firstName)
    ensures r.lastName == (if Trimmed(b.lastName).Some? then Trim(b.lastName.value) else p.lastName)
    ensures r.avatar == (if b.avatar.Some? then Some(Trim(b.avatar.value)) else p.avatar)
  {
    UserModel.Profile(Trimmed(b.firstName).GetOr(p.firstName), Trimmed(b.lastName).GetOr(p.lastName),
                      if b.avatar.Some? then Some(Trim(b.avatar.value)) else p.avatar)
  }

  /** Sending the same profile update twice is sending it once, and an
      empty update changes nothing. */
  lemma MergeProfileIdempotent(p: UserModel.Profile, b: ProfileBody)
    ensures MergeProfile(MergeProfile(p, b), b) == MergeProfile(p, b)
    ensures b.firstName.None? && b.lastName.None? && b.avatar.None? ==> MergeProfile(p, b) == p
  {
  }

  /** A reply with the user collection afterwards. */
  datatype Outcome = Outcome(reply: Reply<AuthController.PublicUser>, users: seq<UserModel.UserRecord>)

  /** `PUT /api/me/profile`: validation, then the caller's live record, then
      the merged profile is saved. Nothing outside the profile changes, and
      no other user is touched. */
  function UpdateProfile(ctx: RequestContext, b: ProfileBody, users: seq<UserModel.UserRecord>): (r: Outcome)
    ensures !ValidProfile(b) ==> r == Outcome(Error(400, ValidationFailed), users)
    ensures r.reply.Error? ==> r.users == users
    ensures r.reply.Success? <==> ValidProfile(b) && GetProfile(ctx, users).Success?
    ensures r.reply.Success? ==>
      var u := UserModel.FindById(users, ctx.user.value.userId).value;
      && r.reply == Success(200, AuthController.Public(u.(profile := MergeProfile(u.profile, b))))
      && |r.users| == |users|
      && forall i :: 0 <= i < |users| ==>
           r.users[i] == (if users[i].id == u.id then u.(profile := MergeProfile(u.profile, b)) else users[i])
  {
    if !ValidProfile(b) then Outcome(Error(400, ValidationFailed), users)
    else if ctx.user.None? || ctx.user.value.userId == "" then Outcome(Error(401, AuthenticationRequired), users)
    else if !IsObjectId(ctx.user.value.userId) then Outcome(Error(500, InternalError), users)
    else match UserModel.FindById(users, ctx.user.value.userId)
      case None => Outcome(Error(404, UserNotFound), users)
      case Some(u) =>
        var u' := u.(profile := MergeProfile(u.profile, b));
        Outcome(Success(200, AuthController.Public(u')),
                Lists.ReplaceById(users, (x: UserModel.UserRecord) => x.id, u.id, u'))
  }

  /** A validated profile update keeps the names within the schema's bound. */
  lemma UpdateKeepsNameBounds(p: UserModel.Profile, b: ProfileBody)
    requires ValidProfile(b)
    requires |p.firstName| <= UserModel.NameMaxLength && |p.lastName| <= UserModel.NameMaxLength
    ensures |MergeProfile(p, b).firstName| <= UserModel.NameMaxLength
    ensures |MergeProfile(p, b).lastName| <= UserModel.NameMaxLength
  {
  }

  // ------------------------------------------------------------- audit trail

  /** The query string of `GET /api/me/audit-logs`. */
  datatype MyAuditQuery = MyAuditQuery(page: Option<int>, limit: Option<int>, action: Option<string>,
                                       startDate: AdminRoutes.DateParam, endDate: AdminRoutes.DateParam)

  /** `GET /api/me/audit-logs`: the caller's own events in the caller's
      tenant, page 1 and limit 20 by default; the total uses the time range
      only when both dates are given. */
  function MyAuditLogs(ctx: RequestContext, q: MyAuditQuery, log: seq<AuditLogModel.AuditEvent>)
    : (r: Reply<Paging.Listing<AuditLogModel.AuditEvent>>)
    ensures ctx.user.None? || ctx.user.value.userId == "" || ctx.user.value.customerId == "" ==>
      r == Error(401, AuthenticationRequired)
    ensures ctx.user.Some? && ctx.user.value.userId != "" && ctx.user.value.customerId != ""
            && (q.startDate.InvalidDate? || q.endDate.InvalidDate? || !IsObjectId(ctx.user.value.userId)) ==>
      r == Error(500, InternalError)
    ensures r.Error? ==> r.status in {401, 500}
    ensures r.Success? ==>
      && ctx.user.Some? && r.status == 200
      && r.data.page == Paging.OrDefault(q.page, 1)
      && r.data.skip == (r.data.page - 1) * r.data.limit
      && r.data.limit == Paging.OrDefault(q.limit, DefaultAuditLimit)
      && forall e :: e in r.data.matching <==>
           && e in log && e.userId == ctx.user.value.userId && e.customerId == ctx.user.value.customerId
           && (Present(q.action) ==> ActionName(e.action) == q.action.value)
           && (q.startDate.Instant? ==> e.timestamp >= q.startDate.ms)
           && (q.endDate.Instant? ==> e.timestamp <= q.endDate.ms)
  {
    if ctx.user.None? || ctx.user.value.userId == "" || ctx.user.value.customerId == "" then
      Error(401, AuthenticationRequired)
    else if q.startDate.InvalidDate? || q.endDate.InvalidDate? || !IsObjectId(ctx.user.value.userId) then
      Error(500, InternalError)
    else
      var c := ctx.user.value.customerId;
      var query := AuditLogModel.FindByTenant(c, AuditLogModel.FindOptions(
        q.action, Some(ctx.user.value.userId), None, None,
        AdminRoutes.DateValue(q.startDate), AdminRoutes.DateValue(q.endDate),
        q.page, Some(Paging.OrDefault(q.limit, DefaultAuditLimit)), Some("-timestamp")));
      if query.skip < 0 then Error(500, InternalError)
      else
        var countFilter := AdminRoutes.AuditCountFilter(c, AdminRoutes.AuditListQuery(
          q.page, q.limit, q.action, Some(ctx.user.value.userId), None, q.startDate, q.endDate));
        var total := AuditLogModel.CountMatching(log, countFilter);
        Success(200, Paging.Listing(AuditLogModel.Select(log, query.filter), query.skip, Paging.OrDefault(q.page, 1),
                                    query.limit, total, Paging.TotalPages(total, query.limit)))
  }

  /** The same request as a query of the admin audit-log list: the caller's
      own id as the user filter and this route's default limit. */
  function AsAdminQuery(userId: string, q: MyAuditQuery): AdminRoutes.AuditListQuery {
    AdminRoutes.AuditListQuery(q.page, Some(Paging.OrDefault(q.limit, DefaultAuditLimit)), q.action, Some(userId),
                               None, q.startDate, q.endDate)
  }

  /** A caller's own audit trail is the admin audit-log list of the caller's
      tenant filtered to the caller's user id, reply for reply (errors
      included); so with both date bounds or neither, and no empty action,
      its total is the number of events it lists. */
  lemma MyAuditLogsIsOwnAdminListing(ctx: RequestContext, q: MyAuditQuery, log: seq<AuditLogModel.AuditEvent>)
    requires ctx.user.Some? && ctx.user.value.userId != "" && ctx.user.value.customerId != ""
    ensures MyAuditLogs(ctx, q, log)
         == AdminRoutes.ListAuditLogs(RequestContext(ctx.user, Some(ctx.user.value.customerId)),
                                      AsAdminQuery(ctx.user.value.userId, q), log)
    ensures MyAuditLogs(ctx, q, log).Success? && (q.startDate.Instant? <==> q.endDate.Instant?) && q.action != Some("")
            ==> MyAuditLogs(ctx, q, log).data.total == |MyAuditLogs(ctx, q, log).data.matching|
  {
    var c := RequestContext(ctx.user, Some(ctx.user.value.customerId));
    var aq := AsAdminQuery(ctx.user.value.userId, q);
    if AdminRoutes.ListAuditLogs(c, aq, log).Success? && (q.startDate.Instant? <==> q.endDate.Instant?) && q.action != Some("") {
      AdminRoutes.AuditTotalMatchesListing(c, aq, log);
    }
  }
}

=== FILE: webhook_routes.dfy ===
/** The `/api/webhook` router: the two endpoints the workflow engine calls
    back, authenticated by a shared secret header instead of a token. Each
    writes one audit event whose actor is "system". */
module WebhookRoutes {
  import opened Common
  import opened Types
  import TicketModel
  import AuditLogModel
  import AuthMiddleware

  const DefaultSecret: string := "your-webhook-secret"
  const InvalidSignature: string := "Invalid webhook signature"
  const MissingTicketFields: string := "Missing required fields: ticketId, status"
  const MissingWorkflowFields: string := "Missing required fields: workflowId, status"
  const TicketNotFound: string := "Ticket not found"
  const InternalError: string := "Internal server error"
  const WebhookAgent: string := "n8n-webhook"

  /** `process.env.N8N_WEBHOOK_SECRET || 'your-webhook-secret'` */
  function ConfiguredSecret(env: Option<string>): (r: string)
    ensures r != ""
    ensures Present(env) ==> r == env.value
  {
    AuthMiddleware.Or(env, Some(DefaultSecret)).value
  }

  /** `!signature || signature !== webhookSecret` fails the request. */
  predicate SignatureValid(signature: Option<string>, env: Option<string>) {
    Present(signature) && signature.value == ConfiguredSecret(env)
  }

  /** The user agent a webhook event records: the header, or "n8n-webhook". */
  function WebhookUserAgent(client: AuthMiddleware.ClientInfo): (r: string)
    ensures r != ""
    ensures Present(client.userAgent) ==> r == client.userAgent.value
  {
    AuthMiddleware.Or(client.userAgent, Some(WebhookAgent)).value
  }

  /** The effect of one webhook call: the reply, the tickets and the audit log afterwards. */
  datatype Outcome<T> = Outcome(reply: Reply<T>, tickets: seq<TicketModel.TicketRecord>,
                                log: seq<AuditLogModel.AuditEvent>)

  // ------------------------------------------------------------- ticket-done

  datatype TicketDoneBody = TicketDoneBody(ticketId: Option<string>, status: Option<string>,
                                           assignedTo: Option<string>, workflowId: Option<string>)

  datatype TicketDoneData = TicketDoneData(ticketId: string, status: string)

  /** The ticket after the webhook's assignments: the status always, the
      assignee and the workflow id when truthy. The `workflowId` path trims
      on assignment, so a truthy id of spaces is stored as the empty text. */
  function Apply(t: TicketModel.TicketRecord, status: TicketStatus, b: TicketDoneBody): (r: TicketModel.TicketRecord)
    ensures r.status == status
    ensures r.assignedTo == (if Present(b.assignedTo) then b.assignedTo else t.assignedTo)
    ensures Present(b.workflowId) ==> r.workflowId.Some? && r.workflowId.value == Trim(b.workflowId.value)
    ensures !Present(b.workflowId) ==> r.workflowId == t.workflowId
    ensures r.(status := t.status, assignedTo := t.assignedTo, workflowId := t.workflowId) == t
  {
    t.(status := status,
       assignedTo := if Present(b.assignedTo) then b.assignedTo else t.assignedTo,
       workflowId := if Present(b.workflowId) then Some(Trim(b.workflowId.value)) else t.workflowId)
  }

  /** Applying the same callback twice is applying it once: every value the
      callback assigns comes from the callback, not from the ticket it overwrites. */
  lemma ApplyIdempotent(t: TicketModel.TicketRecord, status: TicketStatus, b: TicketDoneBody)
    ensures Apply(Apply(t, status, b), status, b) == Apply(t, status, b)
  {
  }

  /** The WORKFLOW_TRIGGER event the handler logs for the ticket. */
  function TicketEvent(t: TicketModel.TicketRecord, ticketId: string, ip: string, agent: string, nowMs: int)
    : (e: AuditLogModel.AuditEvent)
    ensures e.customerId == t.customerId && e.userId == AuditLogModel.SystemActor
    ensures e.action == WorkflowTrigger && e.timestamp == nowMs
  {
    AuditLogModel.LogEvent(AuditLogModel.EventInput(
      t.customerId, AuditLogModel.SystemActor, WorkflowTrigger, "Ticket", Some(ticketId), ip, agent, None), nowMs)
  }

  /** The `auditLog('WEBHOOK_RECEIVED', 'Webhook')` wrapper around the
      handler's reply: a webhook carries no principal, so it records nothing. */
  function WrapperLog(b: TicketDoneBody, client: AuthMiddleware.ClientInfo, status: int,
                      log: seq<AuditLogModel.AuditEvent>, nowMs: int): (r: seq<AuditLogModel.AuditEvent>)
    ensures r == log
  {
    AuthMiddleware.AuditedSend(AuthMiddleware.AuditContext(None, None, b.ticketId, client),
                               WebhookReceived, "Webhook", status, log, nowMs).log
  }

  /** `POST /api/webhook/ticket-done`, with the audit schema chosen by
      `asWritten`. The ticket is saved before the event is written, so a
      refused event leaves the ticket updated and answers 500. */
  function TicketDoneWith(signature: Option<string>, env: Option<string>, b: TicketDoneBody,
                          client: AuthMiddleware.ClientInfo, tickets: seq<TicketModel.TicketRecord>,
                          log: seq<AuditLogModel.AuditEvent>, nowMs: int, asWritten: bool)
    : (r: Outcome<TicketDoneData>)
    ensures !SignatureValid(signature, env) ==> r == Outcome(Error(401, InvalidSignature), tickets, log)
    ensures SignatureValid(signature, env) && (!Present(b.ticketId) || !Present(b.status)) ==>
      r == Outcome(Error(400, MissingTicketFields), tickets, log)
    ensures r.reply.Error? && r.reply.status == 404 ==> r.reply.message == TicketNotFound
    ensures !ReachesAuditWrite(signature, env, b, tickets) ==> r.reply.Error? && r.tickets == tickets && r.log == log
    ensures ReachesAuditWrite(signature, env, b, tickets) ==>
      var t := TicketModel.FindById(tickets, b.ticketId.value).value;
      var e := TicketEvent(t, b.ticketId.value, client.IpAddress(), WebhookUserAgent(client), nowMs);
      && r.tickets == TicketModel.Save(tickets, Apply(t, ParseStatus(b.status.value).value, b))
      && (r.reply.Success? <==> Accepts(e, asWritten))
      && (r.reply.Success? ==> r.reply == Success(200, TicketDoneData(b.ticketId.value, b.status.value)) && r.log == log + [e])
      && (r.reply.Error? ==> r.reply == Error(500, InternalError) && r.log == log)
  {
    if !SignatureValid(signature, env) then Outcome(Error(401, InvalidSignature), tickets, log)
    else if !Present(b.ticketId) || !Present(b.status) then Outcome(Error(400, MissingTicketFields), tickets, log)
    else
      var ticketId := b.ticketId.value;
      var handled: Outcome<TicketDoneData> :=
        if !IsObjectId(ticketId) then Outcome(Error(500, InternalError), tickets, log)
        else match TicketModel.FindById(tickets, ticketId)
          case None => Outcome(Error(404, TicketNotFound), tickets, log)
          case Some(t) =>
            match ParseStatus(b.status.value)
            case None => Outcome(Error(500, InternalError), tickets, log)
            case Some(status) =>
              var t' := Apply(t, status, b);
              if !TicketModel.SchemaValid(t') then Outcome(Error(500, InternalError), tickets, log)
              else
                var saved := TicketModel.Save(tickets, t');
                var e := TicketEvent(t, ticketId, client.IpAddress(), WebhookUserAgent(client), nowMs);
                var written := if asWritten then AuditLogModel.AppendAsWritten(log, e) else AuditLogModel.Append(log, e);
                match written
                case Err(_) => Outcome(Error(500, InternalError), saved, log)
                case Ok(log') => Outcome(Success(200, TicketDoneData(ticketId, b.status.value)), saved, log');
      handled.(log := WrapperLog(b, client, handled.reply.status, handled.log, nowMs))
  }

  /** Whether the audit schema, as written or corrected, takes the event. */
  predicate Accepts(e: AuditLogModel.AuditEvent, asWritten: bool) {
    if asWritten then AuditLogModel.SchemaAcceptsAsWritten(e) else AuditLogModel.SchemaAccepts(e)
  }

  /** Everything that must hold for the handler to reach its audit write:
      the signature, both fields, a stored live ticket, a known status and a
      ticket the schema still accepts after the assignments. */
  predicate ReachesAuditWrite(signature: Option<string>, env: Option<string>, b: TicketDoneBody,
                              tickets: seq<TicketModel.TicketRecord>) {
    && SignatureValid(signature, env) && Present(b.ticketId) && Present(b.status)
    && IsObjectId(b.ticketId.value)
    && TicketModel.FindById(tickets, b.ticketId.value).Some?
    && ParseStatus(b.status.value).Some?
    && TicketModel.SchemaValid(Apply(TicketModel.FindById(tickets, b.ticketId.value).value, ParseStatus(b.status.value).value, b))
  }

  /** `POST /api/webhook/ticket-done` as written. The audit schema refuses the
      actor "system", so the handler never answers 200, and when it gets as
      far as the audit write the ticket has already been saved: the caller
      sees 500 for an update that took effect. */
  function TicketDoneAsWritten(signature: Option<string>, env: Option<string>, b: TicketDoneBody,
                               client: AuthMiddleware.ClientInfo, tickets: seq<TicketModel.TicketRecord>,
                               log: seq<AuditLogModel.AuditEvent>, nowMs: int): (r: Outcome<TicketDoneData>)
    ensures r.reply.Error? && r.log == log
    ensures ReachesAuditWrite(signature, env, b, tickets) ==>
      var t := TicketModel.FindById(tickets, b.ticketId.value).value;
      r == Outcome(Error(500, InternalError),
                   TicketModel.Save(tickets, Apply(t, ParseStatus(b.status.value).value, b)), log)
  {
    TicketDoneWith(signature, env, b, client, tickets, log, nowMs, true)
  }

  /** `POST /api/webhook/ticket-done` with "system" admitted as an actor: once
      the audit write is reached and the event fits the schema's bounds,
      the ticket is saved, the event appended and the reply is 200. */
  function TicketDone(signature: Option<string>, env: Option<string>, b: TicketDoneBody,
                      client: AuthMiddleware.ClientInfo, tickets: seq<TicketModel.TicketRecord>,
                      log: seq<AuditLogModel.AuditEvent>, nowMs: int): (r: Outcome<TicketDoneData>)
    ensures r.reply.Success? <==>
      ReachesAuditWrite(signature, env, b, tickets)
      && AuditLogModel.BoundsHold(TicketEvent(TicketModel.FindById(tickets, b.ticketId.value).value, b.ticketId.value, client.IpAddress(), WebhookUserAgent(client), nowMs))
    ensures r.reply.Success? ==>
      var t := TicketModel.FindById(tickets, b.ticketId.value).value;
      && r.reply == Success(200, TicketDoneData(b.ticketId.value, b.status.value))
      && r.tickets == TicketModel.Save(tickets, Apply(t, ParseStatus(b.status.value).value, b))
      && r.log == log + [TicketEvent(t, b.ticketId.value, client.IpAddress(), WebhookUserAgent(client), nowMs)]
  {
    TicketDoneWith(signature, env, b, client, tickets, log, nowMs, false)
  }

  /** The event of a ticket that passed the schema fits the audit schema
      whenever the client's address and agent do. */
  lemma TicketEventFits(t: TicketModel.TicketRecord, ticketId: string, ip: string, agent: string, nowMs: int)
    requires t.customerId != "" && |ticketId| <= AuditLogModel.ResourceIdMaxLength
    requires Trim(ip) != ""
    requires 1 <= |Trim(agent)| <= AuditLogModel.UserAgentMaxLength
    ensures AuditLogModel.BoundsHold(TicketEvent(t, ticketId, ip, agent, nowMs))
  {
    TicketTypeLength();
    AuditLogModel.LogEventWithinBounds(AuditLogModel.EventInput(
      t.customerId, AuditLogModel.SystemActor, WorkflowTrigger, "Ticket", Some(ticketId), ip, agent, None), nowMs);
  }

  lemma TicketTypeLength()
    ensures |Trim("Ticket")| == 6
  {
    TrimKeeps("Ticket");
  }

  /** A well-formed callback for a live ticket is stored and logged by the
      corrected handler, while the handler as written stores the same ticket
      and answers 500 without logging. */
  lemma TicketDoneSucceeds(signature: Option<string>, env: Option<string>, b: TicketDoneBody,
                           client: AuthMiddleware.ClientInfo, tickets: seq<TicketModel.TicketRecord>,
                           log: seq<AuditLogModel.AuditEvent>, nowMs: int)
    requires ReachesAuditWrite(signature, env, b, tickets)
    requires Trim(client.IpAddress()) != ""
    requires 1 <= |Trim(WebhookUserAgent(client))| <= AuditLogModel.UserAgentMaxLength
    ensures TicketDone(signature, env, b, client, tickets, log, nowMs).reply.Success?
    ensures TicketDoneAsWritten(signature, env, b, client, tickets, log, nowMs).tickets
         == TicketDone(signature, env, b, client, tickets, log, nowMs).tickets
  {
    var t := TicketModel.FindById(tickets, b.ticketId.value).value;
    assert t.customerId != "" by {
      assert TicketModel.SchemaValid(Apply(t, ParseStatus(b.status.value).value, b));
    }
    TicketEventFits(t, b.ticketId.value, client.IpAddress(), WebhookUserAgent(client), nowMs);
  }

  // ------------------------------------------------------------- n8n-status

  datatype StatusBody = StatusBody(workflowId: Option<string>, status: Option<string>)

  /** The WORKFLOW_TRIGGER event of a workflow status report: tenant and
      actor are both "system". */
  function WorkflowEvent(workflowId: string, client: AuthMiddleware.ClientInfo, nowMs: int): (e: AuditLogModel.AuditEvent)
    ensures e.customerId == AuditLogModel.SystemActor && e.userId == AuditLogModel.SystemActor
    ensures e.action == WorkflowTrigger && e.timestamp == nowMs
  {
    AuditLogModel.LogEvent(AuditLogModel.EventInput(
      AuditLogModel.SystemActor, AuditLogModel.SystemActor, WorkflowTrigger, "Workflow", Some(workflowId),
      client.IpAddress(), WebhookUserAgent(client), None), nowMs)
  }

  /** `POST /api/webhook/n8n-status`, with the audit schema chosen by
      `asWritten`: the event is the whole effect, the tickets are left as
      they are, and a refused event is a 500. */
  function N8nStatusWith(signature: Option<string>, env: Option<string>, b: StatusBody,
                         client: AuthMiddleware.ClientInfo, tickets: seq<TicketModel.TicketRecord>,
                         log: seq<AuditLogModel.AuditEvent>, nowMs: int, asWritten: bool): (r: Outcome<string>)
    ensures !SignatureValid(signature, env) ==> r == Outcome(Error(401, InvalidSignature), tickets, log)
    ensures SignatureValid(signature, env) && (!Present(b.workflowId) || !Present(b.status)) ==>
      r == Outcome(Error(400, MissingWorkflowFields), tickets, log)
    ensures r.tickets == tickets
    ensures r.reply.Success? <==>
      SignatureValid(signature, env) && Present(b.workflowId) && Present(b.status)
      && var e := WorkflowEvent(b.workflowId.value, client, nowMs);
         if asWritten then AuditLogModel.SchemaAcceptsAsWritten(e) else AuditLogModel.SchemaAccepts(e)
    ensures r.reply.Success? ==>
      && r.reply == Success(200, WorkflowLogged)
      && r.log == log + [WorkflowEvent(b.workflowId.value, client, nowMs)]
    ensures r.reply.Error? ==> r.log == log
  {
    if !SignatureValid(signature, env) then Outcome(Error(401, InvalidSignature), tickets, log)
    else if !Present(b.workflowId) || !Present(b.status) then Outcome(Error(400, MissingWorkflowFields), tickets, log)
    else
      var e := WorkflowEvent(b.workflowId.value, client, nowMs);
      var written := if asWritten then AuditLogModel.AppendAsWritten(log, e) else AuditLogModel.Append(log, e);
      match written
      case Err(_) => Outcome(Error(500, InternalError), tickets, log)
      case Ok(log') => Outcome(Success(200, WorkflowLogged), tickets, log')
  }

  const WorkflowLogged: string := "Workflow status logged successfully"

  /** `POST /api/webhook/n8n-status` as written: every event it writes has
      the actor "system", which the audit schema refuses, so it never
      answers 200 and never logs. */
  function N8nStatusAsWritten(signature: Option<string>, env: Option<string>, b: StatusBody,
                              client: AuthMiddleware.ClientInfo, tickets: seq<TicketModel.TicketRecord>,
                              log: seq<AuditLogModel.AuditEvent>, nowMs: int)
    : (r: Outcome<string>)
    ensures r.reply.Error? && r.log == log && r.tickets == tickets
    ensures SignatureValid(signature, env) && Present(b.workflowId) && Present(b.status) ==>
      r.reply == Error(500, InternalError)
  {
    N8nStatusWith(signature, env, b, client, tickets, log, nowMs, true)
  }

  /** `POST /api/webhook/n8n-status` with "system" admitted as an actor. */
  function N8nStatus(signature: Option<string>, env: Option<string>, b: StatusBody,
                     client: AuthMiddleware.ClientInfo, tickets: seq<TicketModel.TicketRecord>,
                     log: seq<AuditLogModel.AuditEvent>, nowMs: int)
    : (r: Outcome<string>)
    ensures r.reply.Success? <==>
      SignatureValid(signature, env) && Present(b.workflowId) && Present(b.status)
      && AuditLogModel.BoundsHold(WorkflowEvent(b.workflowId.value, client, nowMs))
    ensures r.reply.Success? ==> r.log == log + [WorkflowEvent(b.workflowId.value, client, nowMs)]
    ensures r.tickets == tickets
  {
    N8nStatusWith(signature, env, b, client, tickets, log, nowMs, false)
  }

  lemma WorkflowTypeLength()
    ensures |Trim("Workflow")| == 8
  {
    TrimKeeps("Workflow");
  }

  /** A signed report with both fields, a workflow id of at most 100
      characters and a usable client address and agent is logged. */
  lemma N8nStatusSucceeds(signature: Option<string>, env: Option<string>, b: StatusBody,
                          client: AuthMiddleware.ClientInfo, tickets: seq<TicketModel.TicketRecord>,
                          log: seq<AuditLogModel.AuditEvent>, nowMs: int)
    requires SignatureValid(signature, env) && Present(b.workflowId) && Present(b.status)
    requires |b.workflowId.value| <= AuditLogModel.ResourceIdMaxLength
    requires Trim(client.IpAddress()) != ""
    requires 1 <= |Trim(WebhookUserAgent(client))| <= AuditLogModel.UserAgentMaxLength
    ensures N8nStatus(signature, env, b, client, tickets, log, nowMs).reply == Success(200, WorkflowLogged)
  {
    WorkflowTypeLength();
    AuditLogModel.LogEventWithinBounds(AuditLogModel.EventInput(
      AuditLogModel.SystemActor, AuditLogModel.SystemActor, WorkflowTrigger, "Workflow", Some(b.workflowId.value),
      client.IpAddress(), WebhookUserAgent(client), None), nowMs);
  }
}
